=== FILE: README.md ===
# Auto Notes call pipeline in Dafny

A Dafny model of the core of Auto Notes, a small web application that turns sales-call
transcripts into structured call records. The model covers:

- the **heuristic extractor** (`buildCallFromTranscript`): sentence splitting, keyword
  sentiment, next steps, objections, tags, fallback metadata and the duration estimate;
- the **agent client** (`neuralseek.ts`): configuration checks, request parameters, the
  merge of flat and expanded variables, probing of alternate key names with `??`, and the
  tolerant coercion of loosely typed values into lists, numbers, strings and sentiment
  readings, for both the call-notes agent and the financial-health agent;
- the **merge and routing** (`buildCallFromNeuralSeek`, `buildCallRecord`): the agent's
  fields over the heuristic record, and the heuristic record alone when the agent is not
  configured;
- the **CSV export** (`escapeCell`, the header row, `serializeCallsToCsv`), with a reader for
  the same dialect so that the export is shown to lose nothing;
- `formatDuration`, with a reader that shows its rendering of a positive count is exact;
- the **calls provider** state (`CallsContext.tsx`): the initial state, `getCallById`,
  `processTranscript`, `updateSheetSettings` and the two halves of the health check;
- the **calls page** (`CallsPage.tsx`): the search and sentiment filter and the stat cards.

Everything is pure functions over immutable datatypes. Other inputs become parameters:

- the clock, the id generator and `Math.random` (a real in `[0, 1)`);
- the HTTP exchange: a function `send` from the request to a raw response or an error;
- the host conversions (`JSON.parse`, `JSON.stringify` of the metadata, `String` of a
  number, `toFixed(0)`, `toISOString`).

JavaScript's `Number(text)` is modelled concretely over exact reals (ECMA-262 string numeric
literals without `Infinity`).

Modules: `Outcomes` (Option and Result), `Text` (trim, lower case, `includes`, `join`,
decimal numerals), `Lists` (filter, `new Set` deduplication), `CallTypes` (the records of
`src/types/call.ts`), `JsValues`, `JsNumbers`, `NeuralSeek`, `Transcript`, `Csv`,
`Formatters` and `DurationReading`, `CallsContext`, `CallsPage`.

Some behaviours of the code are easy to misread; the model states them as the code has them:

- The tags of a heuristic record can be empty: with a blank account and owner and no theme
  keyword, `deriveTags` returns `[]` (`Transcript.DeriveTagsCanBeEmpty`).
- Key probing uses `??`, so the first alternate name whose value is neither `null` nor
  `undefined` decides a field even when that value is blank or unreadable; a blank first
  value does not fall through to the next name (`NeuralSeek.FirstPresentKeyDecides`,
  `NeuralSeek.BlankSummaryDoesNotFallThrough`).
- `parseSentimentValue` always yields a label and a number, so the merged record's
  sentiment and score always come from the agent and the heuristic's reading never reaches
  it (`Transcript.MergeSentimentIgnoresFallback`).
- `processTranscript` in the provider builds the record with the heuristic extractor
  directly, never through `buildCallRecord` (`CallsContext.ProcessTranscript`).
- The placeholder for a missing duration or average is, as written in the source, the three
  characters U+00E2 U+20AC U+201D (the UTF-8 bytes of an em dash read as Windows-1252).

## Model

| member | source | states |
|---|---|---|
| Text.Trim | src/utils/transcript.ts:35 | `trim` keeps the slice of the text between its leading and trailing white space; the result is trimmed, and empty exactly when the text is all white space |
| Text.TrimAfterTrimStart | src/utils/transcript.ts:60 | removing leading white space before `trim` changes nothing |
| Text.TrimIdempotent | src/utils/neuralseek.ts:75 | trimming a trimmed string changes nothing |
| Text.Lower | src/pages/CallsPage.tsx:39 | for the modelled characters (ASCII and KELVIN SIGN), `toLowerCase` maps each character on its own and keeps the length |
| Text.LowerIdempotent | src/pages/CallsPage.tsx:39-45 | lower-casing twice is lower-casing once |
| Text.ContainsIff | src/pages/CallsPage.tsx:43-45 | `includes` holds exactly when the word occurs at some index |
| Text.ContainsAtMostAsLong | src/utils/neuralseek.ts:110-112 | a word occurs in text no longer than itself only as the whole text |
| Text.Join | src/utils/transcript.ts:93 | joining nothing gives empty text; a join opens with its first element |
| Text.JoinNonEmpty | src/utils/transcript.ts:92-94 | a join holding a non-empty element is not empty |
| Text.NatToStringRoundTrip | src/pages/CallsPage.tsx:31 | the decimal form of a count reads back as the count |
| Text.NatToStringInjective | src/pages/CallsPage.tsx:31-34 | distinct counts render differently |
| Lists.Filter | src/pages/CallsPage.tsx:40-49 | `filter` keeps exactly the elements satisfying the predicate |
| Lists.FilterIsSubsequence | src/pages/CallsPage.tsx:40 | a filter never reorders: its result is a subsequence of its input |
| Lists.FilterAppend | src/context/CallsContext.tsx:66 | filtering a concatenation filters each part |
| Lists.MapFilterMembers | src/utils/neuralseek.ts:71 | `xs.map(f).filter(p)` holds exactly the images under `f` that satisfy `p` |
| Lists.Dedupe | src/utils/transcript.ts:84 | `[...new Set(xs)]` has no repeats and the same elements as `xs` |
| Lists.DedupePrefix | src/utils/transcript.ts:84 | deduplicating a longer list extends the deduplicated shorter one |
| Lists.DedupeOfNoDup | src/utils/transcript.ts:84 | a list without repeats is its own deduplication |
| Lists.DedupeFirstOccurrenceOrder | src/utils/transcript.ts:84 | kept elements appear in the order of their first occurrences |
| JsValues.Field | src/utils/neuralseek.ts:234 | a missing key reads as `undefined` |
| JsValues.Coalesce | src/utils/neuralseek.ts:234 | `a ?? b ?? c` is the first value that is neither `null` nor `undefined`, else the last |
| JsValues.StringOf | src/utils/neuralseek.ts:71 | `String` of text is the text |
| JsNumbers.NumberOf | src/utils/neuralseek.ts:99 | `Number` of blank text is 0 |
| JsNumbers.NumberOfToken | src/utils/neuralseek.ts:140-142 | `Number` reads every match of `-?\d+(?:\.\d+)?` as the exact value it denotes |
| JsNumbers.TokenAtStart | src/utils/neuralseek.ts:140 | the greedy match at the start of the text is a number token and a prefix of the text |
| JsNumbers.TokenAtStartMaximal | src/utils/neuralseek.ts:140 | the match stops before no digit, and takes a fraction whenever a dot and a digit follow its integer part |
| JsNumbers.TokenAtStartLongest | src/utils/neuralseek.ts:140 | no longer prefix of the text is a match of `-?\d+(?:\.\d+)?`: the match is the longest one, as the greedy quantifiers make it |
| JsNumbers.FirstNumberToken | src/utils/neuralseek.ts:140 | `match` finds a number exactly when the text holds a digit, and the match occurs in the text |
| JsNumbers.FirstNumberTokenLeftmost | src/utils/neuralseek.ts:140-142 | the match is the longest one at the leftmost index where a match can start; no match means no index starts one |
| NeuralSeek.NormalizedBaseUrl | src/utils/neuralseek.ts:54 | unset exactly when the setting is; a URL ending in `/` loses exactly that one `/`, any other URL is kept whole |
| NeuralSeek.CallNotesAgentConfiguredIff | src/utils/neuralseek.ts:61-64 | the call agent is configured exactly when key and agent name are non-empty and the base URL is neither empty nor a lone `/` |
| NeuralSeek.FinancialAgentConfiguredIff | src/utils/neuralseek.ts:61-67 | the same for the financial agent's name |
| NeuralSeek.BuildCallParams | src/utils/neuralseek.ts:203-215 | exactly eight parameters, named in fixed order |
| NeuralSeek.CallParamsRoundTrip | src/utils/neuralseek.ts:203-215 | the submission can be read back from its parameters (absent file name sent as empty text) |
| NeuralSeek.CallParamValues | src/utils/neuralseek.ts:205-212 | each of the first seven parameters carries its metadata field |
| NeuralSeek.PrepareMaistro | src/utils/neuralseek.ts:158-190 | a missing base URL or key, then a missing agent, fail with their messages; otherwise the request goes to `<base>/maistro` with the agent, parameters and user id |
| NeuralSeek.ApplyExpanded | src/utils/neuralseek.ts:152-154 | the last expanded entry written for a name wins; other keys keep their value |
| NeuralSeek.ExtractVariables | src/utils/neuralseek.ts:150-156 | the keys are the flat keys plus the expanded names |
| NeuralSeek.ExtractVariablesPrecedence | src/utils/neuralseek.ts:150-156 | expanded entries override flat variables, later ones earlier ones; other flat variables survive |
| NeuralSeek.Probe | src/utils/neuralseek.ts:236-252 | the first alternate name with a non-nullish value decides; all nullish gives the last |
| NeuralSeek.StringsOf | src/utils/neuralseek.ts:71 | `values.map(String)`: one string per element, `String` of that element |
| NeuralSeek.CleanEntries | src/utils/neuralseek.ts:71 | every kept entry is trimmed and non-empty, and a string is kept exactly when it is non-empty and the trimming of some input entry |
| NeuralSeek.CleanEntriesSingle | src/utils/neuralseek.ts:71 | a single entry is kept trimmed, or dropped when blank |
| NeuralSeek.CleanEntriesAppend | src/utils/neuralseek.ts:71 | cleaning a concatenation cleans each part, so with the single-entry law the result is fixed entry by entry, order and repeats included |
| NeuralSeek.CleanEntriesOfEntries | src/utils/neuralseek.ts:71 | trimmed non-empty entries pass unchanged |
| NeuralSeek.SplitBullets | src/utils/neuralseek.ts:88 | the pieces contain no separator and the first opens the text |
| NeuralSeek.SplitBulletsRejoins | src/utils/neuralseek.ts:88 | the pieces joined back with the separators found between them give the text, one piece more than separators, and no separator match starts inside a piece |
| NeuralSeek.SplitBulletsOfRejoin | src/utils/neuralseek.ts:88 | pieces joined by separators, none of which holds a match, split back into exactly those pieces: the split is the unique such decomposition |
| NeuralSeek.StripBulletPrefix | src/utils/neuralseek.ts:89 | exactly the leading white space, dashes and bullets are removed |
| NeuralSeek.CleanPieces | src/utils/neuralseek.ts:89 | each piece is stripped and trimmed, and no non-empty piece opens with a bullet character |
| NeuralSeek.ListEntries | src/utils/neuralseek.ts:87-90 | line entries are trimmed, non-empty, and do not open with a bullet character |
| NeuralSeek.ParseArrayValue | src/utils/neuralseek.ts:69-94 | only trimmed non-empty entries; blank text and non-list, non-text values give none |
| NeuralSeek.ParseArrayValueOfArray | src/utils/neuralseek.ts:70-72 | a native array reads as `String` of each element, trimmed, blanks dropped |
| NeuralSeek.ParseArrayValueOfJsonArray | src/utils/neuralseek.ts:74-82 | text that `JSON.parse` reads as an array reads like that array |
| NeuralSeek.ParseArrayValueOfList | src/utils/neuralseek.ts:78-90 | text not opening with `[` is read line by line |
| NeuralSeek.ParseArrayValueBulletPair | src/utils/neuralseek.ts:87-90 | a two-line bulleted list reads as its two items |
| NeuralSeek.ParseArrayValueJsonText | src/utils/neuralseek.ts:78-82 | text holding a JSON array of entries reads as those entries |
| NeuralSeek.ParseArrayValueOfEntries | src/utils/neuralseek.ts:70-72 | a native array of entries reads as itself |
| NeuralSeek.ParseNumberValue | src/utils/neuralseek.ts:96-103 | numbers pass, blank text reads 0, values other than numbers and text give none |
| NeuralSeek.GetStringValue | src/utils/neuralseek.ts:105-106 | defined exactly for non-blank text, and then the trimmed text |
| NeuralSeek.NormalizeSentimentLabel | src/utils/neuralseek.ts:108-114 | Positive iff "positive" occurs; Negative iff "negative" does and "positive" does not; else Neutral |
| NeuralSeek.NormalizeSentimentName | src/utils/neuralseek.ts:108-114 | the application's own label names read back as those labels |
| NeuralSeek.DefaultSentimentScore | src/utils/neuralseek.ts:116-120 | positive only for Positive, negative only for Negative, magnitude 0.6 for both, 0 for Neutral |
| NeuralSeek.TextScore | src/utils/neuralseek.ts:140-143 | the value of the first number in the text, else the fallback |
| NeuralSeek.ParseSentimentValue | src/utils/neuralseek.ts:122-148 | object with text label, free text, or anything else (Neutral, 0), with the score rules of each |
| NeuralSeek.BareLabelReading | src/utils/neuralseek.ts:138-144 | a bare label name reads as that label with its default score |
| NeuralSeek.NormalizeArray | src/utils/neuralseek.ts:227-230 | unset exactly when no entries are parsed; otherwise the parsed list itself, non-empty and of entries |
| NeuralSeek.CallAgentResultOf | src/utils/neuralseek.ts:225-253 | each field is read from its own alternate names in order (`summary`, `callSummary`, the answer; `nextSteps`, `nextsteps`, `followUps`; and so on); the summary is an entry and every list field is unset or non-empty |
| NeuralSeek.ProbePair | src/utils/neuralseek.ts:244-251 | `a ?? b` is the first name's value when it is neither `null` nor `undefined`, else the second's |
| NeuralSeek.CallAgentTwoNameFields | src/utils/neuralseek.ts:244-251 | tags, sentiment and duration come from `tags`/`labels`, `sentiment`/`sentimentAnalysis` and `durationMinutes`/`estimatedDurationMinutes`, the second only when the first is nullish |
| NeuralSeek.FirstPresentKeyDecides | src/utils/neuralseek.ts:233-248 | a present first key decides summary, next steps, objections and sentiment, blank or not |
| NeuralSeek.BlankSummaryDoesNotFallThrough | src/utils/neuralseek.ts:233-235 | a blank `summary` leaves the summary unset |
| NeuralSeek.ActionItemsProbeNextStepsThird | src/utils/neuralseek.ts:239-241 | action items fall back to the `nextSteps` variable third |
| NeuralSeek.RunCallNotesAgent | src/utils/neuralseek.ts:217-254 | unconfigured fails; otherwise one exchange with the exact request (owner or "AutoNotesUser" as user), its failure passed on |
| NeuralSeek.BuildFinancialParams | src/utils/neuralseek.ts:256-262 | five parameters, named in fixed order |
| NeuralSeek.FinancialParamValues | src/utils/neuralseek.ts:256-262 | each parameter carries its input field; an absent reporting period is sent as empty text |
| NeuralSeek.FinancialParamsRoundTrip | src/utils/neuralseek.ts:256-262 | the input can be read back from its parameters (absent reporting period sent as empty text) |
| NeuralSeek.DeriveHealthStatus | src/utils/neuralseek.ts:264-271 | non-empty agent status wins; no score gives "Unknown"; otherwise Strong iff at least 0.75, Stable iff in [0.55, 0.75), Watch iff in [0.35, 0.55), At Risk iff below 0.35 |
| NeuralSeek.DeriveHealthStatusMonotone | src/utils/neuralseek.ts:267-270 | a higher score never gets a worse status |
| NeuralSeek.FinancialReportOf | src/utils/neuralseek.ts:281-326 | company, period and raw answer copied; summary from `healthSummary`, `summary` or the answer, else the literal; status from `healthStatus`/`status` over the score bands; score from the first readable source, else 0; lists and signals each from their own alternate names |
| NeuralSeek.FinancialStatusSources | src/utils/neuralseek.ts:282-298 | with no status variables a numeric `healthScore` is the score and decides the band; non-blank `healthStatus` text is the status, trimmed |
| NeuralSeek.EmptyReplyReport | src/utils/neuralseek.ts:282-312 | an empty reply gives the literal summary, "Unknown", score 0 and empty lists |
| NeuralSeek.RunFinancialHealthAgent | src/utils/neuralseek.ts:273-280 | unconfigured fails; otherwise one exchange with the exact request (company or "FinanceUser" as user) |
| Transcript.SentencePieces | src/utils/transcript.ts:34 | the pieces hold no stop followed by white space |
| Transcript.SentencePiecesShape | src/utils/transcript.ts:34 | every piece but the last ends with the stop that closed it, and no later piece opens inside the white space run |
| Transcript.TrimPieces | src/utils/transcript.ts:35 | every piece trimmed, in order |
| Transcript.TrimPiecesUnbroken | src/utils/transcript.ts:35 | trimming keeps pieces unbroken |
| Transcript.SplitSentences | src/utils/transcript.ts:32-36 | sentences are non-empty, trimmed and unbroken |
| Transcript.SplitSentencesUnbroken | src/utils/transcript.ts:32-36 | text without a split point is one sentence, itself trimmed |
| Transcript.SplitSentencesCut | src/utils/transcript.ts:32-36 | a sentence closed by a stop and white space comes first; the rest is split on its own |
| Transcript.Summary | src/utils/transcript.ts:92-94 | never empty; the placeholder without sentences; otherwise opens with the first sentence |
| Transcript.CountPresentIsDistinctCount | src/utils/transcript.ts:40-49 | the reduce counts the distinct words present, each once however often it occurs |
| Transcript.NetScore | src/utils/transcript.ts:39-50 | between minus six and six |
| Transcript.NetScoreCountsDistinctWords | src/utils/transcript.ts:38-50 | positive words present minus negative words present |
| Transcript.DetectSentiment | src/utils/transcript.ts:38-55 | one of three readings; Positive iff net at least 2, Negative iff net at most -1 |
| Transcript.DetectSentimentBySets | src/utils/transcript.ts:38-55 | the reading depends only on which keywords are present |
| Transcript.CleanStep | src/utils/transcript.ts:60 | one leading `-` is dropped and the rest trimmed; a sentence not opening with `-` is just trimmed |
| Transcript.CleanStepMentionsFollowUp | src/utils/transcript.ts:59-60 | cleaning keeps the follow-up keyword |
| Transcript.DeriveNextSteps | src/utils/transcript.ts:57-64 | two to four steps: the first four cleaned matches when at least two, else the three defaults |
| Transcript.NextStepsMentionFollowUp | src/utils/transcript.ts:57-64 | derived steps all mention a follow-up |
| Transcript.ObjectionSentenceInjective | src/utils/transcript.ts:70-73 | distinct keywords give distinct sentences |
| Transcript.DeriveObjections | src/utils/transcript.ts:66-77 | one to five: a sentence per present trigger in list order, or the placeholder alone |
| Transcript.DeriveObjectionsNamesPresentTriggers | src/utils/transcript.ts:66-77 | a trigger's sentence appears iff the trigger is present; the placeholder iff none is |
| Transcript.PeopleTags | src/utils/transcript.ts:80 | the non-empty ones of account and owner |
| Transcript.DeriveTags | src/utils/transcript.ts:79-85 | no repeats, opens with the people tags, holds a theme tag exactly when its keyword matches (or a person has that name), and keeps the order of first occurrence in account, owner, Renewal, Onboarding, Escalation |
| Transcript.RenewalTagIff | src/utils/transcript.ts:80-84 | "Renewal" present iff the text mentions renewal or a person is named "Renewal" |
| Transcript.DeriveTagsCanBeEmpty | src/utils/transcript.ts:79-85 | blank account and owner with no theme give no tags |
| Transcript.DeriveTagsOpensWithPeople | src/utils/transcript.ts:80-84 | distinct non-empty account and owner open the list, in that order |
| Transcript.OrElse | src/utils/transcript.ts:102-105 | `value \|\| fallback` on text |
| Transcript.HalfRounded | src/utils/transcript.ts:119 | `Math.round(n / 2)` is the nearest integer to half, halves up |
| Transcript.EstimatedMinutes | src/utils/transcript.ts:119 | at least 15; 15 for up to 30 sentences; above 30, the m with 2m - 1 <= count <= 2m, which is half the count rounded half up |
| Transcript.BuildCallFromTranscript | src/utils/transcript.ts:87-123 | every field of the heuristic record, with the fallback literals for blank metadata |
| Transcript.HeuristicRecordShape | src/utils/transcript.ts:87-123 | non-blank identity and summary, 2-4 steps, 1-5 objections, tags without repeats, duration at least 15, created equals updated |
| Transcript.MergeTags | src/utils/transcript.ts:130-134 | the fallback tags when the agent has none; else the agent's first, then unseen fallback tags, no repeats, every tag in the order of its first occurrence in the agent's tags followed by the fallback's |
| Transcript.Merge | src/utils/transcript.ts:136-150 | identity and timestamps from the fallback; agent fields when given; sentiment and score from the agent |
| Transcript.MergeSentimentIgnoresFallback | src/utils/transcript.ts:143-147 | the fallback's sentiment never reaches the merged record |
| Transcript.MergeEmptyAgentKeepsFallback | src/utils/transcript.ts:136-150 | an agent contributing nothing but its reading leaves the rest of the record unchanged |
| Transcript.BuildCallFromNeuralSeek | src/utils/transcript.ts:124-151 | fails exactly when the agent run fails; otherwise the merge over the heuristic record |
| Transcript.BuildCallRecord | src/utils/transcript.ts:153-158 | unconfigured gives the heuristic record; configured the merged route |
| Transcript.UnconfiguredIgnoresAgent | src/utils/transcript.ts:153-156 | without configuration the result does not depend on the exchange |
| Transcript.BuildCallRecordKeepsIdentity | src/utils/transcript.ts:153-158 | either route keeps id, identity fields, status and timestamps |
| Csv.DoubleQuotes | src/utils/csv.ts:18 | the length grows by the number of quotes |
| Csv.EscapeCell | src/utils/csv.ts:17-20 | quoted at both ends, length plus quotes plus two |
| Csv.EscapeCellRoundTrip | src/utils/csv.ts:17-20 | reading an escaped cell gives the value back and leaves what follows |
| Csv.EscapeCellInjective | src/utils/csv.ts:17-20 | distinct values give distinct cells |
| Csv.ReadCellsOfRow | src/utils/csv.ts:39 | reading a written row gives its cells back |
| Csv.ReadRowsOfWriteRows | src/utils/csv.ts:39 | reading written rows gives them back, whatever the values hold |
| Csv.CallCells | src/utils/csv.ts:24-36 | eleven values in header order, with the list separators; unset when the update time is invalid |
| Csv.CallRows | src/utils/csv.ts:23-37 | one row per call, in order |
| Csv.SerializeCallsToCsv | src/utils/csv.ts:22-40 | the header row, then the call rows, joined |
| Csv.EmptyExportIsHeaderLine | src/utils/csv.ts:39 | no calls give the header line alone |
| Csv.SerializeCallsToCsvRoundTrip | src/utils/csv.ts:22-40 | reading an export back gives the header and each call's eleven values in order |
| Csv.HeadersCount | src/utils/csv.ts:3-15 | eleven header names |
| Formatters.TruncatedRemainder | src/utils/formatters.ts:23 | JavaScript's `%`: the remainder takes the dividend's sign |
| Formatters.FloorHours | src/utils/formatters.ts:22 | `Math.floor(m / 60)` brackets the count |
| Formatters.FormatDuration | src/utils/formatters.ts:20-28 | placeholder for none or zero; `<m>m` below an hour; `<h>h <m>m` from an hour; a negative count's remainder otherwise |
| Formatters.FormatDurationSplitsExactly | src/utils/formatters.ts:22-25 | hours and minutes make up the count, minutes below 60 |
| DurationReading.MinutesReadBack | src/utils/formatters.ts:27 | `<m>m` reads back as m |
| DurationReading.HoursReadBack | src/utils/formatters.ts:25 | `<h>h <m>m` reads back as 60h + m |
| DurationReading.FormatDurationReadsBack | src/utils/formatters.ts:20-28 | every positive count is rendered so that it reads back exactly |
| CallsContext.DefaultHealth | src/context/CallsContext.tsx:39-44 | connected, 210 ms, ready message |
| CallsContext.Init | src/context/CallsContext.tsx:49-54 | the seeded calls, idle, default settings and health |
| CallsContext.GetCallById | src/context/CallsContext.tsx:56-59 | none iff no call has the id; a found call has it |
| CallsContext.GetCallByIdFindsFirst | src/context/CallsContext.tsx:57 | the first call with the id is found |
| CallsContext.ProcessTranscript | src/context/CallsContext.tsx:61-71 | the record is the heuristic extractor's for the submission, id and time, and is prepended; idle afterwards; settings and health unchanged |
| CallsContext.ProcessThenLookup | src/context/CallsContext.tsx:56-68 | the new id finds the new record; other ids find what they found before |
| CallsContext.ApplyUpdate | src/context/CallsContext.tsx:79 | given fields replace, absent fields stay |
| CallsContext.UpdateSheetSettings | src/context/CallsContext.tsx:78-80 | only the settings change |
| CallsContext.ApplyUpdateLaws | src/context/CallsContext.tsx:79 | empty update is identity; updates are idempotent; a full update forgets; two updates are their combination |
| CallsContext.StartHealthCheck | src/context/CallsContext.tsx:83-88 | warning with diagnostics message, new time, latency kept |
| CallsContext.SimulatedLatency | src/context/CallsContext.tsx:90 | over exact reals, `Math.floor(200 + r * 120)` for r in [0, 1) is between 200 and 319 |
| CallsContext.HealthFor | src/context/CallsContext.tsx:91-99 | connected iff latency below 290, else warning, with the matching message |
| CallsContext.FinishHealthCheck | src/context/CallsContext.tsx:90-99 | over exact reals latency 200-319; never an error; nothing else changes |
| CallsContext.HealthCheckConnectedIff | src/context/CallsContext.tsx:90-92 | connected exactly for draws below 0.75 |
| CallsContext.EveryLatencyReachable | src/context/CallsContext.tsx:90 | every latency from 200 to 319 can occur |
| CallsContext.DefaultHealthBelowThreshold | src/context/CallsContext.tsx:40-43 | the initial health agrees with the check's threshold |
| CallsPage.Filtered | src/pages/CallsPage.tsx:38-50 | membership iff shown, order kept |
| CallsPage.FilteredMatchesSubstring | src/pages/CallsPage.tsx:39-48 | shown iff the lower-cased query occurs in title, account or owner, and the tab admits the sentiment |
| CallsPage.FilteredShowsEverything | src/pages/CallsPage.tsx:41-47 | empty query and all tabs show everything |
| CallsPage.FilteredIgnoresQueryCase | src/pages/CallsPage.tsx:39 | a query and its lower-case form show the same calls |
| CallsPage.FilteredPrepend | src/pages/CallsPage.tsx:40-49 | a new call on top shows exactly when it matches |
| CallsPage.ObjectionCountAppend | src/pages/CallsPage.tsx:25-28 | the count adds over concatenation |
| CallsPage.ProcessTranscriptFlagsObjections | src/pages/CallsPage.tsx:25-28 | processing adds the new record's objections, one to five |
| CallsPage.PositiveCount | src/pages/CallsPage.tsx:22 | at most the number of calls |
| CallsPage.RoundPercent | src/pages/CallsPage.tsx:32-33 | `Math.round` to within half |
| CallsPage.CallStats | src/pages/CallsPage.tsx:13-36 | fixed figures for no calls; otherwise count, shares and flagged objections |
| CallsPage.PositiveShareIsPercentage | src/pages/CallsPage.tsx:32 | the positive share is between 0 and 100 |
| CallsPage.EmptyStatsAgree | src/pages/CallsPage.tsx:14-21 | the empty branch matches the general formulas |

## Left out

- The HTTP exchange of `callMaistro` (`fetch`, status check, `response.json()`) is a
  function parameter; the model covers the checks before it and the request it sends.
- `JSON.parse`, `JSON.stringify` of the metadata, `String` of a number, `toFixed(0)` and
  `toISOString` are host functions passed in a record; their results are not modelled.
- Floating point: scores, shares and averages are exact reals, so IEEE rounding, NaN and
  infinities are not represented; `Number` of text denoting an infinite value is unset.
- CallsContext.SimulatedLatency, CallsContext.FinishHealthCheck,
  CallsContext.HealthCheckConnectedIff: `Math.floor(200 + r * 120)` and the 0.75 boundary are
  computed over exact reals; in IEEE doubles `200 + r * 120` rounds, so a draw just below 1
  (such as 1 - 2^-52) yields 320, and draws just below 0.75 can land on the other side of 290.
- Case mapping covers ASCII letters and KELVIN SIGN only; regular expressions with `/i` are
  written out as ASCII case folding.
- `createId`, `new Date()` and `Math.random` are parameters.
- `downloadCsv`, `exportCalls` and `formatDate`/`formatDateTime` are browser or locale side
  effects and are not modelled.
- The `setTimeout` delays and the intermediate `isProcessing == true` state of
  `processTranscript` are not modelled; the state after it finishes is.
- A `Partial<SheetSettings>` field explicitly set to `undefined` is treated as absent.
- `mockCalls` is a parameter of the initial state rather than the fixture's contents.
- Formatters.FormatDuration: takes whole minutes only; a fractional count and NaN are not
  modelled.
- CallsPage.CallStats: the average and share are rounded with exact reals; the host's
  rendering of the rounded integer is `String` of that integer.
- UI components, routing, authentication and the upload and financial-health forms are
  outside the core.

=== FILE: call_types.dfy ===
/** The records the application passes around (src/types/call.ts). */
module CallTypes {
  import opened Outcomes

  datatype Sentiment = Positive | Neutral | Negative

  datatype ProcessingStatus = Ready | Processing | Failed

  /** How the transcript reached the application: a file upload or pasted text. */
  datatype TranscriptSource = Upload | Paste

  /** One processed call. Minutes and the sentiment score are JavaScript numbers, modelled
      as reals; timestamps are ISO-8601 strings supplied by the caller. */
  datatype CallRecord = CallRecord(
    id: string,
    title: string,
    account: string,
    contact: string,
    owner: string,
    summary: string,
    nextSteps: seq<string>,
    sentiment: Sentiment,
    objections: seq<string>,
    actionItems: seq<string>,
    tags: seq<string>,
    sentimentScore: real,
    status: ProcessingStatus,
    transcriptSource: TranscriptSource,
    transcriptName: Option<string>,
    durationMinutes: Option<real>,
    createdAt: string,
    updatedAt: string)

  datatype TranscriptMetadata = TranscriptMetadata(
    title: string,
    account: string,
    contact: string,
    owner: string,
    source: TranscriptSource,
    sourceName: Option<string>)

  datatype TranscriptSubmission = TranscriptSubmission(transcript: string, metadata: TranscriptMetadata)

  datatype SyncFrequency = Manual | Hourly | Daily

  datatype SheetSettings = SheetSettings(
    sheetId: string,
    worksheetName: string,
    shareEmail: string,
    autoSync: bool,
    syncFrequency: SyncFrequency)

  datatype IntegrationStatus = Connected | Warning | Error

  datatype IntegrationHealth = IntegrationHealth(
    status: IntegrationStatus,
    message: string,
    lastChecked: string,
    latencyMs: int)

  /** The string literal each sentiment is in the source. */
  function SentimentName(s: Sentiment): string {
    match s
    case Positive => "Positive"
    case Neutral => "Neutral"
    case Negative => "Negative"
  }

  /** The string literal each transcript source is in the source. */
  function SourceName(s: TranscriptSource): string {
    match s
    case Upload => "upload"
    case Paste => "paste"
  }
}

=== FILE: calls_context.dfy ===
/** The application state held by the calls provider (src/context/CallsContext.tsx): the list
    of calls, the processing flag, the Google Sheets settings and the integration health,
    with the operations the provider exposes. Every state change is a pure function from the
    previous state; the clock, the id generator and `Math.random` are parameters. */
module CallsContext {
  import opened Outcomes
  import opened CallTypes
  import Transcript

  datatype State = State(
    calls: seq<CallRecord>,
    isProcessing: bool,
    settings: SheetSettings,
    health: IntegrationHealth)

  const DefaultSettings := SheetSettings(
    sheetId := "1A2B3C4D5E6F7G8H9I",
    worksheetName := "Auto Notes",
    shareEmail := "revops@autonotes.team",
    autoSync := true,
    syncFrequency := Hourly)

  /** The health shown before any check; `loadTime` is the moment the module was loaded. */
  function DefaultHealth(loadTime: string): (h: IntegrationHealth)
    ensures h.status == Connected && h.latencyMs == 210 && h.lastChecked == loadTime
    ensures h.message == "Ready to sync with Google Sheets"
  {
    IntegrationHealth(Connected, "Ready to sync with Google Sheets", loadTime, 210)
  }

  /** The provider's first state: the seeded calls, idle, default settings and health. */
  function Init(seedCalls: seq<CallRecord>, loadTime: string): (s: State)
    ensures s.calls == seedCalls && !s.isProcessing
    ensures s.settings == DefaultSettings && s.health == DefaultHealth(loadTime)
  {
    State(seedCalls, false, DefaultSettings, DefaultHealth(loadTime))
  }

  // ---------------------------------------------------------------------------------------
  // Lookup

  /** `calls.find((call) => call.id === id)`: the first call carrying `id`, if any. */
  function GetCallById(calls: seq<CallRecord>, id: string): (r: Option<CallRecord>)
    ensures r.None? <==> forall i :: 0 <= i < |calls| ==> calls[i].id != id
    ensures r.Some? ==> r.value in calls && r.value.id == id
  {
    if |calls| == 0 then None
    else if calls[0].id == id then Some(calls[0])
    else GetCallById(calls[1..], id)
  }

  /** The call found is the first one with that id: any earlier call with the same id would
      have been returned instead. */
  lemma {:induction false} GetCallByIdFindsFirst(calls: seq<CallRecord>, id: string, k: nat)
    requires k < |calls| && calls[k].id == id
    requires forall j :: 0 <= j < k ==> calls[j].id != id
    ensures GetCallById(calls, id) == Some(calls[k])
  {
    if k > 0 {
      GetCallByIdFindsFirst(calls[1..], id, k - 1);
    }
  }

  // ---------------------------------------------------------------------------------------
  // Processing a transcript

  datatype Processed = Processed(state: State, record: CallRecord)

  /** `processTranscript`: builds the record with the heuristic extractor and puts it in front
      of the existing calls. The state returned is the one after the processing flag has been
      cleared again. */
  function ProcessTranscript(state: State, submission: TranscriptSubmission, id: string, now: string): (r: Processed)
    ensures r.record == Transcript.BuildCallFromTranscript(submission, id, now)
    ensures r.state.calls == [r.record] + state.calls
    ensures r.record.id == id && r.record.status == Ready && r.record.createdAt == now
    ensures r.record.objections == Transcript.DeriveObjections(submission.transcript)
    ensures !r.state.isProcessing
    ensures r.state.settings == state.settings && r.state.health == state.health
  {
    var record := Transcript.BuildCallFromTranscript(submission, id, now);
    Processed(State([record] + state.calls, false, state.settings, state.health), record)
  }

  /** Right after processing, looking the new id up yields the new record, even when an older
      call happens to carry the same id; every other id finds what it found before. */
  lemma ProcessThenLookup(state: State, submission: TranscriptSubmission, id: string, now: string, other: string)
    ensures var p := ProcessTranscript(state, submission, id, now);
      && GetCallById(p.state.calls, id) == Some(p.record)
      && (other != id ==> GetCallById(p.state.calls, other) == GetCallById(state.calls, other))
  {
    var p := ProcessTranscript(state, submission, id, now);
    assert p.state.calls[1..] == state.calls;
  }

  // ---------------------------------------------------------------------------------------
  // Sheet settings

  /** `Partial<SheetSettings>`: an absent field is `None`. */
  datatype SettingsUpdate = SettingsUpdate(
    sheetId: Option<string>,
    worksheetName: Option<string>,
    shareEmail: Option<string>,
    autoSync: Option<bool>,
    syncFrequency: Option<SyncFrequency>)

  const NoChange := SettingsUpdate(None, None, None, None, None)

  /** The update that sets every field to the one `s` has. */
  function Everything(s: SheetSettings): SettingsUpdate {
    SettingsUpdate(Some(s.sheetId), Some(s.worksheetName), Some(s.shareEmail), Some(s.autoSync), Some(s.syncFrequency))
  }

  /** `{ ...prev, ...updates }`: a field given in the update replaces the previous value, every
      other field is kept. */
  function ApplyUpdate(prev: SheetSettings, u: SettingsUpdate): (r: SheetSettings)
    ensures u.sheetId.Some? ==> r.sheetId == u.sheetId.value
    ensures u.sheetId.None? ==> r.sheetId == prev.sheetId
    ensures u.worksheetName.Some? ==> r.worksheetName == u.worksheetName.value
    ensures u.worksheetName.None? ==> r.worksheetName == prev.worksheetName
    ensures u.shareEmail.Some? ==> r.shareEmail == u.shareEmail.value
    ensures u.shareEmail.None? ==> r.shareEmail == prev.shareEmail
    ensures u.autoSync.Some? ==> r.autoSync == u.autoSync.value
    ensures u.autoSync.None? ==> r.autoSync == prev.autoSync
    ensures u.syncFrequency.Some? ==> r.syncFrequency == u.syncFrequency.value
    ensures u.syncFrequency.None? ==> r.syncFrequency == prev.syncFrequency
  {
    SheetSettings(
      u.sheetId.GetOr(prev.sheetId),
      u.worksheetName.GetOr(prev.worksheetName),
      u.shareEmail.GetOr(prev.shareEmail),
      u.autoSync.GetOr(prev.autoSync),
      u.syncFrequency.GetOr(prev.syncFrequency))
  }

  /** `{ ...first, ...second }` on two partial updates: the later one wins field by field. */
  function Combine(first: SettingsUpdate, second: SettingsUpdate): SettingsUpdate {
    SettingsUpdate(
      if second.sheetId.Some? then second.sheetId else first.sheetId,
      if second.worksheetName.Some? then second.worksheetName else first.worksheetName,
      if second.shareEmail.Some? then second.shareEmail else first.shareEmail,
      if second.autoSync.Some? then second.autoSync else first.autoSync,
      if second.syncFrequency.Some? then second.syncFrequency else first.syncFrequency)
  }

  /** `updateSheetSettings`: only the settings change. */
  function UpdateSheetSettings(state: State, u: SettingsUpdate): (r: State)
    ensures r.settings == ApplyUpdate(state.settings, u)
    ensures r.calls == state.calls && r.isProcessing == state.isProcessing && r.health == state.health
  {
    state.(settings := ApplyUpdate(state.settings, u))
  }

  /** The laws of a field-wise merge: an empty update changes nothing, repeating an update
      changes nothing more, a complete update forgets the previous settings, and two updates
      in a row amount to their combination. */
  lemma ApplyUpdateLaws(s: SheetSettings, t: SheetSettings, a: SettingsUpdate, b: SettingsUpdate)
    ensures ApplyUpdate(s, NoChange) == s
    ensures ApplyUpdate(ApplyUpdate(s, a), a) == ApplyUpdate(s, a)
    ensures ApplyUpdate(s, Everything(t)) == t
    ensures ApplyUpdate(ApplyUpdate(s, a), b) == ApplyUpdate(s, Combine(a, b))
  {
  }

  // ---------------------------------------------------------------------------------------
  // Integration health

  /** Latencies below this many milliseconds count as a healthy connection. */
  const SlowLatency := 290

  /** The first half of `triggerHealthCheck`: a warning while diagnostics run, stamped with
      the time the check started; the previous latency stays on display. */
  function StartHealthCheck(state: State, now: string): (r: State)
    ensures r.health.status == Warning && r.health.message == "Running diagnostics..."
    ensures r.health.lastChecked == now && r.health.latencyMs == state.health.latencyMs
    ensures r.calls == state.calls && r.settings == state.settings && r.isProcessing == state.isProcessing
  {
    state.(health := state.health.(status := Warning, message := "Running diagnostics...", lastChecked := now))
  }

  /** `Math.floor(200 + random * 120)` for a draw of `Math.random()`. */
  function SimulatedLatency(random: real): (l: int)
    requires 0.0 <= random < 1.0
    ensures 200 <= l < 320
  {
    (200.0 + random * 120.0).Floor
  }

  /** The health reported for a measured latency. */
  function HealthFor(latency: int, now: string): (h: IntegrationHealth)
    ensures h.latencyMs == latency && h.lastChecked == now
    ensures h.status == Connected <==> latency < SlowLatency
    ensures h.status == Connected || h.status == Warning
    ensures h.status == Connected ==> h.message == "Google Sheets API responding normally"
    ensures h.status == Warning ==> h.message == "Sheets API responding slower than usual"
  {
    if latency < SlowLatency then IntegrationHealth(Connected, "Google Sheets API responding normally", now, latency)
    else IntegrationHealth(Warning, "Sheets API responding slower than usual", now, latency)
  }

  /** The second half of `triggerHealthCheck`: the health is replaced as a whole by the
      simulated measurement. */
  function FinishHealthCheck(state: State, random: real, now: string): (r: State)
    requires 0.0 <= random < 1.0
    ensures 200 <= r.health.latencyMs < 320 && r.health.lastChecked == now
    ensures r.health.status != Error
    ensures r.calls == state.calls && r.settings == state.settings && r.isProcessing == state.isProcessing
  {
    state.(health := HealthFor(SimulatedLatency(random), now))
  }

  /** A check reports a healthy connection exactly for the lower three quarters of the
      random draws. */
  lemma {:induction false} HealthCheckConnectedIff(state: State, random: real, now: string)
    requires 0.0 <= random < 1.0
    ensures FinishHealthCheck(state, random, now).health.status == Connected <==> random < 0.75
  {
    var x := 200.0 + random * 120.0;
    assert SimulatedLatency(random) == x.Floor;
    assert x.Floor as real <= x < x.Floor as real + 1.0;
  }

  /** Every latency from 200 to 319 milliseconds can come out of a check. */
  lemma {:induction false} EveryLatencyReachable(state: State, latency: int, now: string)
    requires 200 <= latency < 320
    ensures var random := (latency - 200) as real / 120.0;
      0.0 <= random < 1.0 && FinishHealthCheck(state, random, now).health.latencyMs == latency
  {
    var random := (latency - 200) as real / 120.0;
    assert 200.0 + random * 120.0 == latency as real;
  }

  /** The health shown before any check agrees with the threshold a check applies. */
  lemma DefaultHealthBelowThreshold(loadTime: string)
    ensures DefaultHealth(loadTime).status == HealthFor(DefaultHealth(loadTime).latencyMs, loadTime).status
  {
  }
}

=== FILE: calls_page.dfy ===
/** The calls overview (src/pages/CallsPage.tsx): the search and sentiment filter over the
    list of calls and the four headline figures above it. */
module CallsPage {
  import opened Outcomes
  import opened Text
  import opened Lists
  import opened CallTypes
  import Transcript
  import CallsContext
  import Formatters

  /** The sentiment tabs: every call, or only the calls of one sentiment. */
  datatype SentimentFilter = All | Only(sentiment: Sentiment)

  /** An empty lower-cased query matches everything; otherwise it must occur in the title,
      the account or the owner, compared in lower case. */
  predicate MatchesQuery(call: CallRecord, query: string) {
    var lower := Lower(query);
    |lower| == 0
    || Contains(Lower(call.title), lower)
    || Contains(Lower(call.account), lower)
    || Contains(Lower(call.owner), lower)
  }

  predicate MatchesSentiment(call: CallRecord, filter: SentimentFilter) {
    filter.All? || call.sentiment == filter.sentiment
  }

  predicate Shown(call: CallRecord, query: string, filter: SentimentFilter) {
    MatchesQuery(call, query) && MatchesSentiment(call, filter)
  }

  /** `filtered`: the calls the table shows, in the order of the list. */
  function Filtered(calls: seq<CallRecord>, query: string, filter: SentimentFilter): (r: seq<CallRecord>)
    ensures forall c :: c in r <==> c in calls && Shown(c, query, filter)
    ensures IsSubsequence(r, calls)
  {
    FilterIsSubsequence(c => Shown(c, query, filter), calls);
    Filter(c => Shown(c, query, filter), calls)
  }

  /** Membership in the table in terms of positions: the lower-cased query occurs at some index
      of the lower-cased title, account or owner, and the sentiment tab admits the call. */
  lemma FilteredMatchesSubstring(calls: seq<CallRecord>, query: string, filter: SentimentFilter, c: CallRecord)
    ensures var q := Lower(query);
      c in Filtered(calls, query, filter) <==>
        && c in calls
        && (|q| == 0 || (exists i :: OccursAt(Lower(c.title), q, i))
            || (exists i :: OccursAt(Lower(c.account), q, i))
            || (exists i :: OccursAt(Lower(c.owner), q, i)))
        && (filter.All? || c.sentiment == filter.sentiment)
  {
    var q := Lower(query);
    ContainsIff(Lower(c.title), q);
    ContainsIff(Lower(c.account), q);
    ContainsIff(Lower(c.owner), q);
  }

  /** With no query and every sentiment, the table shows the whole list. */
  lemma FilteredShowsEverything(calls: seq<CallRecord>)
    ensures Filtered(calls, "", All) == calls
  {
    FilterAll(c => Shown(c, "", All), calls);
  }

  /** The search ignores case: a query and its lower-cased form show the same calls. */
  lemma FilteredIgnoresQueryCase(calls: seq<CallRecord>, query: string, filter: SentimentFilter)
    ensures Filtered(calls, query, filter) == Filtered(calls, Lower(query), filter)
  {
    LowerIdempotent(query);
    FilterAgreeing(c => Shown(c, query, filter), c => Shown(c, Lower(query), filter), calls);
  }

  /** Filtering a list that has grown at the front filters the new part and the old part
      separately: a freshly processed call appears on top exactly when it matches. */
  lemma FilteredPrepend(record: CallRecord, calls: seq<CallRecord>, query: string, filter: SentimentFilter)
    ensures Filtered([record] + calls, query, filter)
      == (if Shown(record, query, filter) then [record] else []) + Filtered(calls, query, filter)
  {
    FilterAppend(c => Shown(c, query, filter), [record], calls);
  }

  // ---------------------------------------------------------------------------------------
  // Headline figures

  /** The number of objections over all calls (`objections?.length ?? 0` summed; the list is
      always present on a record). */
  function ObjectionCount(calls: seq<CallRecord>): nat {
    if |calls| == 0 then 0 else |calls[0].objections| + ObjectionCount(calls[1..])
  }

  lemma {:induction false} ObjectionCountAppend(a: seq<CallRecord>, b: seq<CallRecord>)
    ensures ObjectionCount(a + b) == ObjectionCount(a) + ObjectionCount(b)
  {
    if |a| > 0 {
      assert (a + b)[1..] == a[1..] + b;
      ObjectionCountAppend(a[1..], b);
    } else {
      assert a + b == b;
    }
  }

  /** Processing a transcript raises the flagged count by the objections of the new call: at
      least one (the placeholder counts) and at most one per trigger word. */
  lemma ProcessTranscriptFlagsObjections(state: CallsContext.State, submission: TranscriptSubmission, id: string, now: string)
    ensures var after := CallsContext.ProcessTranscript(state, submission, id, now).state;
      var added := ObjectionCount(after.calls) - ObjectionCount(state.calls);
      && added == |Transcript.DeriveObjections(submission.transcript)|
      && 1 <= added <= |Transcript.ObjectionTriggers|
  {
    var p := CallsContext.ProcessTranscript(state, submission, id, now);
    ObjectionCountAppend([p.record], state.calls);
    assert ObjectionCount([p.record]) == |p.record.objections| by {
      assert [p.record][1..] == [];
    }
  }

  function PositiveCount(calls: seq<CallRecord>): (n: nat)
    ensures n <= |calls|
  {
    |Filter((c: CallRecord) => c.sentiment == Positive, calls)|
  }

  function ScoreSum(calls: seq<CallRecord>): real {
    if |calls| == 0 then 0.0 else calls[0].sentimentScore + ScoreSum(calls[1..])
  }

  /** `Math.round(x * 100)`: halves round up. */
  function RoundPercent(x: real): (p: int)
    ensures p as real - 0.5 <= x * 100.0 < p as real + 0.5
  {
    (x * 100.0 + 0.5).Floor
  }

  /** The four figures on the stat cards. */
  datatype Stats = Stats(total: string, positive: string, avgSentiment: string, objections: string)

  function Percent(x: real): string {
    IntToString(RoundPercent(x)) + "%"
  }

  /** `stats`: fixed figures for an empty list; otherwise the count of calls, the rounded share
      of positive calls, the rounded average score and the number of flagged objections. */
  function CallStats(calls: seq<CallRecord>): (r: Stats)
    ensures |calls| == 0 ==> r == Stats("0", "0%", Formatters.MissingValue, "0 flagged")
    ensures |calls| > 0 ==>
      && r.total == NatToString(|calls|)
      && r.objections == NatToString(ObjectionCount(calls)) + " flagged"
      && r.positive == Percent(PositiveCount(calls) as real / |calls| as real)
      && r.avgSentiment == Percent(ScoreSum(calls) / |calls| as real)
  {
    if |calls| == 0 then Stats("0", "0%", Formatters.MissingValue, "0 flagged")
    else
      Stats(
        NatToString(|calls|),
        Percent(PositiveCount(calls) as real / |calls| as real),
        Percent(ScoreSum(calls) / |calls| as real),
        NatToString(ObjectionCount(calls)) + " flagged")
  }

  /** The positive share is a percentage between 0 and 100, whatever the list. */
  lemma {:induction false} PositiveShareIsPercentage(calls: seq<CallRecord>)
    requires |calls| > 0
    ensures var share := PositiveCount(calls) as real / |calls| as real;
      0 <= RoundPercent(share) <= 100
  {
    var n := |calls| as real;
    var c := PositiveCount(calls) as real;
    RatioAtMostOne(c, n);
    var share := c / n;
    assert share * 100.0 <= 100.0;
  }

  lemma RatioAtMostOne(c: real, n: real)
    requires 0.0 <= c <= n && n > 0.0
    ensures 0.0 <= c / n <= 1.0
  {
    var q := c / n;
    assert q * n == c;
    assert (1.0 - q) * n == n - c;
  }

  /** The empty branch agrees with the general one where they overlap: an empty list has no
      calls and no objections. */
  lemma EmptyStatsAgree()
    ensures CallStats([]).total == NatToString(0)
    ensures CallStats([]).objections == NatToString(ObjectionCount([])) + " flagged"
  {
  }
}

=== FILE: csv.dfy ===
/** The CSV export of the call list (src/utils/csv.ts): quoted cells, a fixed header row and
    one eleven-cell row per call. A reader for the same dialect is defined alongside, so that
    the export can be shown to lose nothing. */
module Csv {
  import opened Outcomes
  import opened Text
  import opened CallTypes

  // ---------------------------------------------------------------------------------------
  // Cells
  // ---------------------------------------------------------------------------------------

  function QuoteCount(s: string): nat {
    if |s| == 0 then 0 else (if s[0] == '"' then 1 else 0) + QuoteCount(s[1..])
  }

  /** `value.replace(/"/g, '""')` */
  function DoubleQuotes(s: string): (r: string)
    ensures |r| == |s| + QuoteCount(s)
  {
    if |s| == 0 then ""
    else (if s[0] == '"' then "\"\"" else [s[0]]) + DoubleQuotes(s[1..])
  }

  /** `escapeCell`: the value with every quote doubled, wrapped in quotes. */
  function EscapeCell(value: string): (r: string)
    ensures |r| == |value| + QuoteCount(value) + 2
    ensures r[0] == '"' && r[|r| - 1] == '"'
  {
    "\"" + DoubleQuotes(value) + "\""
  }

  /** The inside of a quoted cell, read up to its closing quote: a doubled quote stands for one
      quote, and a single quote closes the cell. Gives the value and what follows the cell. */
  function ReadQuoted(s: string): (r: Option<(string, string)>)
    ensures r.Some? ==> |r.value.1| < |s|
    decreases |s|
  {
    if |s| == 0 then None
    else if s[0] == '"' then
      if |s| >= 2 && s[1] == '"' then
        match ReadQuoted(s[2..])
        case None => None
        case Some((v, rest)) => Some(("\"" + v, rest))
      else Some(("", s[1..]))
    else
      match ReadQuoted(s[1..])
      case None => None
      case Some((v, rest)) => Some(([s[0]] + v, rest))
  }

  /** Reading the inside of an escaped value gives the value back, up to the closing quote,
      as long as no quote follows the cell. */
  lemma {:induction false} ReadQuotedDoubled(v: string, rest: string)
    requires |rest| == 0 || rest[0] != '"'
    ensures ReadQuoted(DoubleQuotes(v) + "\"" + rest) == Some((v, rest))
    decreases |v|
  {
    var s := DoubleQuotes(v) + "\"" + rest;
    if |v| == 0 {
      assert s == "\"" + rest;
      assert s[1..] == rest;
    } else if v[0] == '"' {
      assert s == "\"\"" + (DoubleQuotes(v[1..]) + "\"" + rest);
      assert s[2..] == DoubleQuotes(v[1..]) + "\"" + rest;
      ReadQuotedDoubled(v[1..], rest);
      assert "\"" + v[1..] == v;
    } else {
      assert s == [v[0]] + (DoubleQuotes(v[1..]) + "\"" + rest);
      assert s[1..] == DoubleQuotes(v[1..]) + "\"" + rest;
      ReadQuotedDoubled(v[1..], rest);
      assert [v[0]] + v[1..] == v;
    }
  }

  /** The reader's view of one cell: the value of a quoted cell and what follows it. */
  function ReadCell(s: string): (r: Option<(string, string)>)
    ensures r.Some? ==> |r.value.1| < |s|
  {
    if |s| == 0 || s[0] != '"' then None else ReadQuoted(s[1..])
  }

  /** Unescaping an escaped cell gives the value back, and leaves what followed the cell. */
  lemma EscapeCellRoundTrip(v: string, rest: string)
    requires |rest| == 0 || rest[0] != '"'
    ensures ReadCell(EscapeCell(v) + rest) == Some((v, rest))
  {
    var s := EscapeCell(v) + rest;
    assert s[1..] == DoubleQuotes(v) + "\"" + rest;
    ReadQuotedDoubled(v, rest);
  }

  /** Different values give different cells. */
  lemma EscapeCellInjective(a: string, b: string)
    requires EscapeCell(a) == EscapeCell(b)
    ensures a == b
  {
    EscapeCellRoundTrip(a, "");
    EscapeCellRoundTrip(b, "");
    assert EscapeCell(a) + "" == EscapeCell(a);
    assert EscapeCell(b) + "" == EscapeCell(b);
  }

  // ---------------------------------------------------------------------------------------
  // Rows
  // ---------------------------------------------------------------------------------------

  function EscapeCells(cells: seq<string>): (r: seq<string>)
    ensures |r| == |cells|
    ensures forall i :: 0 <= i < |r| ==> r[i] == EscapeCell(cells[i])
  {
    seq(|cells|, i requires 0 <= i < |cells| => EscapeCell(cells[i]))
  }

  /** `row.join(',')` over escaped cells. */
  function Row(cells: seq<string>): string {
    Join(EscapeCells(cells), ",")
  }

  /** The cells of one row, up to a line break or the end of the text. Gives the cells, what
      follows the row, and whether a line break ended it. */
  function ReadCells(s: string): (r: Option<(seq<string>, string, bool)>)
    ensures r.Some? ==> |r.value.1| < |s|
    decreases |s|
  {
    match ReadCell(s)
    case None => None
    case Some((v, rest)) =>
      if |rest| == 0 then Some(([v], "", false))
      else if rest[0] == ',' then
        match ReadCells(rest[1..])
        case None => None
        case Some((cells, after, more)) => Some(([v] + cells, after, more))
      else if rest[0] == '\n' then Some(([v], rest[1..], true))
      else None
  }

  /** Reading a written row gives its cells back; a following line break is consumed and
      reported. */
  lemma {:induction false} ReadCellsOfRow(cells: seq<string>, tail: string)
    requires |cells| > 0
    requires |tail| == 0 || tail[0] == '\n'
    ensures ReadCells(Row(cells) + tail) ==
      Some((cells, if |tail| == 0 then "" else tail[1..], |tail| > 0))
    decreases |cells|
  {
    var escaped := EscapeCells(cells);
    if |cells| == 1 {
      assert Row(cells) == EscapeCell(cells[0]);
      EscapeCellRoundTrip(cells[0], tail);
      assert ReadCell(Row(cells) + tail) == Some((cells[0], tail));
      assert [cells[0]] == cells;
    } else {
      var restRow := Row(cells[1..]);
      assert escaped[1..] == EscapeCells(cells[1..]);
      assert Row(cells) == EscapeCell(cells[0]) + "," + restRow;
      var after := "," + (restRow + tail);
      assert Row(cells) + tail == EscapeCell(cells[0]) + after;
      EscapeCellRoundTrip(cells[0], after);
      assert after[1..] == restRow + tail;
      ReadCellsOfRow(cells[1..], tail);
      assert [cells[0]] + cells[1..] == cells;
    }
  }

  /** The rows of a whole text: rows separated by line breaks, with no line break at the end. */
  function ReadRows(s: string): (r: Option<seq<seq<string>>>)
    decreases |s|
  {
    match ReadCells(s)
    case None => None
    case Some((cells, rest, more)) =>
      if more then
        match ReadRows(rest)
        case None => None
        case Some(rows) => Some([cells] + rows)
      else if |rest| == 0 then Some([cells])
      else None
  }

  function Rows(rows: seq<seq<string>>): (r: seq<string>)
    ensures |r| == |rows|
    ensures forall i :: 0 <= i < |r| ==> r[i] == Row(rows[i])
  {
    seq(|rows|, i requires 0 <= i < |rows| => Row(rows[i]))
  }

  /** Rows joined with line breaks. */
  function WriteRows(rows: seq<seq<string>>): string {
    Join(Rows(rows), "\n")
  }

  /** Reading written rows gives them back, every cell intact, whatever quotes, commas or line
      breaks the values hold. */
  lemma {:induction false} ReadRowsOfWriteRows(rows: seq<seq<string>>)
    requires |rows| > 0
    requires forall i :: 0 <= i < |rows| ==> |rows[i]| > 0
    ensures ReadRows(WriteRows(rows)) == Some(rows)
    decreases |rows|
  {
    var lines := Rows(rows);
    if |rows| == 1 {
      assert WriteRows(rows) == Row(rows[0]) + "";
      ReadCellsOfRow(rows[0], "");
      assert ReadCells(WriteRows(rows)) == Some((rows[0], "", false));
      assert [rows[0]] == rows;
    } else {
      var restText := WriteRows(rows[1..]);
      assert lines[1..] == Rows(rows[1..]);
      assert WriteRows(rows) == Row(rows[0]) + "\n" + restText;
      assert WriteRows(rows) == Row(rows[0]) + ("\n" + restText);
      ReadCellsOfRow(rows[0], "\n" + restText);
      assert ("\n" + restText)[1..] == restText;
      ReadRowsOfWriteRows(rows[1..]);
      assert [rows[0]] + rows[1..] == rows;
    }
  }

  // ---------------------------------------------------------------------------------------
  // The export
  // ---------------------------------------------------------------------------------------

  const Headers: seq<string> :=
    ["Call Title", "Account", "Contact", "Owner", "Sentiment", "Summary", "Next Steps",
     "Objections", "Action Items", "Tags", "Last Updated"]

  const ListSeparator := " \U{2022} "
  const TagSeparator := ", "

  /** The host's date and number formatting: `toFixed0(x)` is `x.toFixed(0)`, and `isoOf(t)` is
      `new Date(t).toISOString()`, unset when the text is not a valid date (where the host
      throws). */
  datatype Formatting = Formatting(toFixed0: real -> string, isoOf: string -> Option<string>)

  /** `${call.sentiment} (${(call.sentimentScore * 100).toFixed(0)}%)` */
  function SentimentCell(call: CallRecord, fmt: Formatting): string {
    SentimentName(call.sentiment) + " (" + fmt.toFixed0(call.sentimentScore * 100.0) + "%)"
  }

  /** The eleven values of a call's row, in header order; unset when its update time is not a
      valid date. */
  function CallCells(call: CallRecord, fmt: Formatting): (r: Option<seq<string>>)
    ensures r.Some? <==> fmt.isoOf(call.updatedAt).Some?
    ensures r.Some? ==> |r.value| == |Headers|
    ensures r.Some? ==> && r.value[0] == call.title && r.value[1] == call.account
                        && r.value[2] == call.contact && r.value[3] == call.owner
                        && r.value[4] == SentimentCell(call, fmt) && r.value[5] == call.summary
                        && r.value[6] == Join(call.nextSteps, ListSeparator)
                        && r.value[7] == Join(call.objections, ListSeparator)
                        && r.value[8] == Join(call.actionItems, ListSeparator)
                        && r.value[9] == Join(call.tags, TagSeparator)
                        && r.value[10] == fmt.isoOf(call.updatedAt).value
  {
    match fmt.isoOf(call.updatedAt)
    case None => None
    case Some(updated) =>
      Some([call.title, call.account, call.contact, call.owner, SentimentCell(call, fmt), call.summary,
            Join(call.nextSteps, ListSeparator), Join(call.objections, ListSeparator),
            Join(call.actionItems, ListSeparator), Join(call.tags, TagSeparator), updated])
  }

  /** The value rows of every call, in list order; unset when any call's row is. */
  function CallRows(calls: seq<CallRecord>, fmt: Formatting): (r: Option<seq<seq<string>>>)
    ensures r.Some? <==> forall i :: 0 <= i < |calls| ==> CallCells(calls[i], fmt).Some?
    ensures r.Some? ==> |r.value| == |calls|
    ensures r.Some? ==> forall i :: 0 <= i < |calls| ==> r.value[i] == CallCells(calls[i], fmt).value
  {
    if |calls| == 0 then Some([])
    else
      match CallCells(calls[0], fmt)
      case None => None
      case Some(cells) =>
        match CallRows(calls[1..], fmt)
        case None => None
        case Some(rows) =>
          assert forall i :: 1 <= i < |calls| ==> calls[i] == calls[1..][i - 1];
          Some([cells] + rows)
  }

  /** `serializeCallsToCsv`: the header row, then one row per call. Unset where the host would
      throw on an invalid update time. */
  function SerializeCallsToCsv(calls: seq<CallRecord>, fmt: Formatting): (r: Option<string>)
    ensures r.Some? <==> CallRows(calls, fmt).Some?
    ensures r.Some? ==> r.value == WriteRows([Headers] + CallRows(calls, fmt).value)
  {
    match CallRows(calls, fmt)
    case None => None
    case Some(rows) => Some(WriteRows([Headers] + rows))
  }

  /** With no calls the export is the header line alone. */
  lemma EmptyExportIsHeaderLine(fmt: Formatting)
    ensures SerializeCallsToCsv([], fmt) == Some(Row(Headers))
  {
    assert Rows([Headers]) == [Row(Headers)];
  }

  /** Reading an export back gives the header row, then each call's eleven values in list
      order. */
  lemma SerializeCallsToCsvRoundTrip(calls: seq<CallRecord>, fmt: Formatting)
    requires SerializeCallsToCsv(calls, fmt).Some?
    ensures ReadRows(SerializeCallsToCsv(calls, fmt).value) == Some([Headers] + CallRows(calls, fmt).value)
    ensures |CallRows(calls, fmt).value| == |calls|
    ensures forall i :: 0 <= i < |calls| ==> CallRows(calls, fmt).value[i] == CallCells(calls[i], fmt).value
  {
    var body := CallRows(calls, fmt).value;
    HeadersCount();
    ReadBackWithHeader(Headers, body);
  }

  lemma HeadersCount()
    ensures |Headers| == 11
  {
  }

  lemma ReadBackWithHeader(header: seq<string>, body: seq<seq<string>>)
    requires |header| > 0
    requires forall i :: 0 <= i < |body| ==> |body[i]| > 0
    ensures ReadRows(WriteRows([header] + body)) == Some([header] + body)
  {
    var rows := [header] + body;
    forall i | 0 <= i < |rows| ensures |rows[i]| > 0 {
      if i > 0 {
        assert rows[i] == body[i - 1];
      }
    }
    ReadRowsOfWriteRows(rows);
  }
}

=== FILE: formatters.dfy ===
/** Display formatting (src/utils/formatters.ts): the hours-and-minutes rendering of a call's
    duration. */
module Formatters {
  import opened Outcomes
  import opened Text

  /** The placeholder shown for a missing value. The source file holds the UTF-8 bytes of an em
      dash decoded as Windows-1252 (U+00E2 U+20AC U+201D), and the application shows exactly
      those three characters. */
  const MissingValue := "\U{00E2}\U{20AC}\U{201D}"

  /** JavaScript's `%`: the remainder takes the sign of the dividend. */
  function TruncatedRemainder(m: int, d: nat): (r: int)
    requires d > 0
    ensures m >= 0 ==> 0 <= r < d && r == m % d
    ensures m < 0 ==> -(d as int) < r <= 0 && r == -((-m) % d)
  {
    if m >= 0 then m % d else -((-m) % d)
  }

  /** `Math.floor(m / 60)` */
  function FloorHours(m: int): (h: int)
    ensures h * 60 <= m < h * 60 + 60
  {
    m / 60
  }

  /** `formatDuration`: the placeholder for no minutes or zero, `<h>h <m>m` from an hour up,
      `<m>m` below it. A negative count falls to the last branch with a negative remainder. */
  function FormatDuration(minutes: Option<int>): (r: string)
    ensures minutes.None? || minutes.value == 0 ==> r == MissingValue
    ensures minutes.Some? && 0 < minutes.value < 60 ==> r == NatToString(minutes.value) + "m"
    ensures minutes.Some? && minutes.value >= 60 ==>
      r == NatToString(minutes.value / 60) + "h " + NatToString(minutes.value % 60) + "m"
    ensures minutes.Some? && minutes.value < 0 ==>
      r == IntToString(TruncatedRemainder(minutes.value, 60)) + "m"
  {
    match minutes
    case None => MissingValue
    case Some(m) =>
      if m == 0 then MissingValue
      else
        var hrs := FloorHours(m);
        var mins := TruncatedRemainder(m, 60);
        if hrs > 0 then IntToString(hrs) + "h " + IntToString(mins) + "m"
        else IntToString(mins) + "m"
  }

  /** The hours and minutes shown for a positive count make up the count, and the minutes
      stay below an hour. */
  lemma FormatDurationSplitsExactly(m: nat)
    requires m >= 60
    ensures var h := m / 60; var mins := m % 60;
      && FormatDuration(Some(m)) == NatToString(h) + "h " + NatToString(mins) + "m"
      && h * 60 + mins == m && mins < 60 && h >= 1
  {
  }

}

/** Reading a rendered duration back, which shows that the rendering loses nothing. */
module DurationReading {
  import opened Outcomes
  import opened Text
  import opened Formatters

  /** Number of decimal digits at the start of `s`. */
  function DigitPrefix(s: string): (k: nat)
    ensures k <= |s| && AllDigits(s[..k])
    ensures k < |s| ==> !IsDigit(s[k])
  {
    if |s| > 0 && IsDigit(s[0]) then
      var k := 1 + DigitPrefix(s[1..]);
      assert s[..k] == [s[0]] + s[1..][..k - 1];
      k
    else 0
  }

  /** Reads a rendered duration back into minutes: `<h>h <m>m` or `<m>m`. */
  function ReadDuration(s: string): Option<nat> {
    if |s| == 0 || s[|s| - 1] != 'm' then None else ReadAmount(s[..|s| - 1])
  }

  /** The text before the closing `m`: bare minutes, or hours followed by the minutes. */
  function ReadAmount(body: string): Option<nat> {
    var k := DigitPrefix(body);
    if k == 0 then None
    else if k == |body| then ParseNat(body)
    else ReadHoursThenMinutes(body[..k], body[k..])
  }

  /** `h <m>` after the hours' digits. */
  function ReadHoursThenMinutes(hs: string, rest: string): Option<nat>
    requires AllDigits(hs)
  {
    if |rest| > 2 && rest[0] == 'h' && rest[1] == ' ' && AllDigits(rest[2..]) then
      Some(DigitsValue(hs) * 60 + DigitsValue(rest[2..]))
    else None
  }

  lemma {:induction false} DigitPrefixOfDigits(d: string, rest: string)
    requires AllDigits(d)
    requires |rest| == 0 || !IsDigit(rest[0])
    ensures DigitPrefix(d + rest) == |d|
    decreases |d|
  {
    if |d| == 0 {
      assert d + rest == rest;
    } else {
      assert (d + rest)[1..] == d[1..] + rest;
      DigitPrefixOfDigits(d[1..], rest);
    }
  }

  /** `<digits>m` reads back as the value of the digits. */
  lemma ReadMinutesOnly(ms: string)
    requires |ms| > 0 && AllDigits(ms)
    ensures ReadDuration(ms + "m") == ParseNat(ms)
  {
    assert (ms + "m")[..|ms|] == ms;
    DigitPrefixOfDigits(ms, "");
    assert ms + "" == ms;
  }

  lemma ReadHoursLayer(hs: string, ms: string, h: nat, mins: nat)
    requires AllDigits(hs) && |ms| > 0 && AllDigits(ms)
    requires DigitsValue(hs) == h && DigitsValue(ms) == mins
    ensures ReadHoursThenMinutes(hs, "h " + ms) == Some(h * 60 + mins)
  {
    assert ("h " + ms)[2..] == ms;
  }

  lemma ReadAmountLayer(hs: string, rest: string)
    requires |hs| > 0 && AllDigits(hs) && |rest| > 0 && !IsDigit(rest[0])
    ensures ReadAmount(hs + rest) == ReadHoursThenMinutes(hs, rest)
  {
    var body := hs + rest;
    DigitPrefixOfDigits(hs, rest);
    assert body[..|hs|] == hs && body[|hs|..] == rest;
  }

  lemma ReadDurationLayer(body: string)
    ensures ReadDuration(body + "m") == ReadAmount(body)
  {
    assert (body + "m")[..|body|] == body;
  }

  /** `<digits>h <digits>m` reads back as hours times sixty plus minutes. */
  lemma ReadHoursAndMinutes(hs: string, ms: string, h: nat, mins: nat)
    requires |hs| > 0 && AllDigits(hs) && |ms| > 0 && AllDigits(ms)
    requires DigitsValue(hs) == h && DigitsValue(ms) == mins
    ensures ReadDuration(hs + "h " + ms + "m") == Some(h * 60 + mins)
  {
    var rest := "h " + ms;
    assert hs + "h " + ms + "m" == (hs + rest) + "m";
    ReadDurationLayer(hs + rest);
    ReadAmountLayer(hs, rest);
    ReadHoursLayer(hs, ms, h, mins);
  }

  /** A count below an hour reads back from its `<m>m` rendering. */
  lemma MinutesReadBack(m: nat)
    requires 0 < m < 60
    ensures ReadDuration(NatToString(m) + "m") == Some(m)
  {
    ReadMinutesOnly(NatToString(m));
    NatToStringRoundTrip(m);
  }

  /** A count of an hour or more reads back from its `<h>h <m>m` rendering. */
  lemma HoursReadBack(h: nat, mins: nat)
    ensures ReadDuration(NatToString(h) + "h " + NatToString(mins) + "m") == Some(h * 60 + mins)
  {
    NatToStringValue(h);
    NatToStringValue(mins);
    ReadHoursAndMinutes(NatToString(h), NatToString(mins), h, mins);
  }

  /** Every positive count is rendered so that it can be read back: the rendering loses
      nothing. */
  lemma FormatDurationReadsBack(m: nat)
    requires m > 0
    ensures ReadDuration(FormatDuration(Some(m))) == Some(m)
  {
    if m < 60 {
      MinutesReadBack(m);
    } else {
      HoursReadBack(m / 60, m % 60);
    }
  }
}

=== FILE: js_numbers.dfy ===
/** `Number(text)` and the number pattern `-?\d+(?:\.\d+)?`, over exact reals. */
module JsNumbers {
  import opened Outcomes
  import opened Text

  /** Index of the first occurrence of `c` in `s`, or `|s|` when there is none. */
  function IndexOf(s: string, c: char): (k: nat)
    ensures k <= |s|
    ensures forall i :: 0 <= i < k ==> s[i] != c
    ensures k < |s| ==> s[k] == c
  {
    if |s| == 0 || s[0] == c then 0 else 1 + IndexOf(s[1..], c)
  }

  /** Index of the first exponent marker `e` or `E`, or `|s|`. */
  function ExponentIndex(s: string): (k: nat)
    ensures k <= |s|
    ensures forall i :: 0 <= i < k ==> s[i] != 'e' && s[i] != 'E'
    ensures k < |s| ==> s[k] == 'e' || s[k] == 'E'
  {
    if |s| == 0 || s[0] == 'e' || s[0] == 'E' then 0 else 1 + ExponentIndex(s[1..])
  }

  function Pow10(n: nat): (p: nat)
    ensures p >= 1
  {
    if n == 0 then 1 else 10 * Pow10(n - 1)
  }

  /** Ten to the power `k`, for an exponent of either sign. */
  function Scale(k: int): (r: real)
    ensures r > 0.0
  {
    if k >= 0 then Pow10(k) as real else 1.0 / Pow10(-k) as real
  }

  /** Digits of a numeral in base 2, 8 or 16. */
  function RadixDigit(c: char, base: nat): Option<nat> {
    var d :=
      if '0' <= c <= '9' then c as int - '0' as int
      else if 'a' <= c <= 'f' then c as int - 'a' as int + 10
      else if 'A' <= c <= 'F' then c as int - 'A' as int + 10
      else 16;
    if d < base then Some(d) else None
  }

  /** Value of a non-empty string of base-`base` digits. */
  function RadixValue(ds: string, base: nat): Option<nat>
  {
    if |ds| == 0 then None
    else if |ds| == 1 then RadixDigit(ds[0], base)
    else
      match (RadixValue(ds[..|ds| - 1], base), RadixDigit(ds[|ds| - 1], base))
      case (Some(hi), Some(lo)) => Some(hi * base + lo)
      case _ => None
  }

  /** An exponent: optional sign, then at least one digit. */
  function ExponentValue(s: string): Option<int> {
    if |s| > 0 && (s[0] == '+' || s[0] == '-') then
      var ds := s[1..];
      if |ds| > 0 && AllDigits(ds) then Some(if s[0] == '-' then -(DigitsValue(ds) as int) else DigitsValue(ds) as int) else None
    else if |s| > 0 && AllDigits(s) then Some(DigitsValue(s))
    else None
  }

  /** ECMA-262 StrUnsignedDecimalLiteral without `Infinity`: digits with at most one
      decimal point, at least one digit, then an optional exponent. */
  function UnsignedDecimal(u: string): Option<real> {
    var e := ExponentIndex(u);
    var mantissa := u[..e];
    var exponent := if e == |u| then Some(0) else ExponentValue(u[e + 1..]);
    var d := IndexOf(mantissa, '.');
    var whole := mantissa[..d];
    var frac := if d < |mantissa| then mantissa[d + 1..] else "";
    if AllDigits(whole) && AllDigits(frac) && |whole| + |frac| > 0 && exponent.Some? then
      Some((DigitsValue(whole) as real + DigitsValue(frac) as real / Pow10(|frac|) as real) * Scale(exponent.value))
    else None
  }

  /** ECMA-262 StrDecimalLiteral without `Infinity`: an optional sign, then an unsigned
      decimal numeral. */
  function SignedDecimal(t: string): Option<real> {
    if |t| > 0 && t[0] == '+' then UnsignedDecimal(t[1..])
    else if |t| > 0 && t[0] == '-' then
      match UnsignedDecimal(t[1..]) case Some(v) => Some(-v) case None => None
    else UnsignedDecimal(t)
  }

  /** An unsigned `0x`, `0o` or `0b` integer numeral (ECMA-262 NonDecimalIntegerLiteral). */
  function RadixInteger(t: string): Option<real>
    requires |t| >= 2
  {
    var base := if t[1] == 'x' || t[1] == 'X' then 16 else if t[1] == 'o' || t[1] == 'O' then 8 else 2;
    match RadixValue(t[2..], base) case Some(v) => Some(v as real) case None => None
  }

  predicate HasRadixPrefix(t: string) {
    |t| >= 2 && t[0] == '0' && t[1] in "xXoObB"
  }

  /** `Number(text)` when it is not NaN: white space is trimmed, empty text is 0, then an
      unsigned `0x`/`0o`/`0b` integer or a signed decimal numeral with optional fraction and
      exponent. Text that denotes an infinite value is `None` here. */
  function NumberOf(text: string): (r: Option<real>)
    ensures (forall i :: 0 <= i < |text| ==> IsSpace(text[i])) ==> r == Some(0.0)
  {
    var t := Trim(text);
    if t == "" then Some(0.0)
    else if HasRadixPrefix(t) then RadixInteger(t)
    else SignedDecimal(t)
  }

  /** Text of the shape `\d+(?:\.\d+)?`. */
  predicate IsUnsignedToken(u: string) {
    var d := IndexOf(u, '.');
    && d > 0 && AllDigits(u[..d])
    && (d == |u| || (d + 1 < |u| && AllDigits(u[d + 1..])))
  }

  /** Text of the shape `-?\d+(?:\.\d+)?`. */
  predicate IsNumberToken(t: string) {
    if |t| > 0 && t[0] == '-' then IsUnsignedToken(t[1..]) else IsUnsignedToken(t)
  }

  /** The exact value an unsigned number token denotes. */
  function UnsignedTokenValue(u: string): real
    requires IsUnsignedToken(u)
  {
    var d := IndexOf(u, '.');
    var frac := if d < |u| then u[d + 1..] else "";
    DigitsValue(u[..d]) as real + DigitsValue(frac) as real / Pow10(|frac|) as real
  }

  /** The exact value a number token denotes. */
  function TokenValue(t: string): real
    requires IsNumberToken(t)
  {
    if |t| > 0 && t[0] == '-' then -UnsignedTokenValue(t[1..]) else UnsignedTokenValue(t)
  }

  lemma {:induction false} ExponentIndexWithoutMarker(s: string)
    requires forall i :: 0 <= i < |s| ==> s[i] != 'e' && s[i] != 'E'
    ensures ExponentIndex(s) == |s|
  {
    if |s| > 0 {
      ExponentIndexWithoutMarker(s[1..]);
    }
  }

  /** Every character of an unsigned number token is a digit or the point. */
  lemma TokenCharAt(u: string, i: nat)
    requires IsUnsignedToken(u) && i < |u|
    ensures IsDigit(u[i]) || u[i] == '.'
  {
    var d := IndexOf(u, '.');
    if i < d {
      assert u[i] == u[..d][i];
    } else if i > d {
      assert u[i] == u[d + 1..][i - d - 1];
    }
  }

  /** An unsigned number token holds digits and at most one point, so no exponent marker. */
  lemma TokenHasNoExponent(u: string)
    requires IsUnsignedToken(u)
    ensures ExponentIndex(u) == |u|
  {
    forall i | 0 <= i < |u| ensures u[i] != 'e' && u[i] != 'E' {
      TokenCharAt(u, i);
    }
    ExponentIndexWithoutMarker(u);
  }

  lemma UnsignedDecimalOfToken(u: string)
    requires IsUnsignedToken(u)
    ensures UnsignedDecimal(u) == Some(UnsignedTokenValue(u))
  {
    TokenHasNoExponent(u);
    assert u[..|u|] == u;
    var d := IndexOf(u, '.');
    var frac := if d < |u| then u[d + 1..] else "";
    var v := DigitsValue(u[..d]) as real + DigitsValue(frac) as real / Pow10(|frac|) as real;
    assert AllDigits(u[..d]) && AllDigits(frac) && |u[..d]| + |frac| > 0;
    assert v * Scale(0) == v;
  }

  /** An unsigned number token starts and ends with a digit, and its second character, if
      any, is a digit or the point. */
  lemma UnsignedTokenEnds(u: string)
    requires IsUnsignedToken(u)
    ensures |u| > 0 && IsDigit(u[0]) && IsDigit(u[|u| - 1])
    ensures |u| >= 2 ==> IsDigit(u[1]) || u[1] == '.'
  {
    var d := IndexOf(u, '.');
    assert u[0] == u[..d][0];
    if d == |u| {
      assert u[|u| - 1] == u[..d][d - 1];
    } else {
      assert u[|u| - 1] == u[d + 1..][|u| - d - 2];
    }
    if |u| >= 2 && d > 1 {
      assert u[1] == u[..d][1];
    }
  }

  /** A number token starts with a digit or `-` followed by a digit, ends with a digit, and
      so has no white space to trim and no radix prefix. */
  lemma TokenShape(t: string)
    requires IsNumberToken(t)
    ensures Trim(t) == t
    ensures !HasRadixPrefix(t)
  {
    if t[0] == '-' {
      UnsignedTokenEnds(t[1..]);
      assert t[|t| - 1] == t[1..][|t| - 2];
    } else {
      UnsignedTokenEnds(t);
    }
    assert IsTrimmed(t);
    TrimmedFixpoint(t);
  }

  lemma SignedDecimalOfToken(t: string)
    requires IsNumberToken(t)
    ensures SignedDecimal(t) == Some(TokenValue(t))
  {
    if t[0] == '-' {
      UnsignedDecimalOfToken(t[1..]);
    } else {
      assert t[..IndexOf(t, '.')][0] == t[0];
      UnsignedDecimalOfToken(t);
    }
  }

  /** `Number` reads every number token as the value it denotes. */
  lemma NumberOfToken(t: string)
    requires IsNumberToken(t)
    ensures NumberOf(t) == Some(TokenValue(t))
  {
    TokenShape(t);
    SignedDecimalOfToken(t);
  }

  /** Number of leading decimal digits of `s`. */
  function DigitRun(s: string): (k: nat)
    ensures k <= |s|
    ensures AllDigits(s[..k])
    ensures k < |s| ==> !IsDigit(s[k])
  {
    if |s| == 0 || !IsDigit(s[0]) then 0 else 1 + DigitRun(s[1..])
  }

  /** A match of `-?\d+(?:\.\d+)?` can start at index 0 of `s`. */
  predicate TokenStarts(s: string) {
    |s| > 0 && (IsDigit(s[0]) || (s[0] == '-' && |s| > 1 && IsDigit(s[1])))
  }

  /** The greedy match of `-?\d+(?:\.\d+)?` at the start of `s`. */
  function TokenAtStart(s: string): (t: string)
    requires TokenStarts(s)
    ensures IsNumberToken(t)
    ensures StartsWith(s, t)
  {
    var sign := if s[0] == '-' then 1 else 0;
    var body := s[sign..];
    var k := DigitRun(body);
    var whole := body[..k];
    assert IndexOf(whole, '.') == k;
    if k + 1 < |body| && body[k] == '.' && IsDigit(body[k + 1]) then
      var f := DigitRun(body[k + 1..]);
      var u := body[..k + 1 + f];
      assert u[..k] == whole && u[k + 1..] == body[k + 1..][..f];
      assert IndexOf(u, '.') == k;
      var t := s[..sign + k + 1 + f];
      assert sign == 1 ==> t[1..] == u;
      assert sign == 0 ==> t == u;
      t
    else
      var t := s[..sign + k];
      assert sign == 1 ==> t[1..] == whole;
      assert sign == 0 ==> t == whole;
      t
  }

  /** Length of the greedy match of `\d+(?:\.\d+)?` at the start of `body`. */
  function MatchLength(body: string): nat {
    var k := DigitRun(body);
    if k + 1 < |body| && body[k] == '.' && IsDigit(body[k + 1]) then k + 1 + DigitRun(body[k + 1..]) else k
  }

  function SignLength(s: string): nat {
    if |s| > 0 && s[0] == '-' then 1 else 0
  }

  lemma TokenAtStartLength(s: string)
    requires TokenStarts(s)
    ensures |TokenAtStart(s)| == SignLength(s) + MatchLength(s[SignLength(s)..])
  {
  }

  /** The greedy match stops only where the pattern cannot go on: the next character is not
      a digit, and a point followed by a digit follows only a match that already has its
      fraction. */
  lemma TokenAtStartMaximal(s: string)
    requires TokenStarts(s)
    ensures var t := TokenAtStart(s); |t| < |s| ==> !IsDigit(s[|t|])
    ensures var t := TokenAtStart(s); |t| + 1 < |s| && s[|t|] == '.' && IsDigit(s[|t| + 1]) ==> '.' in t
  {
    var sign := SignLength(s);
    var body := s[sign..];
    var k := DigitRun(body);
    var t := TokenAtStart(s);
    TokenAtStartLength(s);
    assert t == s[..|t|];
    if k + 1 < |body| && body[k] == '.' && IsDigit(body[k + 1]) {
      var f := DigitRun(body[k + 1..]);
      assert t[sign + k] == body[k];
      if |t| < |s| {
        assert s[|t|] == body[k + 1..][f];
      }
    } else {
      if |t| < |s| {
        assert s[|t|] == body[k];
      }
      if |t| + 1 < |s| {
        assert s[|t| + 1] == body[k + 1];
      }
    }
  }

  /** Text whose digit run ends at `k` is an unsigned token exactly when the run is followed
      by a point and nothing but digits after it. */
  lemma UnsignedTokenPastDigits(b: string, k: nat)
    requires k < |b| && AllDigits(b[..k]) && !IsDigit(b[k])
    ensures IsUnsignedToken(b) <==> k > 0 && b[k] == '.' && k + 1 < |b| && AllDigits(b[k + 1..])
  {
    assert forall i :: 0 <= i < k ==> IsDigit(b[..k][i]);
    if b[k] == '.' {
      assert IndexOf(b, '.') == k;
    } else {
      assert IndexOf(b, '.') > k;
      assert b[..IndexOf(b, '.')][k] == b[k];
    }
  }

  /** No prefix of `body` longer than the greedy match is an unsigned token. */
  lemma MatchLengthLongest(body: string, m: nat)
    requires MatchLength(body) < m <= |body|
    ensures !IsUnsignedToken(body[..m])
  {
    var k := DigitRun(body);
    var b := body[..m];
    assert b[..k] == body[..k] && b[k] == body[k];
    UnsignedTokenPastDigits(b, k);
    if k + 1 < |body| && body[k] == '.' && IsDigit(body[k + 1]) {
      var f := DigitRun(body[k + 1..]);
      assert b[k + 1..][f] == body[k + 1..][f];
    } else if k + 1 < |b| {
      assert b[k + 1..][0] == body[k + 1];
    }
  }

  /** A signed prefix is a number token exactly when its unsigned part is an unsigned token. */
  lemma SignedPrefix(s: string, j: nat)
    requires TokenStarts(s) && SignLength(s) < j <= |s|
    ensures IsNumberToken(s[..j]) <==> IsUnsignedToken(s[SignLength(s)..j])
  {
    assert SignLength(s) == 1 ==> s[..j][1..] == s[1..j];
    assert SignLength(s) == 0 ==> s[..j] == s[0..j];
  }

  /** No longer prefix of `s` is a number token: the greedy match is the longest one. */
  lemma TokenAtStartLongest(s: string, j: nat)
    requires TokenStarts(s)
    requires |TokenAtStart(s)| < j <= |s|
    ensures !IsNumberToken(s[..j])
  {
    var sign := SignLength(s);
    TokenAtStartLength(s);
    SignedPrefix(s, j);
    MatchLengthLongest(s[sign..], j - sign);
    assert s[sign..][..j - sign] == s[sign..j];
  }

  /** `text.match(/-?\d+(?:\.\d+)?/)`: the leftmost match. Some digit in the text is the
      only thing a match needs, so there is a match exactly when the text has a digit. */
  function FirstNumberToken(text: string): (r: Option<string>)
    ensures r.Some? <==> exists i :: 0 <= i < |text| && IsDigit(text[i])
    ensures r.Some? ==> IsNumberToken(r.value) && Contains(text, r.value)
    decreases |text|
  {
    if |text| == 0 then None
    else if TokenStarts(text) then Some(TokenAtStart(text))
    else
      var r := FirstNumberToken(text[1..]);
      assert forall i :: 1 <= i < |text| ==> text[i] == text[1..][i - 1];
      r
  }

  /** `i` is the leftmost position of `text` where a match can start. */
  predicate LeftmostStart(text: string, i: nat) {
    i < |text| && TokenStarts(text[i..]) && forall j :: 0 <= j < i ==> !TokenStarts(text[j..])
  }

  /** A leftmost start after a first character that starts nothing moves up by one. */
  lemma LeftmostStartShift(text: string, i: nat)
    requires |text| > 0 && !TokenStarts(text) && LeftmostStart(text[1..], i)
    ensures LeftmostStart(text, i + 1) && text[i + 1..] == text[1..][i..]
  {
    assert text[0..] == text;
    forall j | 1 <= j < i + 1 ensures !TokenStarts(text[j..]) {
      assert text[j..] == text[1..][j - 1..];
    }
  }

  lemma NoStartShift(text: string)
    requires |text| > 0 && !TokenStarts(text)
    requires forall i :: 0 <= i < |text| - 1 ==> !TokenStarts(text[1..][i..])
    ensures forall i :: 0 <= i < |text| ==> !TokenStarts(text[i..])
  {
    assert text[0..] == text;
    forall i | 1 <= i < |text| ensures !TokenStarts(text[i..]) {
      assert text[i..] == text[1..][i - 1..];
    }
  }

  /** The match `FirstNumberToken` returns is the greedy match at the leftmost position where
      one can start; when it returns nothing, no position can start a match. */
  lemma {:induction false} FirstNumberTokenLeftmost(text: string)
    ensures FirstNumberToken(text).None? ==> forall i :: 0 <= i < |text| ==> !TokenStarts(text[i..])
    ensures FirstNumberToken(text).Some? ==>
      exists i: nat :: LeftmostStart(text, i) && FirstNumberToken(text).value == TokenAtStart(text[i..])
    decreases |text|
  {
    if |text| > 0 {
      if TokenStarts(text) {
        assert text[0..] == text;
        assert LeftmostStart(text, 0);
      } else {
        var r := FirstNumberToken(text[1..]);
        assert FirstNumberToken(text) == r;
        FirstNumberTokenLeftmost(text[1..]);
        if r.Some? {
          var i: nat :| LeftmostStart(text[1..], i) && r.value == TokenAtStart(text[1..][i..]);
          LeftmostStartShift(text, i);
        } else {
          NoStartShift(text);
        }
      }
    }
  }
}

=== FILE: js_values.dfy ===
/** Loosely typed JavaScript values, as the hosted agent's JSON response delivers them, and
    the conversions of the runtime that the model takes as given. */
module JsValues {
  import opened Outcomes
  import opened Text
  import opened CallTypes

  /** A JavaScript value of the kinds JSON and the response object can hold. JSON has no
      NaN or Infinity, so every number here is finite. */
  datatype JsVal =
    | JUndef
    | JNull
    | JBool(b: bool)
    | JNum(n: real)
    | JStr(s: string)
    | JArr(items: seq<JsVal>)
    | JObj(fields: map<string, JsVal>)

  /** The runtime conversions the application calls but does not define:
      `numberText` is `String(n)` on a number, `parseJson` is `JSON.parse` (`None` when it
      throws), `metadataJson` is `JSON.stringify` of the submission's metadata object. */
  datatype Runtime = Runtime(
    numberText: real -> string,
    parseJson: string -> Option<JsVal>,
    metadataJson: TranscriptMetadata -> string)

  /** What `??` skips over. */
  predicate IsNullish(v: JsVal) {
    v.JUndef? || v.JNull?
  }

  /** `obj[key]` on a plain object: `undefined` for a missing key. */
  function Field(fields: map<string, JsVal>, key: string): (v: JsVal)
    ensures key !in fields ==> v == JUndef
    ensures key in fields ==> v == fields[key]
  {
    if key in fields then fields[key] else JUndef
  }

  /** `c0 ?? c1 ?? ... ?? cn`: the first candidate that is neither `null` nor `undefined`,
      or the last candidate when all of them are. */
  function Coalesce(cs: seq<JsVal>): (r: JsVal)
    requires |cs| > 0
    ensures forall k :: 0 <= k < |cs| && !IsNullish(cs[k]) && (forall j :: 0 <= j < k ==> IsNullish(cs[j])) ==> r == cs[k]
    ensures (forall k :: 0 <= k < |cs| ==> IsNullish(cs[k])) ==> r == cs[|cs| - 1]
    ensures IsNullish(r) ==> forall k :: 0 <= k < |cs| ==> IsNullish(cs[k])
  {
    if |cs| == 1 || !IsNullish(cs[0]) then cs[0]
    else
      var r := Coalesce(cs[1..]);
      assert forall k :: 1 <= k < |cs| ==> cs[k] == cs[1..][k - 1];
      r
  }

  /** A first value that is neither `null` nor `undefined` is the result. */
  lemma CoalesceFirst(cs: seq<JsVal>)
    requires |cs| > 0 && !IsNullish(cs[0])
    ensures Coalesce(cs) == cs[0]
  {
  }

  /** `String(v)`; arrays join their elements with "," and render `null` and `undefined`
      elements as empty text, like `Array.prototype.join`. */
  function StringOf(v: JsVal, rt: Runtime): (r: string)
    ensures v.JStr? ==> r == v.s
    decreases v
  {
    match v
    case JUndef => "undefined"
    case JNull => "null"
    case JBool(b) => if b then "true" else "false"
    case JNum(n) => rt.numberText(n)
    case JStr(s) => s
    case JArr(items) =>
      Join(seq(|items|, i requires 0 <= i < |items| =>
        if IsNullish(items[i]) then "" else StringOf(items[i], rt)), ",")
    case JObj(_) => "[object Object]"
  }
}

=== FILE: lists.dfy ===
/** Sequence operations the application performs through `Array.prototype.filter` and
    `new Set(...)`. */
module Lists {

  predicate NoDup<T(==,!new)>(xs: seq<T>) {
    forall i, j :: 0 <= i < j < |xs| ==> xs[i] != xs[j]
  }

  /** Dropping the head of a list without repeats leaves a list without repeats that does
      not hold the head. */
  lemma NoDupTail<T(!new)>(xs: seq<T>)
    requires |xs| > 0 && NoDup(xs)
    ensures NoDup(xs[1..]) && xs[0] !in xs[1..]
  {
    var tail := xs[1..];
    forall i, j | 0 <= i < j < |tail| ensures tail[i] != tail[j] {
      assert tail[i] == xs[i + 1] && tail[j] == xs[j + 1];
    }
    forall j | 0 <= j < |tail| ensures tail[j] != xs[0] {
      assert tail[j] == xs[j + 1];
    }
  }

  /** `a` can be obtained from `b` by deleting elements, keeping the order of the rest. */
  predicate IsSubsequence<T(==,!new)>(a: seq<T>, b: seq<T>)
    decreases |b|
  {
    |a| == 0 || (|b| > 0 && if a[0] == b[0] then IsSubsequence(a[1..], b[1..]) else IsSubsequence(a, b[1..]))
  }

  /** `xs.filter(p)`: the elements satisfying `p`, in their original order. */
  function Filter<T(!new)>(p: T -> bool, xs: seq<T>): (r: seq<T>)
    ensures |r| <= |xs|
    ensures forall i :: 0 <= i < |r| ==> p(r[i])
    ensures forall x :: x in r <==> x in xs && p(x)
  {
    if |xs| == 0 then []
    else if p(xs[0]) then [xs[0]] + Filter(p, xs[1..])
    else Filter(p, xs[1..])
  }

  /** A filter never reorders: its result is a subsequence of its input. */
  lemma {:induction false} FilterIsSubsequence<T(!new)>(p: T -> bool, xs: seq<T>)
    ensures IsSubsequence(Filter(p, xs), xs)
  {
    if |xs| > 0 {
      FilterIsSubsequence(p, xs[1..]);
      var rest := Filter(p, xs[1..]);
      if p(xs[0]) {
        assert Filter(p, xs)[1..] == rest;
      } else if |rest| > 0 {
        assert rest[0] != xs[0];
      }
    }
  }

  /** A filter whose predicate holds everywhere keeps everything. */
  lemma {:induction false} FilterAll<T(!new)>(p: T -> bool, xs: seq<T>)
    requires forall i :: 0 <= i < |xs| ==> p(xs[i])
    ensures Filter(p, xs) == xs
  {
    if |xs| > 0 {
      FilterAll(p, xs[1..]);
    }
  }

  /** Two predicates that agree on every element of `xs` filter it alike. */
  lemma {:induction false} FilterAgreeing<T(!new)>(p: T -> bool, q: T -> bool, xs: seq<T>)
    requires forall i :: 0 <= i < |xs| ==> p(xs[i]) == q(xs[i])
    ensures Filter(p, xs) == Filter(q, xs)
  {
    if |xs| > 0 {
      FilterAgreeing(p, q, xs[1..]);
    }
  }

  /** Filtering distributes over concatenation. */
  lemma {:induction false} FilterAppend<T(!new)>(p: T -> bool, a: seq<T>, b: seq<T>)
    ensures Filter(p, a + b) == Filter(p, a) + Filter(p, b)
  {
    if |a| > 0 {
      assert (a + b)[1..] == a[1..] + b;
      FilterAppend(p, a[1..], b);
    } else {
      assert a + b == b;
    }
  }

  /** `xs.map(f).filter(p)` holds exactly the images under `f` that satisfy `p`. */
  lemma MapFilterMembers<A, B(!new)>(f: A -> B, p: B -> bool, xs: seq<A>, ys: seq<B>)
    requires |ys| == |xs|
    requires forall i :: 0 <= i < |xs| ==> ys[i] == f(xs[i])
    ensures forall e :: e in Filter(p, ys) <==> p(e) && exists i :: 0 <= i < |xs| && f(xs[i]) == e
  {
    forall e | e in Filter(p, ys) ensures exists i :: 0 <= i < |xs| && f(xs[i]) == e {
      var i :| 0 <= i < |ys| && ys[i] == e;
    }
    forall e | p(e) && exists i :: 0 <= i < |xs| && f(xs[i]) == e ensures e in Filter(p, ys) {
      var i :| 0 <= i < |xs| && f(xs[i]) == e;
      assert ys[i] == e;
    }
  }

  /** `[...new Set(xs)]`: every element once, at the place of its first occurrence. */
  function Dedupe<T(==,!new)>(xs: seq<T>): (r: seq<T>)
    ensures NoDup(r)
    ensures |r| <= |xs|
    ensures forall x :: x in r <==> x in xs
  {
    if |xs| == 0 then []
    else
      var init := Dedupe(xs[..|xs| - 1]);
      var last := xs[|xs| - 1];
      assert forall x :: x in xs <==> x in xs[..|xs| - 1] || x == last;
      if last in init then init else init + [last]
  }

  /** Deduplicating a longer list extends the deduplicated shorter one: what was kept stays,
      in place. */
  lemma {:induction false} DedupePrefix<T(!new)>(a: seq<T>, b: seq<T>)
    ensures Dedupe(a) <= Dedupe(a + b)
  {
    if |b| > 0 {
      var b' := b[..|b| - 1];
      assert (a + b)[..|a + b| - 1] == a + b';
      DedupePrefix(a, b');
    } else {
      assert a + b == a;
    }
  }

  /** A duplicate-free list is its own deduplication. */
  lemma {:induction false} DedupeOfNoDup<T(!new)>(xs: seq<T>)
    requires NoDup(xs)
    ensures Dedupe(xs) == xs
  {
    if |xs| > 0 {
      var init := xs[..|xs| - 1];
      DedupeOfNoDup(init);
      assert xs[|xs| - 1] !in init;
      assert init + [xs[|xs| - 1]] == xs;
    }
  }

  /** Index of the first occurrence of `x` in `xs`. */
  function FirstIndex<T(==,!new)>(xs: seq<T>, x: T): (k: nat)
    requires x in xs
    ensures k < |xs| && xs[k] == x && x !in xs[..k]
  {
    if xs[0] == x then 0 else 1 + FirstIndex(xs[1..], x)
  }

  /** The kept elements appear in the order of their first occurrences. */
  lemma {:induction false} DedupeFirstOccurrenceOrder<T(!new)>(xs: seq<T>)
    ensures forall i, j :: 0 <= i < j < |Dedupe(xs)| ==>
      FirstIndex(xs, Dedupe(xs)[i]) < FirstIndex(xs, Dedupe(xs)[j])
  {
    if |xs| > 0 {
      var init := xs[..|xs| - 1];
      var last := xs[|xs| - 1];
      DedupeFirstOccurrenceOrder(init);
      var d := Dedupe(init);
      forall y | y in init
        ensures FirstIndex(xs, y) == FirstIndex(init, y)
      {
        FirstIndexPrefix(init, [last], y);
        assert init + [last] == xs;
      }
      if last !in d {
        assert last !in init;
        assert FirstIndex(xs, last) == |xs| - 1;
      }
    }
  }

  lemma {:induction false} FirstIndexPrefix<T(!new)>(a: seq<T>, b: seq<T>, x: T)
    requires x in a
    ensures FirstIndex(a + b, x) == FirstIndex(a, x)
  {
    if a[0] != x {
      assert (a + b)[1..] == a[1..] + b;
      FirstIndexPrefix(a[1..], b, x);
    }
  }
}

=== FILE: neuralseek.dfy ===
/** The client of the hosted agent service (src/utils/neuralseek.ts): configuration checks,
    request parameters, and the tolerant coercion of the agent's loosely typed response into
    the fields of a call record or a financial health report. The HTTP exchange itself is a
    function `send` supplied by the caller. */
module NeuralSeek {
  import opened Outcomes
  import opened Text
  import opened Lists
  import opened CallTypes
  import opened JsValues
  import opened JsNumbers

  // ---------------------------------------------------------------------------------------
  // Configuration
  // ---------------------------------------------------------------------------------------

  /** The build-time environment: each entry may be unset. */
  datatype Config = Config(
    baseUrl: Option<string>,
    apiKey: Option<string>,
    callAgentName: Option<string>,
    finAgentName: Option<string>)

  /** `Boolean(x)` for an optional string: set and non-empty. */
  predicate Truthy(x: Option<string>) {
    x.Some? && x.value != ""
  }

  predicate EndsWithSlash(u: string) {
    |u| > 0 && u[|u| - 1] == '/'
  }

  /** The base URL with one trailing `/` removed (`replace(/\/$/, '')`). */
  function NormalizedBaseUrl(cfg: Config): (r: Option<string>)
    ensures cfg.baseUrl.None? <==> r.None?
    ensures r.Some? && EndsWithSlash(cfg.baseUrl.value) ==> r.value + "/" == cfg.baseUrl.value
    ensures r.Some? && !EndsWithSlash(cfg.baseUrl.value) ==> r.value == cfg.baseUrl.value
  {
    match cfg.baseUrl
    case None => None
    case Some(u) => if |u| > 0 && u[|u| - 1] == '/' then Some(u[..|u| - 1]) else Some(u)
  }

  predicate IsBaseConfigured(cfg: Config) {
    Truthy(NormalizedBaseUrl(cfg)) && Truthy(cfg.apiKey)
  }

  predicate IsCallNotesAgentConfigured(cfg: Config) {
    IsBaseConfigured(cfg) && Truthy(cfg.callAgentName)
  }

  predicate IsFinancialAgentConfigured(cfg: Config) {
    IsBaseConfigured(cfg) && Truthy(cfg.finAgentName)
  }

  /** The call agent is usable exactly when the key and the agent name are non-empty and the
      base URL is neither empty nor a lone `/` (which the trailing-slash rule empties). */
  lemma CallNotesAgentConfiguredIff(cfg: Config)
    ensures IsCallNotesAgentConfigured(cfg) <==>
      && cfg.baseUrl.Some? && cfg.baseUrl.value != "" && cfg.baseUrl.value != "/"
      && Truthy(cfg.apiKey) && Truthy(cfg.callAgentName)
  {
    if cfg.baseUrl.Some? && |cfg.baseUrl.value| == 1 && cfg.baseUrl.value[0] == '/' {
      assert cfg.baseUrl.value == "/";
    }
  }

  /** The same holds for the financial agent with its own agent name. */
  lemma FinancialAgentConfiguredIff(cfg: Config)
    ensures IsFinancialAgentConfigured(cfg) <==>
      && cfg.baseUrl.Some? && cfg.baseUrl.value != "" && cfg.baseUrl.value != "/"
      && Truthy(cfg.apiKey) && Truthy(cfg.finAgentName)
  {
    if cfg.baseUrl.Some? && |cfg.baseUrl.value| == 1 && cfg.baseUrl.value[0] == '/' {
      assert cfg.baseUrl.value == "/";
    }
  }

  // ---------------------------------------------------------------------------------------
  // Requests
  // ---------------------------------------------------------------------------------------

  datatype AgentParam = AgentParam(name: string, value: string)

  function Names(ps: seq<AgentParam>): seq<string> {
    seq(|ps|, i requires 0 <= i < |ps| => ps[i].name)
  }

  /** The value of the first parameter called `name`. */
  function ParamValue(ps: seq<AgentParam>, name: string): Option<string> {
    if |ps| == 0 then None
    else if ps[0].name == name then Some(ps[0].value)
    else ParamValue(ps[1..], name)
  }

  const CallParamNames: seq<string> :=
    ["callTranscript", "callTitle", "callAccount", "callContact", "callOwner",
     "callSource", "callSourceName", "callMetadata"]

  /** The eight parameters sent with a transcript, in a fixed order; an absent source file
      name is sent as empty text. */
  function BuildCallParams(submission: TranscriptSubmission, rt: Runtime): (ps: seq<AgentParam>)
    ensures Names(ps) == CallParamNames
  {
    var m := submission.metadata;
    [ AgentParam("callTranscript", submission.transcript),
      AgentParam("callTitle", m.title),
      AgentParam("callAccount", m.account),
      AgentParam("callContact", m.contact),
      AgentParam("callOwner", m.owner),
      AgentParam("callSource", SourceName(m.source)),
      AgentParam("callSourceName", m.sourceName.GetOr("")),
      AgentParam("callMetadata", rt.metadataJson(m)) ]
  }

  /** Reads a submission back from the call parameters, treating an empty source file name
      as absent; `None` when a parameter is missing or the source tag is unknown. */
  function SubmissionFromParams(ps: seq<AgentParam>): Option<TranscriptSubmission> {
    match (ParamValue(ps, "callTranscript"), ParamValue(ps, "callTitle"), ParamValue(ps, "callAccount"),
           ParamValue(ps, "callContact"), ParamValue(ps, "callOwner"), ParamValue(ps, "callSource"),
           ParamValue(ps, "callSourceName"))
    case (Some(t), Some(title), Some(account), Some(contact), Some(owner), Some(src), Some(name)) =>
      if src == "upload" || src == "paste" then
        var source := if src == "upload" then Upload else Paste;
        Some(TranscriptSubmission(t, TranscriptMetadata(title, account, contact, owner, source,
          if name == "" then None else Some(name))))
      else None
    case _ => None
  }

  /** The plain parameters carry the whole submission: it can be read back from them, except
      that `callSourceName` alone cannot tell an empty source file name from an absent one. */
  lemma CallParamsRoundTrip(submission: TranscriptSubmission, rt: Runtime)
    requires submission.metadata.sourceName != Some("")
    ensures SubmissionFromParams(BuildCallParams(submission, rt)) == Some(submission)
  {
    CallParamValues(submission, rt);
  }

  /** Each of the first seven names finds the parameter at its own position. */
  lemma CallParamValues(submission: TranscriptSubmission, rt: Runtime)
    ensures var ps := BuildCallParams(submission, rt); var m := submission.metadata;
      && ParamValue(ps, "callTranscript") == Some(submission.transcript)
      && ParamValue(ps, "callTitle") == Some(m.title)
      && ParamValue(ps, "callAccount") == Some(m.account)
      && ParamValue(ps, "callContact") == Some(m.contact)
      && ParamValue(ps, "callOwner") == Some(m.owner)
      && ParamValue(ps, "callSource") == Some(SourceName(m.source))
      && ParamValue(ps, "callSourceName") == Some(m.sourceName.GetOr(""))
  {
    var ps := BuildCallParams(submission, rt);
    forall i | 0 <= i < 7
      ensures ParamValue(ps, CallParamNames[i]) == Some(ps[i].value)
    {
      assert ps[i].name == CallParamNames[i];
      ParamValueFirst(ps, CallParamNames[i], i);
    }
    assert CallParamNames[0] == "callTranscript" && CallParamNames[1] == "callTitle";
    assert CallParamNames[2] == "callAccount" && CallParamNames[3] == "callContact";
    assert CallParamNames[4] == "callOwner" && CallParamNames[5] == "callSource";
    assert CallParamNames[6] == "callSourceName";
  }

  /** `ParamValue` finds the first parameter with the name. */
  lemma {:induction false} ParamValueFirst(ps: seq<AgentParam>, name: string, i: nat)
    requires i < |ps| && ps[i].name == name
    requires forall j :: 0 <= j < i ==> ps[j].name != name
    ensures ParamValue(ps, name) == Some(ps[i].value)
  {
    if i > 0 {
      ParamValueFirst(ps[1..], name, i - 1);
    }
  }

  /** The request `callMaistro` posts: endpoint, bearer key, agent, parameters and user id.
      The body's fixed options (no streaming, variables requested, render and sources
      suppressed, recursion bound 10) are the same for every request. */
  datatype MaistroRequest = MaistroRequest(
    url: string,
    apiKey: string,
    agent: string,
    params: seq<AgentParam>,
    userId: string)

  const BaseMissing := "NeuralSeek base URL or API key missing"
  const AgentMissing := "NeuralSeek agent name is missing"

  /** The checks `callMaistro` makes before any network traffic, and the request it sends. */
  function PrepareMaistro(cfg: Config, agent: Option<string>, params: seq<AgentParam>, userId: string): (r: Result<MaistroRequest>)
    ensures r.Ok? <==> IsBaseConfigured(cfg) && Truthy(agent)
    ensures !IsBaseConfigured(cfg) ==> r == Err(BaseMissing)
    ensures IsBaseConfigured(cfg) && !Truthy(agent) ==> r == Err(AgentMissing)
    ensures r.Ok? ==>
      && r.value.url == NormalizedBaseUrl(cfg).value + "/maistro"
      && r.value.agent == agent.value && r.value.params == params && r.value.userId == userId
  {
    if !IsBaseConfigured(cfg) then Err(BaseMissing)
    else if !Truthy(agent) then Err(AgentMissing)
    else Ok(MaistroRequest(NormalizedBaseUrl(cfg).value + "/maistro", cfg.apiKey.value, agent.value, params, userId))
  }

  // ---------------------------------------------------------------------------------------
  // Response and variables
  // ---------------------------------------------------------------------------------------

  datatype ExpandedVariable = ExpandedVariable(name: string, value: JsVal)

  /** The agent's reply: free-text answer, flat variables, and the expanded variable list.
      `None` stands for a missing or `null` member. */
  datatype RawResponse = RawResponse(
    answer: JsVal,
    variables: Option<map<string, JsVal>>,
    variablesExpanded: Option<seq<ExpandedVariable>>)

  /** The value of the last entry named `key`, searching from the end. */
  function LastValue(entries: seq<ExpandedVariable>, key: string): Option<JsVal> {
    if |entries| == 0 then None
    else if entries[|entries| - 1].name == key then Some(entries[|entries| - 1].value)
    else LastValue(entries[..|entries| - 1], key)
  }

  /** Writes the entries into the map one after another, as the loop in `extractVariables`
      does; the entry written last for a name is the one that stays. */
  function ApplyExpanded(m: map<string, JsVal>, entries: seq<ExpandedVariable>): (r: map<string, JsVal>)
    ensures forall k :: k in r <==> k in m || LastValue(entries, k).Some?
    ensures forall k :: k in r ==> r[k] == LastValue(entries, k).GetOr(if k in m then m[k] else JUndef)
    decreases |entries|
  {
    if |entries| == 0 then m
    else
      var e := entries[|entries| - 1];
      var r := ApplyExpanded(m, entries[..|entries| - 1])[e.name := e.value];
      r
  }

  /** `extractVariables`: the flat variables, overwritten by the expanded ones. */
  function ExtractVariables(raw: RawResponse): (vars: map<string, JsVal>)
    ensures forall k :: k in vars <==>
      (raw.variables.Some? && k in raw.variables.value) ||
      (raw.variablesExpanded.Some? && LastValue(raw.variablesExpanded.value, k).Some?)
  {
    ApplyExpanded(raw.variables.GetOr(map[]), raw.variablesExpanded.GetOr([]))
  }

  /** Every flat variable survives unless an expanded entry reuses its name, and an
      expanded entry wins over a flat one; among expanded entries the later one wins. */
  lemma ExtractVariablesPrecedence(raw: RawResponse, key: string)
    ensures raw.variablesExpanded.None? || LastValue(raw.variablesExpanded.value, key).None? ==>
      Field(ExtractVariables(raw), key) == (if raw.variables.Some? then Field(raw.variables.value, key) else JUndef)
    ensures raw.variablesExpanded.Some? && LastValue(raw.variablesExpanded.value, key).Some? ==>
      Field(ExtractVariables(raw), key) == LastValue(raw.variablesExpanded.value, key).value
  {
  }

  /** `vars[k0] ?? vars[k1] ?? ...`: the alternate names of one field, probed in order. */
  function Probe(vars: map<string, JsVal>, keys: seq<string>): (v: JsVal)
    requires |keys| > 0
    ensures forall i ::
      (0 <= i < |keys| && !IsNullish(Field(vars, keys[i])) && forall j :: 0 <= j < i ==> IsNullish(Field(vars, keys[j])))
      ==> v == Field(vars, keys[i])
    ensures IsNullish(v) ==> forall i :: 0 <= i < |keys| ==> IsNullish(Field(vars, keys[i]))
    ensures (forall i :: 0 <= i < |keys| ==> IsNullish(Field(vars, keys[i]))) ==> v == Field(vars, keys[|keys| - 1])
  {
    var cs := seq(|keys|, i requires 0 <= i < |keys| => Field(vars, keys[i]));
    assert forall i :: 0 <= i < |keys| ==> cs[i] == Field(vars, keys[i]);
    Coalesce(cs)
  }

  // ---------------------------------------------------------------------------------------
  // Coercion of loosely typed values
  // ---------------------------------------------------------------------------------------

  predicate IsEntry(s: string) {
    s != "" && IsTrimmed(s)
  }

  /** `.map(entry => entry.trim()).filter(Boolean)` */
  function CleanEntries(xs: seq<string>): (r: seq<string>)
    ensures forall i :: 0 <= i < |r| ==> IsEntry(r[i])
    ensures forall e :: e in r <==> e != "" && exists i :: 0 <= i < |xs| && Trim(xs[i]) == e
  {
    var trimmed := seq(|xs|, i requires 0 <= i < |xs| => Trim(xs[i]));
    MapFilterMembers(Trim, NonEmpty, xs, trimmed);
    Filter(NonEmpty, trimmed)
  }

  /** Entries that are already trimmed and non-empty pass unchanged. */
  lemma CleanEntriesOfEntries(xs: seq<string>)
    requires forall i :: 0 <= i < |xs| ==> IsEntry(xs[i])
    ensures CleanEntries(xs) == xs
  {
    var trimmed := seq(|xs|, i requires 0 <= i < |xs| => Trim(xs[i]));
    forall i | 0 <= i < |xs| ensures trimmed[i] == xs[i] {
      TrimmedFixpoint(xs[i]);
    }
    assert trimmed == xs;
    FilterAll(NonEmpty, xs);
  }

  /** One entry on its own: kept trimmed unless it is blank. */
  lemma CleanEntriesSingle(x: string)
    ensures CleanEntries([x]) == if Trim(x) == "" then [] else [Trim(x)]
  {
    var trimmed := seq(1, i requires 0 <= i < 1 => Trim([x][i]));
    assert trimmed == [Trim(x)];
    assert trimmed[1..] == [];
  }

  /** Cleaning works entry by entry: the cleaning of a concatenation is the concatenation of
      the cleanings, so with `CleanEntriesSingle` it is fixed on every list, order and
      repeats included. */
  lemma CleanEntriesAppend(xs: seq<string>, ys: seq<string>)
    ensures CleanEntries(xs + ys) == CleanEntries(xs) + CleanEntries(ys)
  {
    var tx := seq(|xs|, i requires 0 <= i < |xs| => Trim(xs[i]));
    var ty := seq(|ys|, i requires 0 <= i < |ys| => Trim(ys[i]));
    var zs := xs + ys;
    var tz := seq(|zs|, i requires 0 <= i < |zs| => Trim(zs[i]));
    assert tz == tx + ty;
    FilterAppend(NonEmpty, tx, ty);
  }

  /** `values.map(String)` */
  function StringsOf(items: seq<JsVal>, rt: Runtime): (r: seq<string>)
    ensures |r| == |items|
    ensures forall i :: 0 <= i < |items| ==> r[i] == StringOf(items[i], rt)
  {
    seq(|items|, i requires 0 <= i < |items| => StringOf(items[i], rt))
  }

  /** Length of the separator `\r?\n|•|- ` matched at the start of `s`, 0 when none. */
  function BulletSeparator(s: string): (k: nat)
    ensures k <= |s|
  {
    if |s| >= 2 && s[0] == '\r' && s[1] == '\n' then 2
    else if |s| >= 1 && (s[0] == '\n' || s[0] == '\U{2022}') then 1
    else if |s| >= 2 && s[0] == '-' && s[1] == ' ' then 2
    else 0
  }

  /** No separator occurs inside `p`. */
  predicate FreeOfSeparators(p: string) {
    forall i :: 0 <= i < |p| ==> BulletSeparator(p[i..]) == 0
  }

  /** `s.split(/\r?\n|•|- |\u2022/g)`: the maximal separator-free pieces between
      separators, empty pieces included. */
  function SplitBullets(s: string): (pieces: seq<string>)
    ensures |pieces| > 0 && StartsWith(s, pieces[0])
    ensures forall i :: 0 <= i < |pieces| ==> FreeOfSeparators(pieces[i])
    decreases |s|
  {
    if |s| == 0 then [""]
    else
      var k := BulletSeparator(s);
      if k > 0 then [""] + SplitBullets(s[k..])
      else
        var rest := SplitBullets(s[1..]);
        var head := [s[0]] + rest[0];
        assert forall i :: 1 <= i < |head| ==> head[i..] == rest[0][i - 1..];
        assert |rest[0]| > 0 ==> rest[0][0] == s[1];
        assert head[0..] == s[..|head|] || |head| == 1;
        assert StartsWith(s, head) by {
          assert s[..|head|] == [s[0]] + s[1..][..|rest[0]|];
        }
        [head] + rest[1..]
  }

  predicate IsBulletChar(c: char) {
    IsSpace(c) || c == '-' || c == '\U{2022}'
  }

  /** `entry.replace(/^[\s-•]+/, '')`: drops leading white space, dashes and bullets. */
  function StripBulletPrefix(s: string): (r: string)
    ensures |r| <= |s| && r == s[|s| - |r|..]
    ensures |r| > 0 ==> !IsBulletChar(r[0])
    ensures forall i :: 0 <= i < |s| - |r| ==> IsBulletChar(s[i])
  {
    if |s| > 0 && IsBulletChar(s[0]) then StripBulletPrefix(s[1..]) else s
  }

  /** Each piece with its bullet marker and surrounding white space removed. */
  function CleanPieces(pieces: seq<string>): (r: seq<string>)
    ensures |r| == |pieces|
    ensures forall i :: 0 <= i < |r| ==> r[i] == Trim(StripBulletPrefix(pieces[i]))
    ensures forall i :: 0 <= i < |r| && r[i] != "" ==> !IsBulletChar(r[i][0])
  {
    var cleaned := seq(|pieces|, i requires 0 <= i < |pieces| => Trim(StripBulletPrefix(pieces[i])));
    forall i | 0 <= i < |cleaned| && cleaned[i] != ""
      ensures !IsBulletChar(cleaned[i][0])
    {
      TrimKeepsFirst(StripBulletPrefix(pieces[i]));
    }
    cleaned
  }

  /** The line-list reading of text that is not a JSON array. */
  function ListEntries(text: string): (r: seq<string>)
    ensures forall i :: 0 <= i < |r| ==> IsEntry(r[i]) && !IsBulletChar(r[i][0])
  {
    Filter(NonEmpty, CleanPieces(SplitBullets(text)))
  }

  /** `parseArrayValue`: a list of strings from an array, from text holding a JSON array,
      or from text holding one item per line or bullet. Every item is trimmed and non-empty;
      blank text and values of any other kind give no items. */
  function ParseArrayValue(v: JsVal, rt: Runtime): (r: seq<string>)
    ensures forall i :: 0 <= i < |r| ==> IsEntry(r[i])
    ensures !v.JArr? && !v.JStr? ==> r == []
    ensures v.JStr? && Trim(v.s) == "" ==> r == []
  {
    match v
    case JArr(items) => CleanEntries(StringsOf(items, rt))
    case JStr(s) =>
      var trimmed := Trim(s);
      if trimmed == "" then [] else ParseArrayText(trimmed, rt)
    case _ => []
  }

  /** The reading of trimmed, non-blank text: the JSON array it holds, else its lines. */
  function ParseArrayText(trimmed: string, rt: Runtime): seq<string> {
    match rt.parseJson(trimmed)
    case Some(JArr(items)) => CleanEntries(StringsOf(items, rt))
    case _ => ListEntries(trimmed)
  }

  /** JSON text denotes an array only if it opens with `[` (true of `JSON.parse`, since
      trimmed text has no leading white space). */
  ghost predicate JsonArraysOpenWithBracket(rt: Runtime) {
    forall t :: IsTrimmed(t) && rt.parseJson(t).Some? && rt.parseJson(t).value.JArr? ==> |t| > 0 && t[0] == '['
  }

  /** A native array is read element by element: `String` of each element, trimmed, blanks
      dropped. */
  lemma ParseArrayValueOfArray(items: seq<JsVal>, rt: Runtime)
    ensures ParseArrayValue(JArr(items), rt) == CleanEntries(StringsOf(items, rt))
  {
  }

  /** Text that `JSON.parse` reads as an array is read like that array. */
  lemma ParseArrayValueOfJsonArray(s: string, items: seq<JsVal>, rt: Runtime)
    requires Trim(s) != ""
    requires rt.parseJson(Trim(s)) == Some(JArr(items))
    ensures ParseArrayValue(JStr(s), rt) == CleanEntries(StringsOf(items, rt))
  {
    assert ParseArrayValue(JStr(s), rt) == ParseArrayText(Trim(s), rt);
  }

  /** Text that does not open with `[` is read line by line. */
  lemma ParseArrayValueOfList(s: string, rt: Runtime)
    requires JsonArraysOpenWithBracket(rt)
    requires Trim(s) != "" && Trim(s)[0] != '['
    ensures ParseArrayValue(JStr(s), rt) == ListEntries(Trim(s))
  {
  }

  /** A character that can begin a separator. */
  predicate MayStartSeparator(c: char) {
    c == '\r' || c == '\n' || c == '\U{2022}' || c == '-'
  }

  /** A character where no separator starts joins the first piece of what follows it. */
  lemma SplitBulletsPlainStep(s: string)
    requires |s| > 0 && BulletSeparator(s) == 0
    ensures SplitBullets(s) == [[s[0]] + SplitBullets(s[1..])[0]] + SplitBullets(s[1..])[1..]
  {
    assert BulletSeparator(s) == 0;
  }

  /** Text free of separator characters joins the first piece of what follows it. */
  lemma {:induction false} SplitBulletsPlainPrefix(p: string, t: string)
    requires forall i :: 0 <= i < |p| ==> !MayStartSeparator(p[i])
    ensures SplitBullets(p + t) == [p + SplitBullets(t)[0]] + SplitBullets(t)[1..]
  {
    if |p| > 0 {
      var s := p + t;
      assert s[1..] == p[1..] + t;
      assert BulletSeparator(s) == 0;
      SplitBulletsPlainStep(s);
      SplitBulletsPlainPrefix(p[1..], t);
      var rest := SplitBullets(t);
      assert [p[0]] + (p[1..] + rest[0]) == p + rest[0];
    } else {
      var rest := SplitBullets(t);
      assert p + t == t && p + rest[0] == rest[0];
      assert [rest[0]] + rest[1..] == rest;
    }
  }

  /** A separator at the front closes an empty piece. */
  lemma SplitBulletsSeparatorPrefix(sep: string, t: string)
    requires sep == "\n" || sep == "\r\n" || sep == "- " || sep == "\U{2022}"
    ensures SplitBullets(sep + t) == [""] + SplitBullets(t)
  {
    assert (sep + t)[|sep|..] == t;
  }

  // The split as a decomposition: the text is its pieces with the matched separators between
  // them, and every separator is taken at the first place one matches.

  predicate IsBulletSeparator(sep: string) {
    sep == "\n" || sep == "\r\n" || sep == "- " || sep == "\U{2022}"
  }

  /** The text after the first piece: the first separator, then the rest rejoined. */
  function AfterFirst(pieces: seq<string>, seps: seq<string>): string
    requires |pieces| == |seps| + 1
    decreases |seps|, 0
  {
    if |seps| == 0 then "" else seps[0] + Rejoin(pieces[1..], seps[1..])
  }

  /** The pieces with the separators put back between them. */
  function Rejoin(pieces: seq<string>, seps: seq<string>): string
    requires |pieces| == |seps| + 1
    decreases |seps|, 1
  {
    pieces[0] + AfterFirst(pieces, seps)
  }

  /** No separator match starts inside a piece, given everything that follows the piece. */
  predicate NoMatchInsidePieces(pieces: seq<string>, seps: seq<string>)
    requires |pieces| == |seps| + 1
    decreases |seps|
  {
    && (forall j :: 0 <= j < |pieces[0]| ==> BulletSeparator(pieces[0][j..] + AfterFirst(pieces, seps)) == 0)
    && (|seps| > 0 ==> NoMatchInsidePieces(pieces[1..], seps[1..]))
  }

  /** The separators `split` matches in `s`, in order. */
  function BulletSeparators(s: string): seq<string>
    decreases |s|
  {
    if |s| == 0 then []
    else
      var k := BulletSeparator(s);
      if k > 0 then [s[..k]] + BulletSeparators(s[k..]) else BulletSeparators(s[1..])
  }

  lemma BulletSeparatorMatched(s: string)
    requires BulletSeparator(s) > 0
    ensures IsBulletSeparator(s[..BulletSeparator(s)])
  {
  }

  /** A separator at the front of the text is matched whole. */
  lemma SeparatorMatchedWhole(sep: string, t: string)
    requires IsBulletSeparator(sep)
    ensures BulletSeparator(sep + t) == |sep|
  {
  }

  /** Putting one more character in front of the first piece puts it in front of the text. */
  lemma RejoinConsFirst(c: char, pieces: seq<string>, seps: seq<string>)
    requires |pieces| == |seps| + 1
    ensures Rejoin([[c] + pieces[0]] + pieces[1..], seps) == [c] + Rejoin(pieces, seps)
  {
    var ps := [[c] + pieces[0]] + pieces[1..];
    assert ps[1..] == pieces[1..];
    assert AfterFirst(ps, seps) == AfterFirst(pieces, seps);
  }

  /** `s` is its pieces with the matched separators put back, every separator is one the
      pattern names, and no separator starts inside a piece. */
  predicate DecomposesInto(s: string, pieces: seq<string>, seps: seq<string>) {
    && |pieces| == |seps| + 1
    && (forall i :: 0 <= i < |seps| ==> IsBulletSeparator(seps[i]))
    && Rejoin(pieces, seps) == s
    && NoMatchInsidePieces(pieces, seps)
  }

  /** At a separator, `split` closes an empty piece and records the separator. */
  lemma SplitAtSeparator(s: string)
    requires BulletSeparator(s) > 0
    ensures var k := BulletSeparator(s);
      && SplitBullets(s) == [""] + SplitBullets(s[k..])
      && BulletSeparators(s) == [s[..k]] + BulletSeparators(s[k..])
  {
  }

  lemma RejoinsAtSeparator(s: string)
    requires BulletSeparator(s) > 0
    requires DecomposesInto(s[BulletSeparator(s)..], SplitBullets(s[BulletSeparator(s)..]), BulletSeparators(s[BulletSeparator(s)..]))
    ensures DecomposesInto(s, SplitBullets(s), BulletSeparators(s))
  {
    var k := BulletSeparator(s);
    SplitAtSeparator(s);
    BulletSeparatorMatched(s);
    DecomposesAfterSeparator(s[..k], s[k..], SplitBullets(s[k..]), BulletSeparators(s[k..]));
    assert s[..k] + s[k..] == s;
  }

  /** A separator in front of a decomposed text gives an empty first piece: the separator is
      recorded, and no match can start inside the empty piece. */
  lemma DecomposesAfterSeparator(sep: string, t: string, rest: seq<string>, restSeps: seq<string>)
    requires IsBulletSeparator(sep)
    requires DecomposesInto(t, rest, restSeps)
    ensures DecomposesInto(sep + t, [""] + rest, [sep] + restSeps)
  {
    var pieces := [""] + rest;
    var seps := [sep] + restSeps;
    assert pieces[1..] == rest && seps[1..] == restSeps;
    assert Rejoin(pieces, seps) == sep + t;
    forall i | 0 <= i < |seps| ensures IsBulletSeparator(seps[i]) {
      if i > 0 {
        assert seps[i] == restSeps[i - 1];
      }
    }
  }

  /** Where no separator starts, `split` adds the character to the first piece of the rest
      and records no separator. */
  lemma SplitAtPlain(s: string)
    requires |s| > 0 && BulletSeparator(s) == 0
    ensures var rest := SplitBullets(s[1..]);
      && SplitBullets(s) == [[s[0]] + rest[0]] + rest[1..]
      && BulletSeparators(s) == BulletSeparators(s[1..])
  {
    SplitBulletsPlainStep(s);
  }

  /** The first piece, grown by one character, still has no separator match inside it. */
  lemma NoMatchInsideGrownPiece(c: char, rest: seq<string>, seps: seq<string>)
    requires |rest| == |seps| + 1 && NoMatchInsidePieces(rest, seps)
    requires BulletSeparator([c] + Rejoin(rest, seps)) == 0
    ensures NoMatchInsidePieces([[c] + rest[0]] + rest[1..], seps)
  {
    var head := [c] + rest[0];
    var pieces := [head] + rest[1..];
    assert pieces[1..] == rest[1..];
    var after := AfterFirst(pieces, seps);
    assert after == AfterFirst(rest, seps);
    assert head + after == [c] + Rejoin(rest, seps);
    forall j | 0 <= j < |head| ensures BulletSeparator(head[j..] + after) == 0 {
      if j == 0 {
        assert head[0..] == head;
      } else {
        assert head[j..] == rest[0][j - 1..];
      }
    }
  }

  lemma RejoinsAtPlain(s: string)
    requires |s| > 0 && BulletSeparator(s) == 0
    requires DecomposesInto(s[1..], SplitBullets(s[1..]), BulletSeparators(s[1..]))
    ensures DecomposesInto(s, SplitBullets(s), BulletSeparators(s))
  {
    var rest := SplitBullets(s[1..]);
    var seps := BulletSeparators(s[1..]);
    SplitAtPlain(s);
    RejoinConsFirst(s[0], rest, seps);
    assert [s[0]] + s[1..] == s;
    NoMatchInsideGrownPiece(s[0], rest, seps);
  }

  /** The pieces of `s`, with the separators matched between them, give back `s`; every
      separator is one of the four the pattern names, and none starts inside a piece. */
  lemma {:induction false} SplitBulletsRejoins(s: string)
    ensures |BulletSeparators(s)| + 1 == |SplitBullets(s)|
    ensures forall i :: 0 <= i < |BulletSeparators(s)| ==> IsBulletSeparator(BulletSeparators(s)[i])
    ensures Rejoin(SplitBullets(s), BulletSeparators(s)) == s
    ensures NoMatchInsidePieces(SplitBullets(s), BulletSeparators(s))
    decreases |s|
  {
    if |s| == 0 {
      assert DecomposesInto(s, SplitBullets(s), BulletSeparators(s));
    } else if BulletSeparator(s) > 0 {
      SplitBulletsRejoins(s[BulletSeparator(s)..]);
      RejoinsAtSeparator(s);
    } else {
      SplitBulletsRejoins(s[1..]);
      RejoinsAtPlain(s);
    }
  }

  /** A prefix inside which no separator match starts joins the first piece of what follows. */
  lemma {:induction false} SplitBulletsUnmatchedPrefix(p: string, t: string)
    requires forall j :: 0 <= j < |p| ==> BulletSeparator(p[j..] + t) == 0
    ensures SplitBullets(p + t) == [p + SplitBullets(t)[0]] + SplitBullets(t)[1..]
    decreases |p|
  {
    if |p| > 0 {
      var s := p + t;
      assert p[0..] == p;
      assert s[1..] == p[1..] + t;
      SplitBulletsPlainStep(s);
      forall j | 0 <= j < |p| - 1 ensures BulletSeparator(p[1..][j..] + t) == 0 {
        assert p[1..][j..] == p[j + 1..];
      }
      SplitBulletsUnmatchedPrefix(p[1..], t);
      var rest := SplitBullets(t);
      assert [p[0]] + (p[1..] + rest[0]) == p + rest[0];
    } else {
      var rest := SplitBullets(t);
      assert p + t == t && p + rest[0] == rest[0];
      assert [rest[0]] + rest[1..] == rest;
    }
  }

  /** Conversely, any pieces and separators of that kind are what `split` returns for the
      rejoined text: the decomposition is unique. */
  lemma {:induction false} SplitBulletsOfRejoin(pieces: seq<string>, seps: seq<string>)
    requires |pieces| == |seps| + 1
    requires forall i :: 0 <= i < |seps| ==> IsBulletSeparator(seps[i])
    requires NoMatchInsidePieces(pieces, seps)
    ensures SplitBullets(Rejoin(pieces, seps)) == pieces
    decreases |seps|
  {
    var t := AfterFirst(pieces, seps);
    SplitBulletsUnmatchedPrefix(pieces[0], t);
    if |seps| == 0 {
      assert SplitBullets(t) == [""];
      assert pieces[0] + "" == pieces[0];
      assert pieces == [pieces[0]];
    } else {
      var inner := Rejoin(pieces[1..], seps[1..]);
      SeparatorMatchedWhole(seps[0], inner);
      assert t[|seps[0]|..] == inner;
      SplitBulletsOfRejoin(pieces[1..], seps[1..]);
      assert SplitBullets(t) == [""] + pieces[1..];
      assert pieces[0] + "" == pieces[0];
      assert [pieces[0]] + pieces[1..] == pieces;
    }
  }

  /** An item that can stand on a bulleted line: trimmed, non-empty, and free of
      line breaks, bullets and dashes. */
  predicate IsPlainItem(a: string) {
    IsEntry(a) && forall i :: 0 <= i < |a| ==> !MayStartSeparator(a[i])
  }

  /** An item alone is a single piece. */
  lemma SplitBulletsPlain(b: string)
    requires IsPlainItem(b)
    ensures SplitBullets(b) == [b]
  {
    SplitBulletsPlainPrefix(b, "");
    assert b + "" == b;
  }

  /** The pieces of one bulleted line: an empty piece, then the item. */
  lemma BulletLinePieces(b: string)
    requires IsPlainItem(b)
    ensures SplitBullets("- " + b) == ["", b]
  {
    SplitBulletsPlain(b);
    SplitBulletsSeparatorPrefix("- ", b);
  }

  /** The pieces of a line break followed by one bulleted line. */
  lemma BreakLinePieces(b: string)
    requires IsPlainItem(b)
    ensures SplitBullets("\n- " + b) == ["", "", b]
  {
    BulletLinePieces(b);
    assert "\n- " + b == "\n" + ("- " + b);
    SplitBulletsSeparatorPrefix("\n", "- " + b);
  }

  /** The pieces of an item followed by a second bulleted line. */
  lemma ItemThenLinePieces(a: string, b: string)
    requires IsPlainItem(a) && IsPlainItem(b)
    ensures SplitBullets(a + "\n- " + b) == [a, "", b]
  {
    var t := "\n- " + b;
    BreakLinePieces(b);
    assert a + "\n- " + b == a + t;
    SplitBulletsPlainPrefix(a, t);
    assert a + "" == a;
  }

  /** The pieces of a bulleted two-line list: an empty piece before each marker. */
  lemma BulletPairPieces(a: string, b: string)
    requires IsPlainItem(a) && IsPlainItem(b)
    ensures SplitBullets("- " + a + "\n- " + b) == ["", a, "", b]
  {
    var t := a + "\n- " + b;
    ItemThenLinePieces(a, b);
    assert "- " + a + "\n- " + b == "- " + t;
    SplitBulletsSeparatorPrefix("- ", t);
  }

  /** The cleaned pieces of a bulleted two-line list keep only its items. */
  lemma FilterBulletPair(a: string, b: string)
    requires NonEmpty(a) && NonEmpty(b)
    ensures Filter(NonEmpty, ["", a, "", b]) == [a, b]
  {
    var xs := ["", a, "", b];
    assert xs[3..] == [b];
    assert Filter(NonEmpty, xs[3..]) == [b];
    assert xs[2..] == [""] + xs[3..];
    assert Filter(NonEmpty, xs[2..]) == [b];
    assert xs[1..] == [a] + xs[2..];
    assert Filter(NonEmpty, xs[1..]) == [a, b];
    assert xs == [""] + xs[1..];
  }

  /** The line reading of a bulleted two-line list is its two items. */
  lemma ListEntriesBulletPair(a: string, b: string)
    requires IsPlainItem(a) && IsPlainItem(b)
    ensures ListEntries("- " + a + "\n- " + b) == [a, b]
  {
    BulletPairPieces(a, b);
    CleanBulletPair(a, b);
    FilterBulletPair(a, b);
  }

  /** Cleaning leaves a plain item unchanged and an empty piece empty. */
  lemma CleanPieceKept(xs: seq<string>, i: nat)
    requires i < |xs| && (|xs[i]| == 0 || IsPlainItem(xs[i]))
    ensures CleanPieces(xs)[i] == xs[i]
  {
    var e := xs[i];
    TrimmedFixpoint(e);
    assert StripBulletPrefix(e) == e;
  }

  /** Cleaning changes nothing when every piece is empty or a plain item. */
  lemma CleanPiecesKept(xs: seq<string>)
    requires forall i :: 0 <= i < |xs| ==> |xs[i]| == 0 || IsPlainItem(xs[i])
    ensures CleanPieces(xs) == xs
  {
    forall i | 0 <= i < |xs|
      ensures CleanPieces(xs)[i] == xs[i]
    {
      CleanPieceKept(xs, i);
    }
  }

  /** Cleaning the pieces of a bulleted two-line list changes nothing. */
  lemma CleanBulletPair(a: string, b: string)
    requires IsPlainItem(a) && IsPlainItem(b)
    ensures CleanPieces(["", a, "", b]) == ["", a, "", b]
  {
    var xs := ["", a, "", b];
    assert forall i :: 0 <= i < |xs| ==> xs[i] == "" || xs[i] == a || xs[i] == b;
    CleanPiecesKept(xs);
  }

  /** A bulleted two-line list reads as its two items with the markers removed. */
  lemma ParseArrayValueBulletPair(a: string, b: string, rt: Runtime)
    requires JsonArraysOpenWithBracket(rt)
    requires IsPlainItem(a) && IsPlainItem(b)
    ensures ParseArrayValue(JStr("- " + a + "\n- " + b), rt) == [a, b]
  {
    var s := "- " + a + "\n- " + b;
    assert s[|s| - 1] == b[|b| - 1];
    assert IsTrimmed(s);
    TrimmedFixpoint(s);
    ParseArrayValueOfList(s, rt);
    ListEntriesBulletPair(a, b);
  }

  /** Text holding a JSON array of items reads as those items. */
  lemma ParseArrayValueJsonText(s: string, xs: seq<string>, rt: Runtime)
    requires forall i :: 0 <= i < |xs| ==> IsEntry(xs[i])
    requires Trim(s) != ""
    requires rt.parseJson(Trim(s)) == Some(JArr(seq(|xs|, i requires 0 <= i < |xs| => JStr(xs[i]))))
    ensures ParseArrayValue(JStr(s), rt) == xs
  {
    var items := seq(|xs|, i requires 0 <= i < |xs| => JStr(xs[i]));
    ParseArrayValueOfJsonArray(s, items, rt);
    ParseArrayValueOfEntries(xs, rt);
  }

  /** A native array of trimmed, non-empty strings reads as itself. */
  lemma ParseArrayValueOfEntries(xs: seq<string>, rt: Runtime)
    requires forall i :: 0 <= i < |xs| ==> IsEntry(xs[i])
    ensures ParseArrayValue(JArr(seq(|xs|, i requires 0 <= i < |xs| => JStr(xs[i]))), rt) == xs
  {
    var items := seq(|xs|, i requires 0 <= i < |xs| => JStr(xs[i]));
    assert StringsOf(items, rt) == xs;
    CleanEntriesOfEntries(xs);
  }

  /** `parseNumberValue`: a (finite) number, or text `Number` reads as one; `undefined` for
      anything else. Blank text reads as 0, as `Number("")` does. */
  function ParseNumberValue(v: JsVal): (r: Option<real>)
    ensures v.JNum? ==> r == Some(v.n)
    ensures !v.JNum? && !v.JStr? ==> r == None
    ensures v.JStr? && Trim(v.s) == "" ==> r == Some(0.0)
  {
    match v
    case JNum(n) => Some(n)
    case JStr(s) => NumberOf(s)
    case _ => None
  }

  /** `getStringValue`: trimmed non-blank text, else `undefined`. */
  function GetStringValue(v: JsVal): (r: Option<string>)
    ensures r.Some? <==> v.JStr? && Trim(v.s) != ""
    ensures r.Some? ==> IsEntry(r.value) && r.value == Trim(v.s)
  {
    if v.JStr? && Trim(v.s) != "" then Some(Trim(v.s)) else None
  }

  /** `normalizeSentimentLabel`: the first of "positive", "negative", "neutral" found in
      the lower-cased text decides; Neutral when none is. */
  function NormalizeSentimentLabel(input: string): (r: Sentiment)
    ensures r == Positive <==> Contains(Lower(input), "positive")
    ensures r == Negative <==> !Contains(Lower(input), "positive") && Contains(Lower(input), "negative")
  {
    var lower := Lower(input);
    if Contains(lower, "positive") then Positive
    else if Contains(lower, "negative") then Negative
    else if Contains(lower, "neutral") then Neutral
    else Neutral
  }

  /** The label names the application itself uses read back as those labels. */
  lemma NormalizeSentimentName(s: Sentiment)
    ensures NormalizeSentimentLabel(SentimentName(s)) == s
  {
    var lower := Lower(SentimentName(s));
    match s
    case Positive =>
      assert lower == "positive";
      ContainsAtMostAsLong(lower, "positive");
    case Negative =>
      assert lower == "negative";
      ContainsAtMostAsLong(lower, "positive");
      ContainsAtMostAsLong(lower, "negative");
    case Neutral =>
      assert lower == "neutral";
      ContainsAtMostAsLong(lower, "positive");
      ContainsAtMostAsLong(lower, "negative");
  }

  /** `defaultSentimentScore`: the score assumed when the agent names a label but no number;
      its sign is the label's polarity and the scores of the two polar labels are opposite. */
  function DefaultSentimentScore(s: Sentiment): (score: real)
    ensures score > 0.0 <==> s == Positive
    ensures score < 0.0 <==> s == Negative
    ensures s != Neutral ==> (if score > 0.0 then score else -score) == 0.6
  {
    match s
    case Positive => 0.6
    case Negative => -0.6
    case Neutral => 0.0
  }

  datatype SentimentReading = SentimentReading(sentiment: Sentiment, score: real)

  /** The score free text carries: the value of its first number (`Number` of the first
      match of `-?\d+(?:\.\d+)?`), else `fallback`. */
  function TextScore(text: string, fallback: real): (score: real)
    ensures FirstNumberToken(text).Some? ==> score == TokenValue(FirstNumberToken(text).value)
    ensures FirstNumberToken(text).None? ==> score == fallback
  {
    match FirstNumberToken(text)
    case Some(token) =>
      NumberOfToken(token);
      NumberOf(token).GetOr(fallback)
    case None => fallback
  }

  /** `parseSentimentValue`, a total function: an object with a text `label` (score from its
      `score` member, else the label's default), free text (score from the first number in
      it, else the label's default), or anything else, which reads as neutral with score 0. */
  function ParseSentimentValue(v: JsVal): (r: SentimentReading)
    ensures v.JObj? && "label" in v.fields && v.fields["label"].JStr? ==>
      && r.sentiment == NormalizeSentimentLabel(v.fields["label"].s)
      && r.score == ParseNumberValue(Field(v.fields, "score")).GetOr(DefaultSentimentScore(r.sentiment))
    ensures v.JStr? ==> r.sentiment == NormalizeSentimentLabel(v.s)
    ensures v.JStr? && FirstNumberToken(v.s).Some? ==> r.score == TokenValue(FirstNumberToken(v.s).value)
    ensures v.JStr? && FirstNumberToken(v.s).None? ==> r.score == DefaultSentimentScore(r.sentiment)
    ensures !v.JStr? && !(v.JObj? && "label" in v.fields && v.fields["label"].JStr?) ==>
      r == SentimentReading(Neutral, 0.0)
  {
    match v
    case JObj(fields) =>
      if "label" in fields && fields["label"].JStr? then
        var sentiment := NormalizeSentimentLabel(fields["label"].s);
        SentimentReading(sentiment, ParseNumberValue(Field(fields, "score")).GetOr(DefaultSentimentScore(sentiment)))
      else SentimentReading(Neutral, 0.0)
    case JStr(s) =>
      var sentiment := NormalizeSentimentLabel(s);
      var score := TextScore(s, DefaultSentimentScore(sentiment));
      SentimentReading(sentiment, score)
    case _ => SentimentReading(Neutral, 0.0)
  }

  /** A bare label the application itself writes reads back as that label with its default
      score: the names hold no digits, so no number is found in them. */
  lemma BareLabelReading(s: Sentiment)
    ensures ParseSentimentValue(JStr(SentimentName(s))) == SentimentReading(s, DefaultSentimentScore(s))
  {
    var name := SentimentName(s);
    NormalizeSentimentName(s);
    forall i | 0 <= i < |name| ensures !IsDigit(name[i]) {
    }
  }

  // ---------------------------------------------------------------------------------------
  // Call notes agent
  // ---------------------------------------------------------------------------------------

  /** What the call-notes agent contributed; an unset field defers to the heuristic. */
  datatype CallAgentResult = CallAgentResult(
    summary: Option<string>,
    nextSteps: Option<seq<string>>,
    actionItems: Option<seq<string>>,
    objections: Option<seq<string>>,
    tags: Option<seq<string>>,
    sentiment: SentimentReading,
    durationMinutes: Option<real>)

  /** A list field is either unset or a non-empty list of trimmed, non-empty items. */
  predicate WellFormedList(xs: Option<seq<string>>) {
    xs.Some? ==> |xs.value| > 0 && forall i :: 0 <= i < |xs.value| ==> IsEntry(xs.value[i])
  }

  /** `normalizeArray`: the parsed items, or unset when there are none. */
  function NormalizeArray(v: JsVal, rt: Runtime): (r: Option<seq<string>>)
    ensures WellFormedList(r)
    ensures r.None? <==> ParseArrayValue(v, rt) == []
    ensures r.Some? ==> r.value == ParseArrayValue(v, rt)
  {
    var parsed := ParseArrayValue(v, rt);
    if |parsed| > 0 then Some(parsed) else None
  }

  const NextStepKeys: seq<string> := ["nextSteps", "nextsteps", "followUps"]
  const ActionItemKeys: seq<string> := ["actionItems", "actionitems", "nextSteps"]
  const ObjectionKeys: seq<string> := ["objections", "concerns", "risks"]
  const TagKeys: seq<string> := ["tags", "labels"]
  const SentimentKeys: seq<string> := ["sentiment", "sentimentAnalysis"]
  const DurationKeys: seq<string> := ["durationMinutes", "estimatedDurationMinutes"]

  /** The response-to-result mapping of `runCallNotesAgent`. */
  function CallAgentResultOf(raw: RawResponse, rt: Runtime): (r: CallAgentResult)
    ensures r.summary.Some? ==> IsEntry(r.summary.value)
    ensures WellFormedList(r.nextSteps) && WellFormedList(r.actionItems)
    ensures WellFormedList(r.objections) && WellFormedList(r.tags)
    ensures var vars := ExtractVariables(raw);
      && r.summary == GetStringValue(Coalesce([Field(vars, "summary"), Field(vars, "callSummary"), raw.answer]))
      && r.nextSteps == NormalizeArray(Probe(vars, NextStepKeys), rt)
      && r.actionItems == NormalizeArray(Probe(vars, ActionItemKeys), rt)
      && r.objections == NormalizeArray(Probe(vars, ObjectionKeys), rt)
      && r.tags == NormalizeArray(Probe(vars, TagKeys), rt)
      && r.sentiment == ParseSentimentValue(Probe(vars, SentimentKeys))
      && r.durationMinutes == ParseNumberValue(Probe(vars, DurationKeys))
  {
    var vars := ExtractVariables(raw);
    CallAgentResult(
      summary := GetStringValue(Coalesce([Field(vars, "summary"), Field(vars, "callSummary"), raw.answer])),
      nextSteps := NormalizeArray(Probe(vars, NextStepKeys), rt),
      actionItems := NormalizeArray(Probe(vars, ActionItemKeys), rt),
      objections := NormalizeArray(Probe(vars, ObjectionKeys), rt),
      tags := NormalizeArray(Probe(vars, TagKeys), rt),
      sentiment := ParseSentimentValue(Probe(vars, SentimentKeys)),
      durationMinutes := ParseNumberValue(Probe(vars, DurationKeys)))
  }

  /** The first alternate name whose value is not `null`/`undefined` decides a field, even
      when that value is blank or unreadable: probing does not fall through to later names. */
  lemma FirstPresentKeyDecides(raw: RawResponse, rt: Runtime)
    ensures var vars := ExtractVariables(raw);
      !IsNullish(Field(vars, "summary")) ==>
        CallAgentResultOf(raw, rt).summary == GetStringValue(Field(vars, "summary"))
    ensures var vars := ExtractVariables(raw);
      !IsNullish(Field(vars, "nextSteps")) ==>
        CallAgentResultOf(raw, rt).nextSteps == NormalizeArray(Field(vars, "nextSteps"), rt)
    ensures var vars := ExtractVariables(raw);
      !IsNullish(Field(vars, "objections")) ==>
        CallAgentResultOf(raw, rt).objections == NormalizeArray(Field(vars, "objections"), rt)
    ensures var vars := ExtractVariables(raw);
      !IsNullish(Field(vars, "sentiment")) ==>
        CallAgentResultOf(raw, rt).sentiment == ParseSentimentValue(Field(vars, "sentiment"))
  {
    var vars := ExtractVariables(raw);
    if !IsNullish(Field(vars, "summary")) {
      CoalesceFirst([Field(vars, "summary"), Field(vars, "callSummary"), raw.answer]);
    }
    ProbeFirst(vars, NextStepKeys);
    ProbeFirst(vars, ObjectionKeys);
    ProbeFirst(vars, SentimentKeys);
  }

  /** A first name whose value is present decides the probe. */
  lemma ProbeFirst(vars: map<string, JsVal>, keys: seq<string>)
    requires |keys| > 0
    ensures !IsNullish(Field(vars, keys[0])) ==> Probe(vars, keys) == Field(vars, keys[0])
  {
  }

  /** Two alternate names: the first decides when it holds a value, the second otherwise. */
  lemma ProbePair(vars: map<string, JsVal>, a: string, b: string)
    ensures !IsNullish(Field(vars, a)) ==> Probe(vars, [a, b]) == Field(vars, a)
    ensures IsNullish(Field(vars, a)) ==> Probe(vars, [a, b]) == Field(vars, b)
  {
    assert [a, b][0] == a && [a, b][1] == b;
  }

  /** Tags, sentiment and duration are each read from their first name when it holds a
      value, and from their second name otherwise. */
  lemma CallAgentTwoNameFields(raw: RawResponse, rt: Runtime)
    ensures var vars := ExtractVariables(raw); var r := CallAgentResultOf(raw, rt);
      && r.tags == NormalizeArray(if !IsNullish(Field(vars, "tags")) then Field(vars, "tags") else Field(vars, "labels"), rt)
      && r.sentiment == ParseSentimentValue(
           if !IsNullish(Field(vars, "sentiment")) then Field(vars, "sentiment") else Field(vars, "sentimentAnalysis"))
      && r.durationMinutes == ParseNumberValue(
           if !IsNullish(Field(vars, "durationMinutes")) then Field(vars, "durationMinutes") else Field(vars, "estimatedDurationMinutes"))
  {
    var vars := ExtractVariables(raw);
    ProbePair(vars, "tags", "labels");
    ProbePair(vars, "sentiment", "sentimentAnalysis");
    ProbePair(vars, "durationMinutes", "estimatedDurationMinutes");
  }

  /** A blank `summary` variable leaves the summary unset even when `callSummary` or the
      answer holds text. */
  lemma BlankSummaryDoesNotFallThrough(raw: RawResponse, rt: Runtime)
    requires Field(ExtractVariables(raw), "summary") == JStr("  ")
    ensures CallAgentResultOf(raw, rt).summary == None
  {
    FirstPresentKeyDecides(raw, rt);
    assert IsSpace("  "[0]) && IsSpace("  "[1]);
    assert Trim("  ") == "";
  }

  /** Action items fall back to the `nextSteps` variable, third in line. */
  lemma ActionItemsProbeNextStepsThird(raw: RawResponse, rt: Runtime)
    requires IsNullish(Field(ExtractVariables(raw), "actionItems"))
    requires IsNullish(Field(ExtractVariables(raw), "actionitems"))
    ensures CallAgentResultOf(raw, rt).actionItems == NormalizeArray(Field(ExtractVariables(raw), "nextSteps"), rt)
  {
    var vars := ExtractVariables(raw);
    var v := Probe(vars, ActionItemKeys);
    if !IsNullish(Field(vars, "nextSteps")) {
      assert v == Field(vars, ActionItemKeys[2]);
    } else {
      assert IsNullish(v);
      assert ParseArrayValue(v, rt) == [] && ParseArrayValue(Field(vars, "nextSteps"), rt) == [];
    }
  }

  /** `runCallNotesAgent`: the configuration checks, one exchange through `send`, and the
      mapping of the reply. A failed exchange is reported, never retried. */
  function RunCallNotesAgent(cfg: Config, submission: TranscriptSubmission, rt: Runtime,
                             send: MaistroRequest -> Result<RawResponse>): (r: Result<CallAgentResult>)
    ensures !IsCallNotesAgentConfigured(cfg) ==> r.Err?
    ensures IsCallNotesAgentConfigured(cfg) ==>
      var req := MaistroRequest(NormalizedBaseUrl(cfg).value + "/maistro", cfg.apiKey.value,
        cfg.callAgentName.value, BuildCallParams(submission, rt),
        if submission.metadata.owner != "" then submission.metadata.owner else "AutoNotesUser");
      r == match send(req) case Ok(raw) => Ok(CallAgentResultOf(raw, rt)) case Err(e) => Err(e)
  {
    var userId := if submission.metadata.owner != "" then submission.metadata.owner else "AutoNotesUser";
    match PrepareMaistro(cfg, cfg.callAgentName, BuildCallParams(submission, rt), userId)
    case Err(e) => Err(e)
    case Ok(req) =>
      match send(req)
      case Err(e) => Err(e)
      case Ok(raw) => Ok(CallAgentResultOf(raw, rt))
  }

  // ---------------------------------------------------------------------------------------
  // Financial health agent
  // ---------------------------------------------------------------------------------------

  datatype FinancialHealthInput = FinancialHealthInput(
    companyName: string,
    reportingPeriod: Option<string>,
    balanceSheet: string,
    incomeStatement: string,
    cashflowStatement: string)

  datatype FinancialHealthReport = FinancialHealthReport(
    companyName: string,
    reportingPeriod: Option<string>,
    summary: string,
    status: string,
    score: real,
    strengths: seq<string>,
    risks: seq<string>,
    recommendations: seq<string>,
    liquiditySignal: Option<string>,
    profitabilitySignal: Option<string>,
    runwaySignal: Option<string>,
    rawAnswer: JsVal)

  const FinancialParamNames: seq<string> :=
    ["companyName", "reportingPeriod", "balanceSheet", "incomeStatement", "cashflowStatement"]

  function BuildFinancialParams(input: FinancialHealthInput): (ps: seq<AgentParam>)
    ensures Names(ps) == FinancialParamNames
  {
    [ AgentParam("companyName", input.companyName),
      AgentParam("reportingPeriod", input.reportingPeriod.GetOr("")),
      AgentParam("balanceSheet", input.balanceSheet),
      AgentParam("incomeStatement", input.incomeStatement),
      AgentParam("cashflowStatement", input.cashflowStatement) ]
  }

  /** Each of the five names finds the input field it carries; an absent reporting period is
      sent as empty text. */
  lemma FinancialParamValues(input: FinancialHealthInput)
    ensures var ps := BuildFinancialParams(input);
      && ParamValue(ps, "companyName") == Some(input.companyName)
      && ParamValue(ps, "reportingPeriod") == Some(input.reportingPeriod.GetOr(""))
      && ParamValue(ps, "balanceSheet") == Some(input.balanceSheet)
      && ParamValue(ps, "incomeStatement") == Some(input.incomeStatement)
      && ParamValue(ps, "cashflowStatement") == Some(input.cashflowStatement)
  {
    var ps := BuildFinancialParams(input);
    forall i | 0 <= i < 5
      ensures ParamValue(ps, FinancialParamNames[i]) == Some(ps[i].value)
    {
      assert ps[i].name == FinancialParamNames[i];
      ParamValueFirst(ps, FinancialParamNames[i], i);
    }
    assert FinancialParamNames[0] == "companyName" && FinancialParamNames[1] == "reportingPeriod";
    assert FinancialParamNames[2] == "balanceSheet" && FinancialParamNames[3] == "incomeStatement";
    assert FinancialParamNames[4] == "cashflowStatement";
  }

  /** Reads the financial input back from its parameters, treating an empty reporting period
      as absent; `None` when a parameter is missing. */
  function FinancialInputFromParams(ps: seq<AgentParam>): Option<FinancialHealthInput> {
    match (ParamValue(ps, "companyName"), ParamValue(ps, "reportingPeriod"), ParamValue(ps, "balanceSheet"),
           ParamValue(ps, "incomeStatement"), ParamValue(ps, "cashflowStatement"))
    case (Some(company), Some(period), Some(balance), Some(income), Some(cashflow)) =>
      Some(FinancialHealthInput(company, if period == "" then None else Some(period), balance, income, cashflow))
    case _ => None
  }

  /** The parameters carry the whole input: it can be read back from them, except that an
      empty reporting period cannot be told from an absent one. */
  lemma FinancialParamsRoundTrip(input: FinancialHealthInput)
    requires input.reportingPeriod != Some("")
    ensures FinancialInputFromParams(BuildFinancialParams(input)) == Some(input)
  {
    FinancialParamValues(input);
  }

  /** Position of a health status on the scale from worst to best. */
  function HealthRank(status: string): int {
    if status == "Strong" then 3
    else if status == "Stable" then 2
    else if status == "Watch" then 1
    else 0
  }

  /** `deriveHealthStatus`: a non-empty status text from the agent wins; otherwise the score
      is banded at 0.75, 0.55 and 0.35, and no score gives "Unknown". */
  function DeriveHealthStatus(score: Option<real>, fallback: Option<string>): (status: string)
    ensures Truthy(fallback) ==> status == fallback.value
    ensures !Truthy(fallback) && score.None? ==> status == "Unknown"
    ensures !Truthy(fallback) && score.Some? ==>
      && (status == "Strong" <==> score.value >= 0.75)
      && (status == "Stable" <==> 0.55 <= score.value < 0.75)
      && (status == "Watch" <==> 0.35 <= score.value < 0.55)
      && (status == "At Risk" <==> score.value < 0.35)
      && status in {"Strong", "Stable", "Watch", "At Risk"}
  {
    if Truthy(fallback) then fallback.value
    else if score.None? then "Unknown"
    else if score.value >= 0.75 then "Strong"
    else if score.value >= 0.55 then "Stable"
    else if score.value >= 0.35 then "Watch"
    else "At Risk"
  }

  /** A higher score never earns a worse status. */
  lemma DeriveHealthStatusMonotone(a: real, b: real)
    requires a <= b
    ensures HealthRank(DeriveHealthStatus(Some(a), None)) <= HealthRank(DeriveHealthStatus(Some(b), None))
  {
  }

  const SummaryMissing := "NeuralSeek did not return a summary."

  const HealthScoreKeys: seq<string> := ["healthScore", "overallHealthScore"]
  const HealthStatusKeys: seq<string> := ["healthStatus", "status"]
  const StrengthKeys: seq<string> := ["strengths", "highlights", "positives"]
  const RiskKeys: seq<string> := ["risks", "riskAlerts", "concerns"]
  const RecommendationKeys: seq<string> := ["recommendations", "improvementActions", "nextSteps"]
  const LiquidityKeys: seq<string> := ["liquiditySignal", "liquidity", "cash"]
  const ProfitabilityKeys: seq<string> := ["profitabilitySignal", "profitability", "marginTrend"]
  const RunwayKeys: seq<string> := ["runwaySignal", "cashRunway", "burn"]

  /** The score reading: `healthScore`/`overallHealthScore`, and `score` only when that
      first reading yields nothing. */
  function FinancialScore(vars: map<string, JsVal>): Option<real> {
    match ParseNumberValue(Probe(vars, HealthScoreKeys))
    case Some(s) => Some(s)
    case None => ParseNumberValue(Field(vars, "score"))
  }

  /** The response-to-report mapping of `runFinancialHealthAgent`. The score comes from
      `healthScore`/`overallHealthScore`, and from `score` only when that first reading fails;
      it defaults to 0. */
  function FinancialReportOf(input: FinancialHealthInput, raw: RawResponse, rt: Runtime): (r: FinancialHealthReport)
    ensures r.companyName == input.companyName && r.reportingPeriod == input.reportingPeriod
    ensures r.summary != ""
    ensures var vars := ExtractVariables(raw);
      var score := ParseNumberValue(Probe(vars, HealthScoreKeys));
      var fallbackScore := ParseNumberValue(Field(vars, "score"));
      && (score.Some? ==> r.score == score.value)
      && (score.None? && fallbackScore.Some? ==> r.score == fallbackScore.value)
      && (score.None? && fallbackScore.None? ==> r.score == 0.0)
    ensures var vars := ExtractVariables(raw);
      && r.status == DeriveHealthStatus(FinancialScore(vars), GetStringValue(Probe(vars, HealthStatusKeys)))
      && r.summary == GetStringValue(Coalesce([Field(vars, "healthSummary"), Field(vars, "summary"), raw.answer])).GetOr(SummaryMissing)
      && r.strengths == ParseArrayValue(Probe(vars, StrengthKeys), rt)
      && r.risks == ParseArrayValue(Probe(vars, RiskKeys), rt)
      && r.recommendations == ParseArrayValue(Probe(vars, RecommendationKeys), rt)
      && r.liquiditySignal == GetStringValue(Probe(vars, LiquidityKeys))
      && r.profitabilitySignal == GetStringValue(Probe(vars, ProfitabilityKeys))
      && r.runwaySignal == GetStringValue(Probe(vars, RunwayKeys))
    ensures r.rawAnswer == raw.answer
    ensures forall i :: 0 <= i < |r.strengths| ==> IsEntry(r.strengths[i])
    ensures forall i :: 0 <= i < |r.risks| ==> IsEntry(r.risks[i])
    ensures forall i :: 0 <= i < |r.recommendations| ==> IsEntry(r.recommendations[i])
  {
    var vars := ExtractVariables(raw);
    var score := FinancialScore(vars);
    var summary := GetStringValue(Coalesce([Field(vars, "healthSummary"), Field(vars, "summary"), raw.answer])).GetOr(SummaryMissing);
    FinancialHealthReport(
      companyName := input.companyName,
      reportingPeriod := input.reportingPeriod,
      summary := summary,
      status := DeriveHealthStatus(score, GetStringValue(Probe(vars, HealthStatusKeys))),
      score := score.GetOr(0.0),
      strengths := ParseArrayValue(Probe(vars, StrengthKeys), rt),
      risks := ParseArrayValue(Probe(vars, RiskKeys), rt),
      recommendations := ParseArrayValue(Probe(vars, RecommendationKeys), rt),
      liquiditySignal := GetStringValue(Probe(vars, LiquidityKeys)),
      profitabilitySignal := GetStringValue(Probe(vars, ProfitabilityKeys)),
      runwaySignal := GetStringValue(Probe(vars, RunwayKeys)),
      rawAnswer := raw.answer)
  }

  /** Without a status text from the agent, a numeric `healthScore` sets both the score and
      the band; a non-blank `healthStatus` text is taken as the status whatever the score. */
  lemma FinancialStatusSources(input: FinancialHealthInput, raw: RawResponse, rt: Runtime)
    ensures var vars := ExtractVariables(raw); var r := FinancialReportOf(input, raw, rt);
      IsNullish(Field(vars, "healthStatus")) && IsNullish(Field(vars, "status")) && Field(vars, "healthScore").JNum? ==>
        r.score == Field(vars, "healthScore").n && r.status == DeriveHealthStatus(Some(Field(vars, "healthScore").n), None)
    ensures var vars := ExtractVariables(raw); var r := FinancialReportOf(input, raw, rt);
      Field(vars, "healthStatus").JStr? && Trim(Field(vars, "healthStatus").s) != "" ==>
        r.status == Trim(Field(vars, "healthStatus").s)
  {
    var vars := ExtractVariables(raw);
    ProbePair(vars, "healthStatus", "status");
    ProbePair(vars, "healthScore", "overallHealthScore");
    assert HealthStatusKeys == ["healthStatus", "status"] && HealthScoreKeys == ["healthScore", "overallHealthScore"];
  }

  /** An empty reply yields the literal summary, "Unknown" status and score 0. */
  lemma EmptyReplyReport(input: FinancialHealthInput, rt: Runtime)
    ensures var r := FinancialReportOf(input, RawResponse(JUndef, None, None), rt);
      r.summary == SummaryMissing && r.status == "Unknown" && r.score == 0.0
      && r.strengths == [] && r.risks == [] && r.recommendations == []
  {
    var raw := RawResponse(JUndef, None, None);
    var vars := ExtractVariables(raw);
    assert vars == map[];
    assert Probe(vars, HealthScoreKeys) == JUndef;
    assert Field(vars, "score") == JUndef;
    assert Probe(vars, HealthStatusKeys) == JUndef;
    assert Coalesce([Field(vars, "healthSummary"), Field(vars, "summary"), raw.answer]) == JUndef;
    assert Probe(vars, StrengthKeys) == JUndef;
    assert Probe(vars, RiskKeys) == JUndef;
    assert Probe(vars, RecommendationKeys) == JUndef;
  }

  /** `runFinancialHealthAgent`: the same transport as the call agent, with the company name
      (or "FinanceUser") as user id. */
  function RunFinancialHealthAgent(cfg: Config, input: FinancialHealthInput, rt: Runtime,
                                   send: MaistroRequest -> Result<RawResponse>): (r: Result<FinancialHealthReport>)
    ensures !IsFinancialAgentConfigured(cfg) ==> r.Err?
    ensures IsFinancialAgentConfigured(cfg) ==>
      var req := MaistroRequest(NormalizedBaseUrl(cfg).value + "/maistro", cfg.apiKey.value,
        cfg.finAgentName.value, BuildFinancialParams(input),
        if input.companyName != "" then input.companyName else "FinanceUser");
      r == match send(req) case Ok(raw) => Ok(FinancialReportOf(input, raw, rt)) case Err(e) => Err(e)
    ensures r.Ok? ==> r.value.companyName == input.companyName
  {
    var userId := if input.companyName != "" then input.companyName else "FinanceUser";
    match PrepareMaistro(cfg, cfg.finAgentName, BuildFinancialParams(input), userId)
    case Err(e) => Err(e)
    case Ok(req) =>
      match send(req)
      case Err(e) => Err(e)
      case Ok(raw) => Ok(FinancialReportOf(input, raw, rt))
  }
}

=== FILE: outcomes.dfy ===
/** Optional values and results with an error message: the model's stand-ins for
    TypeScript's `T | undefined` and for a thrown `Error`. */
module Outcomes {

  /** `Some(v)` for a defined value, `None` for `undefined`. */
  datatype Option<+T> = None | Some(value: T) {

    /** The value, or `default` when absent: TypeScript's `x ?? default`. */
    function GetOr(default: T): T {
      match this
      case Some(v) => v
      case None => default
    }
  }

  /** `Ok(v)` for a normal return, `Err(message)` for `throw new Error(message)`. */
  datatype Result<+T> = Ok(value: T) | Err(message: string)
}

=== FILE: text.dfy ===
/** String primitives of the JavaScript runtime the application relies on: white space and
    `trim`, case mapping, substring search, `Array.prototype.join`, and decimal rendering of
    whole numbers. Strings are sequences of UTF-16-agnostic characters. */
module Text {
  import opened Outcomes

  /** The characters matched by `\s` in a regular expression and removed by
      `String.prototype.trim`: the WhiteSpace and LineTerminator productions of
      ECMA-262 (sections 12.2 and 12.3), space separators of category Zs included. */
  predicate IsSpace(c: char) {
    if c <= ' ' then c == ' ' || '\t' <= c <= '\r'
    else if c < '\U{00A0}' then false
    else
      || c == '\U{00A0}' || c == '\U{1680}' || ('\U{2000}' <= c <= '\U{200A}')
      || c == '\U{2028}' || c == '\U{2029}' || c == '\U{202F}' || c == '\U{205F}'
      || c == '\U{3000}' || c == '\U{FEFF}'
  }

  /** No white space at either end. */
  predicate IsTrimmed(s: string) {
    |s| == 0 || (!IsSpace(s[0]) && !IsSpace(s[|s| - 1]))
  }

  /** `Boolean(s)` for a string: it is non-empty. */
  predicate NonEmpty(s: string) {
    s != ""
  }

  /** `String.prototype.trimStart`: drops the leading white space and nothing else. */
  function TrimStart(s: string): (r: string)
    ensures |r| <= |s| && r == s[|s| - |r|..]
    ensures forall i :: 0 <= i < |s| - |r| ==> IsSpace(s[i])
    ensures |r| > 0 ==> !IsSpace(r[0])
  {
    if |s| > 0 && IsSpace(s[0]) then TrimStart(s[1..]) else s
  }

  /** `String.prototype.trimEnd`: drops the trailing white space and nothing else. */
  function TrimEnd(s: string): (r: string)
    ensures |r| <= |s| && r == s[..|r|]
    ensures forall i :: |r| <= i < |s| ==> IsSpace(s[i])
    ensures |r| > 0 ==> !IsSpace(r[|r| - 1])
  {
    if |s| > 0 && IsSpace(s[|s| - 1]) then TrimEnd(s[..|s| - 1]) else s
  }

  /** Number of white-space characters `trim` removes from the front of `s`. */
  function LeadingSpaces(s: string): nat
  {
    |s| - |TrimStart(s)|
  }

  /** `String.prototype.trim`: the slice of `s` left once white space is removed from both
      ends; it is empty exactly when `s` is all white space. */
  function Trim(s: string): (r: string)
    ensures IsTrimmed(r)
    ensures LeadingSpaces(s) + |r| <= |s| && r == s[LeadingSpaces(s)..LeadingSpaces(s) + |r|]
    ensures r == "" <==> forall i :: 0 <= i < |s| ==> IsSpace(s[i])
    ensures forall i :: 0 <= i < LeadingSpaces(s) ==> IsSpace(s[i])
    ensures forall i :: LeadingSpaces(s) + |r| <= i < |s| ==> IsSpace(s[i])
  {
    var t := TrimStart(s);
    var r := TrimEnd(t);
    assert |r| > 0 ==> r[0] == t[0];
    forall i | LeadingSpaces(s) + |r| <= i < |s|
      ensures IsSpace(s[i])
    {
      assert s[i] == t[i - LeadingSpaces(s)];
    }
    r
  }

  /** Text that does not begin with white space keeps its first character when trimmed. */
  lemma TrimKeepsFirst(s: string)
    requires |s| > 0 && !IsSpace(s[0])
    ensures |Trim(s)| > 0 && Trim(s)[0] == s[0]
  {
    assert LeadingSpaces(s) == 0;
  }

  /** Trimming an already trimmed string changes nothing, so `Trim` is idempotent. */
  lemma TrimmedFixpoint(s: string)
    requires IsTrimmed(s)
    ensures Trim(s) == s
  {
  }

  /** Removing the leading white space first changes nothing about the trimmed result. */
  lemma TrimAfterTrimStart(s: string)
    ensures Trim(TrimStart(s)) == Trim(s)
  {
    var t := TrimStart(s);
    assert TrimStart(t) == t;
  }

  lemma TrimIdempotent(s: string)
    ensures Trim(Trim(s)) == Trim(s)
  {
    TrimmedFixpoint(Trim(s));
  }

  /** `String.prototype.toLowerCase` restricted to the characters whose lower-case form is
      ASCII: the letters A-Z and KELVIN SIGN (U+212A), which lowers to `k`. Every other
      character is mapped to itself. */
  function LowerChar(c: char): (d: char)
    ensures 'a' <= d <= 'z' ==> ('a' <= c <= 'z' || 'A' <= c <= 'Z' || (c == '\U{212A}' && d == 'k'))
  {
    if 'A' <= c <= 'Z' then (c as int + 32) as char
    else if c == '\U{212A}' then 'k'
    else c
  }

  function Lower(s: string): (r: string)
    ensures |r| == |s|
    ensures forall i :: 0 <= i < |s| ==> r[i] == LowerChar(s[i])
  {
    seq(|s|, i requires 0 <= i < |s| => LowerChar(s[i]))
  }

  /** Lower-casing a lower-cased string changes nothing. */
  lemma LowerIdempotent(s: string)
    ensures Lower(Lower(s)) == Lower(s)
  {
    assert forall i :: 0 <= i < |s| ==> LowerChar(LowerChar(s[i])) == LowerChar(s[i]);
  }

  /** Case folding of a regular expression with the `i` flag and without `u` (ECMA-262
      Canonicalize): a non-ASCII character never matches an ASCII one, so for ASCII patterns
      only A-Z fold. */
  function FoldChar(c: char): (d: char)
    ensures !('A' <= d <= 'Z')
    ensures ('a' <= c <= 'z' || 'A' <= c <= 'Z') <==> ('a' <= d <= 'z')
  {
    if 'A' <= c <= 'Z' then (c as int + 32) as char else c
  }

  function Fold(s: string): (r: string)
    ensures |r| == |s|
    ensures forall i :: 0 <= i < |s| ==> r[i] == FoldChar(s[i])
  {
    seq(|s|, i requires 0 <= i < |s| => FoldChar(s[i]))
  }

  predicate IsAsciiLetter(c: char) {
    'a' <= c <= 'z' || 'A' <= c <= 'Z'
  }

  /** A non-empty word of lower-case ASCII letters, as the application's keywords are. */
  predicate IsLowerWord(w: string) {
    |w| > 0 && forall i :: 0 <= i < |w| ==> 'a' <= w[i] <= 'z'
  }

  lemma FoldSlice(s: string, a: nat, b: nat)
    requires a <= b <= |s|
    ensures Fold(s[a..b]) == Fold(s)[a..b]
  {
  }

  /** An occurrence lying inside `[a, b)` is an occurrence in the slice. */
  lemma OccursInSlice(f: string, w: string, k: int, a: nat, b: nat)
    requires OccursAt(f, w, k) && a <= k && k + |w| <= b <= |f|
    ensures OccursAt(f[a..b], w, k - a)
  {
    var g := f[a..b];
    var l := g[k - a..k - a + |w|];
    var r := f[k..k + |w|];
    forall j | 0 <= j < |w|
      ensures l[j] == r[j]
    {
      assert l[j] == g[k - a + j] == f[k + j];
    }
    assert l == r;
  }

  /** Where a folded lower-case word occurs, its first and last characters are letters. */
  lemma FoldedWordEndsWithLetters(s: string, w: string, k: int)
    requires IsLowerWord(w) && OccursAt(Fold(s), w, k)
    ensures IsAsciiLetter(s[k]) && IsAsciiLetter(s[k + |w| - 1])
  {
    var f := Fold(s);
    assert f[k] == f[k..k + |w|][0] == w[0];
    assert f[k + |w| - 1] == f[k..k + |w|][|w| - 1] == w[|w| - 1];
  }

  /** Cutting away ends that hold no ASCII letter keeps every occurrence of a lower-case word
      in the folded text. */
  lemma FoldedWordSurvivesCut(s: string, w: string, a: nat, b: nat)
    requires IsLowerWord(w) && Contains(Fold(s), w)
    requires a <= b <= |s|
    requires forall i :: 0 <= i < a ==> !IsAsciiLetter(s[i])
    requires forall i :: b <= i < |s| ==> !IsAsciiLetter(s[i])
    ensures Contains(Fold(s[a..b]), w)
  {
    var f := Fold(s);
    ContainsIff(f, w);
    var k :| OccursAt(f, w, k);
    FoldedWordEndsWithLetters(s, w, k);
    OccursInSlice(f, w, k, a, b);
    FoldSlice(s, a, b);
    ContainsIff(Fold(s[a..b]), w);
  }

  /** `String.prototype.toUpperCase` on ASCII text. */
  function UpperChar(c: char): (d: char)
    ensures 'a' <= c <= 'z' ==> 'A' <= d <= 'Z'
    ensures !('a' <= c <= 'z') ==> d == c
  {
    if 'a' <= c <= 'z' then (c as int - 32) as char else c
  }

  function Upper(s: string): (r: string)
    ensures |r| == |s|
    ensures forall i :: 0 <= i < |s| ==> r[i] == UpperChar(s[i])
  {
    seq(|s|, i requires 0 <= i < |s| => UpperChar(s[i]))
  }

  predicate StartsWith(s: string, prefix: string) {
    |prefix| <= |s| && s[..|prefix|] == prefix
  }

  /** `s.includes(w)`: `w` occurs in `s` at some position. */
  predicate Contains(s: string, w: string)
    decreases |s|
  {
    StartsWith(s, w) || (|s| > 0 && Contains(s[1..], w))
  }

  /** `w` occurs in `s` starting at index `i`. */
  predicate OccursAt(s: string, w: string, i: int) {
    0 <= i <= |s| - |w| && s[i..i + |w|] == w
  }

  /** `Contains` is exactly "occurs at some index". */
  lemma {:induction false} ContainsIff(s: string, w: string)
    ensures Contains(s, w) <==> exists i :: OccursAt(s, w, i)
  {
    if StartsWith(s, w) {
      assert OccursAt(s, w, 0);
    } else if |s| == 0 {
    } else {
      ContainsIff(s[1..], w);
      if Contains(s[1..], w) {
        var i :| OccursAt(s[1..], w, i);
        assert OccursAt(s, w, i + 1);
      }
      if exists i :: OccursAt(s, w, i) {
        var i :| OccursAt(s, w, i);
        assert i != 0;
        assert OccursAt(s[1..], w, i - 1);
      }
    }
  }

  /** A word occurs in text of its own length only as the whole text, and never in
      shorter text. */
  lemma ContainsAtMostAsLong(s: string, w: string)
    requires |w| >= |s|
    ensures Contains(s, w) <==> s == w
  {
    ContainsIff(s, w);
    if s == w {
      assert OccursAt(s, w, 0);
    }
  }

  /** The empty string occurs in every string. */
  lemma ContainsEmpty(s: string)
    ensures Contains(s, "")
  {
    assert StartsWith(s, "");
  }

  /** `Array.prototype.join(sep)` over strings: `[]` gives `""`, one element gives itself. */
  function Join(xs: seq<string>, sep: string): (r: string)
    ensures |xs| == 0 ==> r == ""
    ensures |xs| > 0 ==> StartsWith(r, xs[0])
  {
    if |xs| == 0 then ""
    else if |xs| == 1 then xs[0]
    else
      var tail := Join(xs[1..], sep);
      assert (xs[0] + sep + tail)[..|xs[0]|] == xs[0];
      xs[0] + sep + tail
  }

  /** A join of pieces containing no non-empty piece is empty only when every piece is. */
  lemma {:induction false} JoinNonEmpty(xs: seq<string>, sep: string)
    requires exists i :: 0 <= i < |xs| && xs[i] != ""
    ensures Join(xs, sep) != ""
  {
    if |xs| > 1 && xs[0] == "" {
      var i :| 0 <= i < |xs| && xs[i] != "";
      assert xs[1..][i - 1] != "";
      JoinNonEmpty(xs[1..], sep);
    }
  }

  predicate IsDigit(c: char) {
    '0' <= c <= '9'
  }

  predicate AllDigits(s: string) {
    forall i :: 0 <= i < |s| ==> IsDigit(s[i])
  }

  function DigitValue(c: char): (d: nat)
    requires IsDigit(c)
    ensures d < 10
  {
    c as int - '0' as int
  }

  function DigitChar(d: nat): (c: char)
    requires d < 10
    ensures IsDigit(c) && DigitValue(c) == d
  {
    ('0' as int + d) as char
  }

  /** The value of a decimal digit string read most significant digit first; `""` reads 0. */
  function DigitsValue(ds: string): nat
    requires AllDigits(ds)
  {
    if |ds| == 0 then 0 else DigitsValue(ds[..|ds| - 1]) * 10 + DigitValue(ds[|ds| - 1])
  }

  /** `String(n)` for a whole number `n >= 0`: its shortest decimal form. */
  function NatToString(n: nat): (r: string)
    ensures |r| > 0 && AllDigits(r)
    ensures r[0] == '0' ==> n == 0 && |r| == 1
  {
    if n < 10 then [DigitChar(n)] else NatToString(n / 10) + [DigitChar(n % 10)]
  }

  /** `String(i)` for a whole number of either sign. */
  function IntToString(i: int): (r: string)
    ensures i >= 0 ==> r == NatToString(i)
    ensures i < 0 ==> r == "-" + NatToString(-i)
  {
    if i < 0 then "-" + NatToString(-i) else NatToString(i)
  }

  /** Reads a non-empty string of decimal digits; `None` for anything else. */
  function ParseNat(s: string): (r: Option<nat>)
    ensures r.Some? <==> |s| > 0 && AllDigits(s)
  {
    if |s| > 0 && AllDigits(s) then Some(DigitsValue(s)) else None
  }

  /** Reading back the decimal form of `n` gives `n`. */
  lemma {:induction false} NatToStringValue(n: nat)
    ensures DigitsValue(NatToString(n)) == n
  {
    if n >= 10 {
      var r := NatToString(n);
      assert r[..|r| - 1] == NatToString(n / 10);
      NatToStringValue(n / 10);
    }
  }

  lemma NatToStringRoundTrip(n: nat)
    ensures ParseNat(NatToString(n)) == Some(n)
  {
    NatToStringValue(n);
  }

  /** Distinct numbers render differently. */
  lemma NatToStringInjective(m: nat, n: nat)
    requires NatToString(m) == NatToString(n)
    ensures m == n
  {
    NatToStringValue(m);
    NatToStringValue(n);
  }
}

=== FILE: transcript.dfy ===
/** The heuristic call-notes extractor, the merge of the agent's result over it, and the
    routing between the two (src/utils/transcript.ts). Identifiers and timestamps, which the
    application draws from the clock and a random source, are parameters. */
module Transcript {
  import opened Outcomes
  import opened Text
  import opened Lists
  import opened CallTypes
  import opened JsValues
  import opened NeuralSeek

  // ---------------------------------------------------------------------------------------
  // Sentences
  // ---------------------------------------------------------------------------------------

  predicate IsStop(c: char) {
    c == '.' || c == '!' || c == '?'
  }

  /** No stop character in `p` is directly followed by white space, so `p` holds no place
      where the text is split. */
  predicate Unbroken(p: string) {
    forall i :: 0 <= i < |p| - 1 ==> !BreakAt(p, i)
  }

  /** The text is split between `p[i]` and `p[i + 1]`. */
  predicate BreakAt(p: string, i: nat)
    requires i + 1 < |p|
  {
    IsStop(p[i]) && IsSpace(p[i + 1])
  }

  /** `text.split(/(?<=[.!?])\s+/)`: the text cut at every maximal run of white space that
      follows a stop character. `afterStop` records whether the character just before `s`
      was a stop, which is what the look-behind tests. */
  function SentencePieces(s: string, afterStop: bool): (pieces: seq<string>)
    ensures |pieces| > 0
    ensures forall i :: 0 <= i < |pieces| ==> Unbroken(pieces[i])
    ensures afterStop && |pieces[0]| > 0 ==> !IsSpace(pieces[0][0])
    decreases |s|
  {
    if |s| == 0 then [""]
    else if afterStop && IsSpace(s[0]) then
      var run := LeadingSpaces(s);
      TrimStartDropsRun(s);
      [""] + SentencePieces(s[run..], false)
    else
      var rest := SentencePieces(s[1..], IsStop(s[0]));
      UnbrokenCons(s[0], rest[0]);
      [[s[0]] + rest[0]] + rest[1..]
  }

  /** A piece closed by the stop before a cut. */
  predicate ClosedByStop(p: string) {
    |p| > 0 && IsStop(p[|p| - 1])
  }

  /** A piece that does not start inside a run of white space. */
  predicate OpensPastRun(p: string) {
    |p| == 0 || !IsSpace(p[0])
  }

  /** `pieces` are `s` cut in the right places: the first piece opens the text, every piece
      but the last ends with the stop that closed it (only an empty first piece, for text
      that opens with the run, does not), and every piece but the first starts past the
      run. */
  predicate WellCut(s: string, afterStop: bool, pieces: seq<string>) {
    && |pieces| > 0 && StartsWith(s, pieces[0])
    && (forall i :: 0 <= i < |pieces| - 1 ==> ClosedByStop(pieces[i]) || (i == 0 && |pieces[0]| == 0 && afterStop))
    && (forall i :: 1 <= i < |pieces| ==> OpensPastRun(pieces[i]))
  }

  lemma WellCutAfterRun(s: string, run: nat, tail: seq<string>)
    requires 0 < run <= |s| && (run < |s| ==> !IsSpace(s[run]))
    requires WellCut(s[run..], false, tail)
    ensures WellCut(s, true, [""] + tail)
  {
    var pieces := [""] + tail;
    assert forall i :: 1 <= i < |pieces| ==> pieces[i] == tail[i - 1];
    assert |tail[0]| > 0 ==> tail[0][0] == s[run];
  }

  lemma WellCutCons(s: string, afterStop: bool, rest: seq<string>)
    requires |s| > 0 && WellCut(s[1..], IsStop(s[0]), rest)
    ensures WellCut(s, afterStop, [[s[0]] + rest[0]] + rest[1..])
  {
    var head := [s[0]] + rest[0];
    var pieces := [head] + rest[1..];
    StartsWithCons(s, rest[0]);
    if |rest[0]| > 0 {
      assert head[|head| - 1] == rest[0][|rest[0]| - 1];
    }
    assert |rest| > 1 ==> ClosedByStop(head);
    assert forall i :: 1 <= i < |pieces| ==> pieces[i] == rest[i];
  }

  lemma {:induction false} SentencePiecesShape(s: string, afterStop: bool)
    ensures WellCut(s, afterStop, SentencePieces(s, afterStop))
    decreases |s|
  {
    if |s| == 0 {
    } else if afterStop && IsSpace(s[0]) {
      var run := LeadingSpaces(s);
      TrimStartDropsRun(s);
      SentencePiecesShape(s[run..], false);
      WellCutAfterRun(s, run, SentencePieces(s[run..], false));
    } else {
      SentencePiecesShape(s[1..], IsStop(s[0]));
      WellCutCons(s, afterStop, SentencePieces(s[1..], IsStop(s[0])));
    }
  }

  lemma StartsWithCons(s: string, p: string)
    requires |s| > 0 && StartsWith(s[1..], p)
    ensures StartsWith(s, [s[0]] + p)
  {
    assert s[..|p| + 1] == [s[0]] + s[1..][..|p|];
  }

  /** A character put in front of an unbroken piece keeps it unbroken unless it is a stop
      and the piece opens with white space. */
  lemma UnbrokenCons(c: char, p: string)
    requires Unbroken(p)
    requires IsStop(c) && |p| > 0 ==> !IsSpace(p[0])
    ensures Unbroken([c] + p)
  {
    var h := [c] + p;
    forall i | 0 <= i < |h| - 1
      ensures !BreakAt(h, i)
    {
      if i > 0 {
        assert h[i] == p[i - 1] && h[i + 1] == p[i];
        assert !BreakAt(p, i - 1);
      }
    }
  }

  /** The white space `trimStart` removes is a maximal run, and more than nothing when `s`
      opens with white space. */
  lemma TrimStartDropsRun(s: string)
    requires |s| > 0 && IsSpace(s[0])
    ensures 0 < LeadingSpaces(s) <= |s|
    ensures LeadingSpaces(s) < |s| ==> !IsSpace(s[LeadingSpaces(s)])
  {
    var t := TrimStart(s);
    assert t == s[LeadingSpaces(s)..];
  }

  /** Every piece trimmed. */
  function TrimPieces(pieces: seq<string>): (r: seq<string>)
    ensures |r| == |pieces|
    ensures forall i :: 0 <= i < |r| ==> r[i] == Trim(pieces[i])
  {
    if |pieces| == 0 then []
    else
      var rest := TrimPieces(pieces[1..]);
      var r := [Trim(pieces[0])] + rest;
      forall i | 1 <= i < |pieces| ensures r[i] == Trim(pieces[i]) {
        assert r[i] == rest[i - 1] && pieces[1..][i - 1] == pieces[i];
      }
      r
  }

  /** Trimming keeps unbroken pieces unbroken. */
  lemma TrimPiecesUnbroken(pieces: seq<string>)
    requires forall i :: 0 <= i < |pieces| ==> Unbroken(pieces[i])
    ensures forall i :: 0 <= i < |pieces| ==> Unbroken(TrimPieces(pieces)[i])
  {
    forall i | 0 <= i < |pieces|
      ensures Unbroken(TrimPieces(pieces)[i])
    {
      TrimUnbroken(pieces[i]);
    }
  }

  /** Trimming keeps a piece unbroken: the trimmed text is a slice of it. */
  lemma TrimUnbroken(p: string)
    requires Unbroken(p)
    ensures Unbroken(Trim(p))
  {
    var r := Trim(p);
    var a := LeadingSpaces(p);
    assert a + |r| <= |p| && r == p[a..a + |r|];
    UnbrokenSlice(p, a, a + |r|);
  }

  /** `splitSentences`: the pieces, trimmed, with the empty ones dropped. */
  function SplitSentences(text: string): (r: seq<string>)
    ensures forall i :: 0 <= i < |r| ==> r[i] != "" && IsTrimmed(r[i]) && Unbroken(r[i])
  {
    var pieces := SentencePieces(text, false);
    TrimPiecesUnbroken(pieces);
    Filter(NonEmpty, TrimPieces(pieces))
  }

  /** A slice of an unbroken string is unbroken. */
  lemma UnbrokenSlice(p: string, a: nat, b: nat)
    requires Unbroken(p) && a <= b <= |p|
    ensures Unbroken(p[a..b])
  {
    var q := p[a..b];
    forall i | 0 <= i < |q| - 1
      ensures !BreakAt(q, i)
    {
      assert q[i] == p[a + i] && q[i + 1] == p[a + i + 1];
      assert !BreakAt(p, a + i);
    }
  }

  /** Text without a stop followed by white space is one sentence: itself, trimmed. */
  lemma {:induction false} SplitSentencesUnbroken(text: string)
    requires Unbroken(text) && Trim(text) != ""
    ensures SplitSentences(text) == [Trim(text)]
  {
    SentencePiecesUnbroken(text, false);
  }

  lemma {:induction false} SentencePiecesUnbroken(s: string, afterStop: bool)
    requires Unbroken(s)
    requires afterStop && |s| > 0 ==> !IsSpace(s[0])
    ensures SentencePieces(s, afterStop) == [s]
    decreases |s|
  {
    if |s| > 0 {
      UnbrokenSlice(s, 1, |s|);
      assert s[1..|s|] == s[1..];
      if |s| > 1 {
        assert !BreakAt(s, 0) && s[1..][0] == s[1];
      }
      SentencePiecesUnbroken(s[1..], IsStop(s[0]));
      assert [s[0]] + s[1..] == s;
    }
  }

  /** A run of white space that ends where non-space text (or the text) begins is exactly
      what `trimStart` removes. */
  lemma {:induction false} LeadingSpacesOfRun(w: string, b: string)
    requires forall i :: 0 <= i < |w| ==> IsSpace(w[i])
    requires |b| == 0 || !IsSpace(b[0])
    ensures LeadingSpaces(w + b) == |w|
    decreases |w|
  {
    if |w| == 0 {
      assert w + b == b;
    } else {
      assert (w + b)[1..] == w[1..] + b;
      LeadingSpacesOfRun(w[1..], b);
    }
  }

  /** Text that closes a sentence with a stop, then white space, is cut there: the first
      piece is that sentence and the rest is split on its own. */
  lemma {:induction false} SentencePiecesCut(a: string, w: string, b: string, afterStop: bool)
    requires |a| > 0 && Unbroken(a) && IsStop(a[|a| - 1])
    requires afterStop ==> !IsSpace(a[0])
    requires |w| > 0 && forall i :: 0 <= i < |w| ==> IsSpace(w[i])
    requires |b| == 0 || !IsSpace(b[0])
    ensures SentencePieces(a + w + b, afterStop) == [a] + SentencePieces(b, false)
    decreases |a|
  {
    var s := a + w + b;
    assert s[0] == a[0];
    if |a| == 1 {
      assert s[1..] == w + b;
      LeadingSpacesOfRun(w, b);
      assert (w + b)[|w|..] == b;
      assert [a[0]] + "" == a;
    } else {
      assert s[1..] == a[1..] + w + b;
      UnbrokenSlice(a, 1, |a|);
      assert a[1..|a|] == a[1..];
      assert !BreakAt(a, 0) && a[1..][0] == a[1];
      SentencePiecesCut(a[1..], w, b, IsStop(a[0]));
      assert [a[0]] + a[1..] == a;
    }
  }

  /** A sentence closed by a stop and white space is the first sentence of the text, and the
      sentences after it are those of the remainder. */
  lemma SplitSentencesCut(a: string, w: string, b: string)
    requires |a| > 0 && Unbroken(a) && IsStop(a[|a| - 1])
    requires |w| > 0 && forall i :: 0 <= i < |w| ==> IsSpace(w[i])
    requires |b| == 0 || !IsSpace(b[0])
    ensures SplitSentences(a + w + b) == [Trim(a)] + SplitSentences(b)
  {
    SentencePiecesCut(a, w, b, false);
    var tail := SentencePieces(b, false);
    var trimmedTail := TrimPieces(tail);
    TrimPiecesCons(a, tail);
    assert NonEmpty(Trim(a)) by {
      assert !IsSpace(a[|a| - 1]);
    }
    FilterAppend(NonEmpty, [Trim(a)], trimmedTail);
    assert Filter(NonEmpty, [Trim(a)]) == [Trim(a)];
  }

  lemma TrimPiecesCons(a: string, tail: seq<string>)
    requires Unbroken(a) && forall i :: 0 <= i < |tail| ==> Unbroken(tail[i])
    ensures TrimPieces([a] + tail) == [Trim(a)] + TrimPieces(tail)
  {
    var xs := [a] + tail;
    assert xs[0] == a && xs[1..] == tail;
  }

  // ---------------------------------------------------------------------------------------
  // Summary
  // ---------------------------------------------------------------------------------------

  const SummaryPlaceholder := "Transcript processed successfully. No summary available."

  function Min(a: int, b: int): int {
    if a <= b then a else b
  }

  /** The first three sentences joined by a space, or the placeholder when that is empty
      (`sentences.slice(0, 3).join(' ') || placeholder`). The summary is never empty, and it
      opens with the first sentence when there is one. */
  function Summary(sentences: seq<string>): (r: string)
    ensures r != ""
    ensures |sentences| == 0 ==> r == SummaryPlaceholder
    ensures |sentences| > 0 && sentences[0] != "" ==>
      r == Join(sentences[..Min(3, |sentences|)], " ") && StartsWith(r, sentences[0])
  {
    var joined := Join(sentences[..Min(3, |sentences|)], " ");
    assert |sentences| > 0 ==> sentences[..Min(3, |sentences|)][0] == sentences[0];
    if joined != "" then joined else SummaryPlaceholder
  }

  // ---------------------------------------------------------------------------------------
  // Sentiment
  // ---------------------------------------------------------------------------------------

  const PositiveWords: seq<string> := ["win", "great", "excited", "happy", "value", "success"]
  const NegativeWords: seq<string> := ["concern", "risk", "delay", "blocker", "issue", "problem"]

  /** How many of `words` occur in `text`: the `reduce` of `detectSentiment`, which adds one
      per word present, however often it occurs. */
  function CountPresent(words: seq<string>, text: string): (n: nat)
    ensures n <= |words|
  {
    if |words| == 0 then 0
    else (if Contains(text, words[0]) then 1 else 0) + CountPresent(words[1..], text)
  }

  /** The distinct words of `words` that occur in `text`. */
  ghost function PresentWords(words: seq<string>, text: string): set<string> {
    set w | w in words && Contains(text, w)
  }

  /** The words present in a list are those of its tail, plus its head when that occurs. */
  lemma PresentWordsCons(words: seq<string>, text: string)
    requires |words| > 0
    ensures PresentWords(words, text) ==
      PresentWords(words[1..], text) + (if Contains(text, words[0]) then {words[0]} else {})
  {
    assert words == [words[0]] + words[1..];
  }

  /** Over a list without repeats, the count is the number of distinct words present. */
  lemma {:induction false} CountPresentIsDistinctCount(words: seq<string>, text: string)
    requires NoDup(words)
    ensures CountPresent(words, text) == |PresentWords(words, text)|
  {
    if |words| > 0 {
      NoDupTail(words);
      CountPresentIsDistinctCount(words[1..], text);
      PresentWordsCons(words, text);
    }
  }

  /** Positive words present minus negative words present, in the lower-cased text. */
  function NetScore(text: string): (n: int)
    ensures -|NegativeWords| <= n <= |PositiveWords|
  {
    CountPresent(PositiveWords, Lower(text)) - CountPresent(NegativeWords, Lower(text))
  }

  /** The keyword lists have no repeats, so the net score counts distinct words. */
  lemma NetScoreCountsDistinctWords(text: string)
    ensures NetScore(text) ==
      |PresentWords(PositiveWords, Lower(text))| - |PresentWords(NegativeWords, Lower(text))|
  {
    CountPresentIsDistinctCount(PositiveWords, Lower(text));
    CountPresentIsDistinctCount(NegativeWords, Lower(text));
  }

  /** `detectSentiment`: one of three fixed readings, chosen by the net score. */
  function DetectSentiment(text: string): (r: SentimentReading)
    ensures r == SentimentReading(Positive, 0.8) || r == SentimentReading(Negative, -0.4)
      || r == SentimentReading(Neutral, 0.2)
    ensures r.sentiment == Positive <==> NetScore(text) >= 2
    ensures r.sentiment == Negative <==> NetScore(text) <= -1
  {
    var score := NetScore(text);
    if score >= 2 then SentimentReading(Positive, 0.8)
    else if score <= -1 then SentimentReading(Negative, -0.4)
    else SentimentReading(Neutral, 0.2)
  }

  /** A reading depends on the text only through which keywords are present. */
  lemma DetectSentimentBySets(t1: string, t2: string)
    requires PresentWords(PositiveWords, Lower(t1)) == PresentWords(PositiveWords, Lower(t2))
    requires PresentWords(NegativeWords, Lower(t1)) == PresentWords(NegativeWords, Lower(t2))
    ensures DetectSentiment(t1) == DetectSentiment(t2)
  {
    NetScoreCountsDistinctWords(t1);
    NetScoreCountsDistinctWords(t2);
  }

  // ---------------------------------------------------------------------------------------
  // Next steps
  // ---------------------------------------------------------------------------------------

  const DefaultNextSteps: seq<string> :=
    ["Send meeting recap with next steps", "Confirm stakeholders for follow-up", "Schedule next checkpoint"]

  /** `/need|action|follow|next/i.test(sentence)` */
  predicate MentionsFollowUp(sentence: string) {
    var f := Fold(sentence);
    Contains(f, "need") || Contains(f, "action") || Contains(f, "follow") || Contains(f, "next")
  }

  /** `sentence.replace(/(^-?\s*)/g, '').trim()`: one leading dash, then the white space
      after it, then the white space at both ends. */
  function CleanStep(sentence: string): (r: string)
    ensures IsTrimmed(r)
    ensures |sentence| > 0 && sentence[0] == '-' ==> r == Trim(sentence[1..])
    ensures |sentence| == 0 || sentence[0] != '-' ==> r == Trim(sentence)
  {
    var undashed := if |sentence| > 0 && sentence[0] == '-' then sentence[1..] else sentence;
    TrimAfterTrimStart(undashed);
    Trim(TrimStart(undashed))
  }

  /** Only a dash and white space are removed, so a keyword the sentence mentions survives. */
  lemma CleanStepKeepsWord(sentence: string, w: string)
    requires IsLowerWord(w) && Contains(Fold(sentence), w)
    ensures Contains(Fold(CleanStep(sentence)), w)
  {
    var undashed := if |sentence| > 0 && sentence[0] == '-' then sentence[1..] else sentence;
    UndashKeepsWord(sentence, w);
    TrimStartKeepsWord(undashed, w);
    TrimKeepsWord(TrimStart(undashed), w);
  }

  lemma UndashKeepsWord(sentence: string, w: string)
    requires IsLowerWord(w) && Contains(Fold(sentence), w)
    ensures Contains(Fold(if |sentence| > 0 && sentence[0] == '-' then sentence[1..] else sentence), w)
  {
    if |sentence| > 0 && sentence[0] == '-' {
      assert !IsAsciiLetter(sentence[0]);
      FoldedWordSurvivesCut(sentence, w, 1, |sentence|);
      assert sentence[1..|sentence|] == sentence[1..];
    }
  }

  /** White space holds no letter. */
  lemma SpaceIsNoLetter(c: char)
    requires IsSpace(c)
    ensures !IsAsciiLetter(c)
  {
  }

  lemma TrimStartKeepsWord(s: string, w: string)
    requires IsLowerWord(w) && Contains(Fold(s), w)
    ensures Contains(Fold(TrimStart(s)), w)
  {
    var l := |s| - |TrimStart(s)|;
    forall i | 0 <= i < l ensures !IsAsciiLetter(s[i]) {
      SpaceIsNoLetter(s[i]);
    }
    FoldedWordSurvivesCut(s, w, l, |s|);
    assert s[l..|s|] == TrimStart(s);
  }

  lemma TrimEndKeepsWord(s: string, w: string)
    requires IsLowerWord(w) && Contains(Fold(s), w)
    ensures Contains(Fold(TrimEnd(s)), w)
  {
    var r := TrimEnd(s);
    forall i | |r| <= i < |s| ensures !IsAsciiLetter(s[i]) {
      SpaceIsNoLetter(s[i]);
    }
    FoldedWordSurvivesCut(s, w, 0, |r|);
    assert s[0..|r|] == r;
  }

  lemma TrimKeepsWord(s: string, w: string)
    requires IsLowerWord(w) && Contains(Fold(s), w)
    ensures Contains(Fold(Trim(s)), w)
  {
    TrimStartKeepsWord(s, w);
    TrimEndKeepsWord(TrimStart(s), w);
  }

  /** A cleaned step still mentions a follow-up when its sentence did. */
  lemma CleanStepMentionsFollowUp(sentence: string)
    requires MentionsFollowUp(sentence)
    ensures MentionsFollowUp(CleanStep(sentence))
  {
    var f := Fold(sentence);
    if Contains(f, "need") {
      CleanStepKeepsWord(sentence, "need");
    } else if Contains(f, "action") {
      CleanStepKeepsWord(sentence, "action");
    } else if Contains(f, "follow") {
      CleanStepKeepsWord(sentence, "follow");
    } else {
      CleanStepKeepsWord(sentence, "next");
    }
  }

  function CleanSteps(sentences: seq<string>): (r: seq<string>)
    ensures |r| == |sentences|
    ensures forall i :: 0 <= i < |r| ==> r[i] == CleanStep(sentences[i])
  {
    seq(|sentences|, i requires 0 <= i < |sentences| => CleanStep(sentences[i]))
  }

  /** `deriveNextSteps`: the first four sentences that mention a follow-up, cleaned, when there
      are at least two of them; the three default steps otherwise. */
  function DeriveNextSteps(sentences: seq<string>): (r: seq<string>)
    ensures 2 <= |r| <= 4
    ensures var matches := Filter(MentionsFollowUp, sentences);
      && (|matches| < 2 ==> r == DefaultNextSteps)
      && (|matches| >= 2 ==>
            && |r| == Min(4, |matches|)
            && forall i :: 0 <= i < |r| ==> r[i] == CleanStep(matches[i]))
  {
    var steps := CleanSteps(Filter(MentionsFollowUp, sentences));
    if |steps| >= 2 then steps[..Min(4, |steps|)] else DefaultNextSteps
  }

  /** Every derived step, unless the defaults are used, still mentions a follow-up. */
  lemma NextStepsMentionFollowUp(sentences: seq<string>)
    requires |Filter(MentionsFollowUp, sentences)| >= 2
    ensures forall i :: 0 <= i < |DeriveNextSteps(sentences)| ==> MentionsFollowUp(DeriveNextSteps(sentences)[i])
  {
    var matches := Filter(MentionsFollowUp, sentences);
    var r := DeriveNextSteps(sentences);
    forall i | 0 <= i < |r| ensures MentionsFollowUp(r[i]) {
      CleanStepMentionsFollowUp(matches[i]);
    }
  }

  // ---------------------------------------------------------------------------------------
  // Objections
  // ---------------------------------------------------------------------------------------

  const ObjectionTriggers: seq<string> := ["pricing", "timeline", "security", "support", "integration"]
  const NoObjections := "No critical objections captured."
  const ObjectionOpening := "Client raised a concern regarding "
  const ObjectionClosing := " requirements"

  function ObjectionSentence(keyword: string): string {
    ObjectionOpening + Upper(keyword) + ObjectionClosing
  }

  /** Distinct keywords give distinct sentences, so a sentence names its keyword. */
  lemma ObjectionSentenceInjective(a: string, b: string)
    requires IsLowerWord(a) && IsLowerWord(b)
    requires ObjectionSentence(a) == ObjectionSentence(b)
    ensures a == b
  {
    var n := |ObjectionOpening|;
    assert |a| == |b|;
    assert Upper(a) == ObjectionSentence(a)[n..n + |a|];
    assert Upper(b) == ObjectionSentence(b)[n..n + |b|];
    forall i | 0 <= i < |a| ensures a[i] == b[i] {
      assert UpperChar(a[i]) == UpperChar(b[i]);
    }
  }

  /** The placeholder is not a sentence about a keyword. */
  lemma NoObjectionsIsNotASentence(k: string)
    ensures ObjectionSentence(k) != NoObjections
  {
    assert ObjectionSentence(k)[0] == 'C';
    assert NoObjections[0] == 'N';
  }

  function ObjectionSentences(keywords: seq<string>): (r: seq<string>)
    ensures |r| == |keywords|
    ensures forall i :: 0 <= i < |r| ==> r[i] == ObjectionSentence(keywords[i])
  {
    seq(|keywords|, i requires 0 <= i < |keywords| => ObjectionSentence(keywords[i]))
  }

  /** `deriveObjections`: one sentence per trigger present in the lower-cased text, in the
      order of the trigger list, or the single placeholder when none is. */
  function DeriveObjections(text: string): (r: seq<string>)
    ensures 1 <= |r| <= |ObjectionTriggers|
    ensures var present := Filter((k: string) => Contains(Lower(text), k), ObjectionTriggers);
      && (|present| == 0 ==> r == [NoObjections])
      && (|present| > 0 ==> r == ObjectionSentences(present))
  {
    var lower := Lower(text);
    var present := Filter((k: string) => Contains(lower, k), ObjectionTriggers);
    if |present| > 0 then ObjectionSentences(present) else [NoObjections]
  }

  lemma TriggersAreLowerWords()
    ensures forall i :: 0 <= i < |ObjectionTriggers| ==> IsLowerWord(ObjectionTriggers[i])
  {
  }

  /** A list of keyword sentences names exactly the keywords of the list. */
  lemma ObjectionSentencesMembership(ks: seq<string>, k: string)
    requires forall i :: 0 <= i < |ks| ==> IsLowerWord(ks[i])
    requires IsLowerWord(k)
    ensures ObjectionSentence(k) in ObjectionSentences(ks) <==> k in ks
  {
    var r := ObjectionSentences(ks);
    if ObjectionSentence(k) in r {
      var i :| 0 <= i < |r| && r[i] == ObjectionSentence(k);
      ObjectionSentenceInjective(ks[i], k);
    }
    if k in ks {
      var i :| 0 <= i < |ks| && ks[i] == k;
      assert r[i] == ObjectionSentence(k);
    }
  }

  /** The objections name exactly the triggers present in the text, and fall back to the
      placeholder exactly when there are none. */
  lemma DeriveObjectionsNamesPresentTriggers(text: string)
    ensures forall k :: k in ObjectionTriggers ==>
      (ObjectionSentence(k) in DeriveObjections(text) <==> Contains(Lower(text), k))
    ensures DeriveObjections(text) == [NoObjections] <==>
      forall k :: k in ObjectionTriggers ==> !Contains(Lower(text), k)
  {
    var lower := Lower(text);
    var present := Filter((k: string) => Contains(lower, k), ObjectionTriggers);
    var r := DeriveObjections(text);
    TriggersAreLowerWords();
    forall k | k in ObjectionTriggers
      ensures ObjectionSentence(k) in r <==> Contains(lower, k)
    {
      NoObjectionsIsNotASentence(k);
      assert IsLowerWord(k);
      ObjectionSentencesMembership(present, k);
    }
    if |present| > 0 {
      NoObjectionsIsNotASentence(present[0]);
      assert r[0] != NoObjections;
    }
  }

  // ---------------------------------------------------------------------------------------
  // Tags
  // ---------------------------------------------------------------------------------------

  /** `/renewal|renew/i` */
  predicate MentionsRenewal(text: string) {
    Contains(Fold(text), "renewal") || Contains(Fold(text), "renew")
  }

  /** `/onboard|launch/i` */
  predicate MentionsOnboarding(text: string) {
    Contains(Fold(text), "onboard") || Contains(Fold(text), "launch")
  }

  /** `/risk|escalation/i` */
  predicate MentionsEscalation(text: string) {
    Contains(Fold(text), "risk") || Contains(Fold(text), "escalation")
  }

  /** `[record.account, record.owner].filter(Boolean)` */
  function PeopleTags(metadata: TranscriptMetadata): (r: seq<string>)
    ensures forall t :: t in r <==> t != "" && (t == metadata.account || t == metadata.owner)
  {
    Filter(NonEmpty, [metadata.account, metadata.owner])
  }

  /** The tags before duplicates are removed: account and owner, then one tag per theme. */
  function CandidateTags(metadata: TranscriptMetadata, text: string): seq<string> {
    PeopleTags(metadata)
      + (if MentionsRenewal(text) then ["Renewal"] else [])
      + (if MentionsOnboarding(text) then ["Onboarding"] else [])
      + (if MentionsEscalation(text) then ["Escalation"] else [])
  }

  /** `deriveTags`: the non-empty account and owner, then Renewal, Onboarding and Escalation for
      the themes the text mentions, each tag once, in order of first appearance. The list is
      empty when account and owner are empty and no theme is mentioned. */
  function DeriveTags(metadata: TranscriptMetadata, text: string): (r: seq<string>)
    ensures NoDup(r)
    ensures forall t :: t in r <==>
      || (t != "" && (t == metadata.account || t == metadata.owner))
      || (t == "Renewal" && MentionsRenewal(text))
      || (t == "Onboarding" && MentionsOnboarding(text))
      || (t == "Escalation" && MentionsEscalation(text))
    ensures Dedupe(PeopleTags(metadata)) <= r
    ensures forall t :: t in r <==> t in CandidateTags(metadata, text)
    ensures forall i, j :: 0 <= i < j < |r| ==>
      FirstIndex(CandidateTags(metadata, text), r[i]) < FirstIndex(CandidateTags(metadata, text), r[j])
  {
    var people := PeopleTags(metadata);
    var candidates := CandidateTags(metadata, text);
    var themes := candidates[|people|..];
    assert candidates == people + themes;
    DedupePrefix(people, themes);
    CandidateTagsMembership(metadata, text);
    DedupeFirstOccurrenceOrder(candidates);
    Dedupe(candidates)
  }

  lemma CandidateTagsMembership(metadata: TranscriptMetadata, text: string)
    ensures forall t :: t in CandidateTags(metadata, text) <==>
      || (t != "" && (t == metadata.account || t == metadata.owner))
      || (t == "Renewal" && MentionsRenewal(text))
      || (t == "Onboarding" && MentionsOnboarding(text))
      || (t == "Escalation" && MentionsEscalation(text))
  {
    var renewal: seq<string> := if MentionsRenewal(text) then ["Renewal"] else [];
    var onboarding: seq<string> := if MentionsOnboarding(text) then ["Onboarding"] else [];
    var escalation: seq<string> := if MentionsEscalation(text) then ["Escalation"] else [];
    assert CandidateTags(metadata, text) == PeopleTags(metadata) + renewal + onboarding + escalation;
  }

  /** A theme tag is present exactly when the text mentions the theme, or when the account or
      the owner is itself named after the theme. */
  lemma RenewalTagIff(metadata: TranscriptMetadata, text: string)
    ensures "Renewal" in DeriveTags(metadata, text) <==>
      MentionsRenewal(text) || metadata.account == "Renewal" || metadata.owner == "Renewal"
  {
  }

  /** With no account, no owner and no theme the tags are empty: the list is not guaranteed
      to hold anything. */
  lemma DeriveTagsCanBeEmpty(metadata: TranscriptMetadata, text: string)
    requires metadata.account == "" && metadata.owner == ""
    requires !MentionsRenewal(text) && !MentionsOnboarding(text) && !MentionsEscalation(text)
    ensures DeriveTags(metadata, text) == []
  {
    var r := DeriveTags(metadata, text);
    assert forall i :: 0 <= i < |r| ==> r[i] in r;
  }

  /** Distinct non-empty account and owner open the list, in that order. */
  lemma DeriveTagsOpensWithPeople(metadata: TranscriptMetadata, text: string)
    requires metadata.account != "" && metadata.owner != "" && metadata.account != metadata.owner
    ensures |DeriveTags(metadata, text)| >= 2
    ensures DeriveTags(metadata, text)[..2] == [metadata.account, metadata.owner]
  {
    var both := [metadata.account, metadata.owner];
    PeopleTagsOfBoth(metadata);
    DedupeOfNoDup(both);
    var r := DeriveTags(metadata, text);
    assert both <= r;
  }

  /** Non-empty account and owner are both people tags, account first. */
  lemma PeopleTagsOfBoth(metadata: TranscriptMetadata)
    requires metadata.account != "" && metadata.owner != ""
    ensures PeopleTags(metadata) == [metadata.account, metadata.owner]
  {
    var both := [metadata.account, metadata.owner];
    assert both[1..] == [metadata.owner] && both[1..][1..] == [];
    assert Filter(NonEmpty, both[1..][1..]) == [];
    assert Filter(NonEmpty, both[1..]) == [metadata.owner];
  }

  // ---------------------------------------------------------------------------------------
  // The heuristic record
  // ---------------------------------------------------------------------------------------

  const DefaultActionItems: seq<string> :=
    ["Log call in CRM with AI-generated summary", "Align with account team on risk owners"]

  /** `value || fallback` for a string. */
  function OrElse(value: string, fallback: string): (r: string)
    ensures value != "" ==> r == value
    ensures value == "" ==> r == fallback
  {
    if value != "" then value else fallback
  }

  /** `Math.round(n / 2)` for a count `n`: the integer nearest to half of it, halves rounding
      up. */
  function HalfRounded(n: nat): (m: nat)
    ensures 2 * m - 1 <= n <= 2 * m
  {
    (n + 1) / 2
  }

  /** `Math.max(15, Math.round(n / 2))`: a quarter-hour floor on the estimate. */
  function EstimatedMinutes(sentenceCount: nat): (m: nat)
    ensures m >= 15
    ensures sentenceCount > 30 ==> 2 * m - 1 <= sentenceCount <= 2 * m
    ensures sentenceCount <= 30 ==> m == 15
  {
    var half := HalfRounded(sentenceCount);
    if half >= 15 then half else 15
  }

  /** `buildCallFromTranscript`, with the generated identifier and the current time as
      parameters. */
  function BuildCallFromTranscript(submission: TranscriptSubmission, id: string, now: string): (r: CallRecord)
    ensures r.id == id && r.createdAt == now && r.updatedAt == now
    ensures r.title == OrElse(submission.metadata.title, "Untitled Call")
    ensures r.account == OrElse(submission.metadata.account, "General")
    ensures r.contact == OrElse(submission.metadata.contact, "Unknown contact")
    ensures r.owner == OrElse(submission.metadata.owner, "Unassigned")
    ensures r.status == Ready
    ensures r.transcriptSource == submission.metadata.source
    ensures r.transcriptName == submission.metadata.sourceName
    ensures r.actionItems == DefaultActionItems
    ensures r.durationMinutes == Some(EstimatedMinutes(|SplitSentences(submission.transcript)|) as real)
    ensures SentimentReading(r.sentiment, r.sentimentScore) == DetectSentiment(submission.transcript)
    ensures r.summary == Summary(SplitSentences(submission.transcript))
    ensures r.nextSteps == DeriveNextSteps(SplitSentences(submission.transcript))
    ensures r.objections == DeriveObjections(submission.transcript)
    ensures r.tags == DeriveTags(submission.metadata, submission.transcript)
  {
    var text := submission.transcript;
    var m := submission.metadata;
    var sentences := SplitSentences(text);
    var reading := DetectSentiment(text);
    CallRecord(
      id := id,
      title := OrElse(m.title, "Untitled Call"),
      account := OrElse(m.account, "General"),
      contact := OrElse(m.contact, "Unknown contact"),
      owner := OrElse(m.owner, "Unassigned"),
      summary := Summary(sentences),
      nextSteps := DeriveNextSteps(sentences),
      sentiment := reading.sentiment,
      objections := DeriveObjections(text),
      actionItems := DefaultActionItems,
      tags := DeriveTags(m, text),
      sentimentScore := reading.score,
      status := Ready,
      transcriptSource := m.source,
      transcriptName := m.sourceName,
      durationMinutes := Some(EstimatedMinutes(|sentences|) as real),
      createdAt := now,
      updatedAt := now)
  }

  /** What every heuristic record satisfies, whatever the transcript: identity fields are
      never blank, the summary is never empty, there are two to four next steps and one to
      five objections, the tags have no repeats, the duration is at least a quarter hour, and
      the record was created and updated at the same instant. */
  lemma HeuristicRecordShape(submission: TranscriptSubmission, id: string, now: string)
    ensures var r := BuildCallFromTranscript(submission, id, now);
      && r.title != "" && r.account != "" && r.contact != "" && r.owner != ""
      && r.summary != ""
      && 2 <= |r.nextSteps| <= 4
      && 1 <= |r.objections| <= 5
      && NoDup(r.tags)
      && r.durationMinutes.Some? && r.durationMinutes.value >= 15.0
      && r.createdAt == r.updatedAt
      && r.status == Ready
  {
  }

  // ---------------------------------------------------------------------------------------
  // Merge and routing
  // ---------------------------------------------------------------------------------------

  /** `mergeTags`: the fallback tags when the agent gave none, otherwise the agent's tags
      followed by the fallback tags not among them, each once. */
  function MergeTags(agentTags: Option<seq<string>>, fallbackTags: seq<string>): (r: seq<string>)
    ensures agentTags.None? || |agentTags.value| == 0 ==> r == fallbackTags
    ensures agentTags.Some? && |agentTags.value| > 0 ==>
      && NoDup(r)
      && (forall t :: t in r <==> t in agentTags.value || t in fallbackTags)
      && Dedupe(agentTags.value) <= r
      && (forall i, j :: 0 <= i < j < |r| ==>
            FirstIndex(agentTags.value + fallbackTags, r[i]) < FirstIndex(agentTags.value + fallbackTags, r[j]))
  {
    match agentTags
    case None => fallbackTags
    case Some(tags) =>
      if |tags| == 0 then fallbackTags
      else
        DedupePrefix(tags, fallbackTags);
        DedupeFirstOccurrenceOrder(tags + fallbackTags);
        Dedupe(tags + fallbackTags)
  }

  /** The merge in `buildCallFromNeuralSeek`: the agent's fields over the heuristic record.
      Identity, status, source and timestamps stay the heuristic's; each text or list field is
      the agent's when it gave one; sentiment and score are always the agent's, because the
      agent's reading is never unset. */
  function Merge(fallback: CallRecord, agent: CallAgentResult): (r: CallRecord)
    ensures r.id == fallback.id && r.title == fallback.title && r.account == fallback.account
    ensures r.contact == fallback.contact && r.owner == fallback.owner && r.status == fallback.status
    ensures r.transcriptSource == fallback.transcriptSource && r.transcriptName == fallback.transcriptName
    ensures r.createdAt == fallback.createdAt && r.updatedAt == fallback.updatedAt
    ensures r.summary == agent.summary.GetOr(fallback.summary)
    ensures r.nextSteps == agent.nextSteps.GetOr(fallback.nextSteps)
    ensures r.actionItems == agent.actionItems.GetOr(fallback.actionItems)
    ensures r.objections == agent.objections.GetOr(fallback.objections)
    ensures r.durationMinutes == (if agent.durationMinutes.Some? then agent.durationMinutes else fallback.durationMinutes)
    ensures r.tags == MergeTags(agent.tags, fallback.tags)
    ensures r.sentiment == agent.sentiment.sentiment && r.sentimentScore == agent.sentiment.score
  {
    fallback.(
      summary := agent.summary.GetOr(fallback.summary),
      nextSteps := agent.nextSteps.GetOr(fallback.nextSteps),
      actionItems := agent.actionItems.GetOr(fallback.actionItems),
      objections := agent.objections.GetOr(fallback.objections),
      tags := MergeTags(agent.tags, fallback.tags),
      sentiment := agent.sentiment.sentiment,
      sentimentScore := agent.sentiment.score,
      durationMinutes := if agent.durationMinutes.Some? then agent.durationMinutes else fallback.durationMinutes)
  }

  /** The fallback's sentiment never reaches the merged record: two records merged with the
      same agent result agree on sentiment and score. */
  lemma MergeSentimentIgnoresFallback(f1: CallRecord, f2: CallRecord, agent: CallAgentResult)
    ensures Merge(f1, agent).sentiment == Merge(f2, agent).sentiment
    ensures Merge(f1, agent).sentimentScore == Merge(f2, agent).sentimentScore
  {
  }

  /** An agent that contributed nothing but its (always present) reading leaves the
      heuristic record as it was, apart from sentiment and score. */
  lemma MergeEmptyAgentKeepsFallback(fallback: CallRecord, reading: SentimentReading)
    ensures Merge(fallback, CallAgentResult(None, None, None, None, None, reading, None)) ==
      fallback.(sentiment := reading.sentiment, sentimentScore := reading.score)
  {
  }

  /** `buildCallFromNeuralSeek`: the heuristic record, then one agent exchange whose failure
      is the result's failure. */
  function BuildCallFromNeuralSeek(cfg: Config, submission: TranscriptSubmission, id: string, now: string,
                                   rt: Runtime, send: MaistroRequest -> Result<RawResponse>): (r: Result<CallRecord>)
    ensures r.Ok? <==> RunCallNotesAgent(cfg, submission, rt, send).Ok?
    ensures r.Ok? ==> r.value == Merge(BuildCallFromTranscript(submission, id, now), RunCallNotesAgent(cfg, submission, rt, send).value)
  {
    var fallback := BuildCallFromTranscript(submission, id, now);
    match RunCallNotesAgent(cfg, submission, rt, send)
    case Err(e) => Err(e)
    case Ok(agent) => Ok(Merge(fallback, agent))
  }

  /** `buildCallRecord`: the heuristic record when the agent is not configured, the merged
      record otherwise. */
  function BuildCallRecord(cfg: Config, submission: TranscriptSubmission, id: string, now: string,
                           rt: Runtime, send: MaistroRequest -> Result<RawResponse>): (r: Result<CallRecord>)
    ensures !IsCallNotesAgentConfigured(cfg) ==> r == Ok(BuildCallFromTranscript(submission, id, now))
    ensures IsCallNotesAgentConfigured(cfg) ==> r == BuildCallFromNeuralSeek(cfg, submission, id, now, rt, send)
  {
    if !IsCallNotesAgentConfigured(cfg) then Ok(BuildCallFromTranscript(submission, id, now))
    else BuildCallFromNeuralSeek(cfg, submission, id, now, rt, send)
  }

  /** Without configuration no exchange takes place: the result is the same whatever `send`
      would answer. */
  lemma UnconfiguredIgnoresAgent(cfg: Config, submission: TranscriptSubmission, id: string, now: string,
                                 rt: Runtime, s1: MaistroRequest -> Result<RawResponse>,
                                 s2: MaistroRequest -> Result<RawResponse>)
    requires !IsCallNotesAgentConfigured(cfg)
    ensures BuildCallRecord(cfg, submission, id, now, rt, s1) == BuildCallRecord(cfg, submission, id, now, rt, s2)
  {
  }

  /** Whatever route is taken, a record that comes back keeps the heuristic identity, status
      and timestamps. */
  lemma BuildCallRecordKeepsIdentity(cfg: Config, submission: TranscriptSubmission, id: string, now: string,
                                     rt: Runtime, send: MaistroRequest -> Result<RawResponse>)
    ensures var r := BuildCallRecord(cfg, submission, id, now, rt, send);
      var h := BuildCallFromTranscript(submission, id, now);
      r.Ok? ==> (
        && r.value.id == id && r.value.title == h.title && r.value.account == h.account
        && r.value.contact == h.contact && r.value.owner == h.owner && r.value.status == Ready
        && r.value.createdAt == now && r.value.updatedAt == now)
  {
  }
}
